=== FILE: README.md ===
# A verified model of a multi-tenant restaurant and shop ERP

The system is a business-management application for vendors (restaurants,
shops and other business types). Each vendor owns its menus, orders, staff,
products, stock and categories. A Django REST backend holds the data and a
React client shows it to the signed-in user according to their role and
business type.

This project models the system's core in Dafny and proves properties of it.
Each source file is one Dafny module.

Backend, one module per Django file:

- `InventoryModels`, `InventorySerializers`, `InventoryViews`:
  - stock movements and their validation;
  - a sale's revenue, cost, commission and profits;
  - `process_sale`'s stock decrement and the sale it inserts or rewrites, and the sale viewset's `process_sale` action;
  - SKU generation;
  - the product and sale validators;
  - the views that stamp the vendor's category and tool onto new rows.
- `RestaurantModels`, `RestaurantSerializers`:
  - the order, menu and staff-role choice tables;
  - order-item validation, including the quantity field's range;
  - order creation and update, including the running total, the duplicate-menu check and the one-item-per-menu constraint;
  - staff role lookup.
- `CategoriesModels`, `CategoriesSerializers`, `CategoriesViews`,
  `CategoryModels`, `CategorySerializers`, `CategoryViews`:
  - the two category apps' `clean` rules;
  - image keeping and removal on update;
  - the serializers' field checks and ownership checks;
  - query filtering;
  - the attribute-value detail endpoints.
- `UserModels`, `UserManagers`, `UserSerializers`, `ProfileSerializers`:
  - username derivation and names;
  - `create_user` and `create_superuser`;
  - registration validation and creation;
  - the representation's role;
  - profile updates.
- `VendorUtils`, `VendorViews`, `SubdomainMiddleware`:
  - subdomain and URL formatting;
  - vendor creation;
  - reading the subdomain off the request's host.
- `Tenancy`: rows owned by a vendor, and the filter to one vendor's rows.

Client, one module per React file:

- `AuthSlice`: the Redux auth state, its reducers, and the sign-in thunk.
- `AxiosClient`: the instance's default header merged into each request,
  the request interceptor that attaches the bearer token, and the response
  interceptor that refreshes once on a 401.
- `AppBoot`: the boot-time token expiry check and user rehydration.
- `ProtectedRoutes`, `NavigationConfig`, `Sidebar`, `DashboardPage`:
  - the route guard;
  - the navigation table and its role and business filter;
  - the dashboard selection.
- `Helpers`: the order status colours.
- `ApiCommon`, `RestaurantApi`, `CategoryApi`, `ProfileApi`, `AdminApi`:
  - the `FormData` bodies the API helpers build;
  - the unwrapping of list replies.
- `StaffFormModal`, `RegisterPage`: form logic and validation.
- `RestaurantManagerDashboard`, `ShopManagerDashboard`: the dashboards' counts.

Shared modules:

- `Wrappers`: `Option` and `Result`.
- `Text`: ASCII case mapping, splitting, decimal digits, and Python's `str.strip()` and `int()` on text.
- `Js`: JavaScript values, truthiness, objects as ordered entries, `String()`,
  and `localStorage`.
- `Tables`: filtering, counting and finding over sequences.
- `DrfFields`: the text and choice fields Django REST framework builds for a
  model's columns.

How the model represents the source:

- Database tables are sequences or maps of rows, passed in and returned.
- Objects that the source updates in place are classes whose methods state
  their whole new state. These are the auth store, `localStorage`, a
  `FormData` buffer, the axios client, a stock row, the sale table and an
  order being saved.
- Loops become methods proved against specification functions.
- Foreign code and I/O are parameters. This covers password hashing, e-mail
  validation, Django's conversion of text to a UUID primary key, `jwtDecode`,
  the clock, the default roles, the server and the random SKU number.
- Unique and NOT NULL columns are enforced where rows are saved: a save
  takes the keys the other stored rows hold and returns the IntegrityError
  the database raises.

## Model

| member | source | states |
|---|---|---|
| InventoryModels.CleanMovement | backend/apps/inventory/models.py:105-124 | a transfer fails without both warehouses, then fails when they are the same; an incoming movement fails exactly without a destination, an outgoing one exactly without a source; any other type passes |
| InventoryModels.CleanMovementAcceptsExactly | backend/apps/inventory/models.py:105-124 | `clean` accepts exactly the movements where a transfer has two different warehouses, "in" has a destination and "out" has a source |
| InventoryModels.GetStock | backend/apps/inventory/models.py:152-156 | the product's first stock row, or the "No stock available" error exactly when there is none |
| InventoryModels.TotalCost | backend/apps/inventory/models.py:161-163 | succeeds exactly when the product has a stock row |
| InventoryModels.Commission | backend/apps/inventory/models.py:165-175 | the commission is `commission_percent`/100 of the total cost, and raises exactly without a stock row |
| InventoryModels.SellerProfit | backend/apps/inventory/models.py:177-192 | succeeds exactly when the product has a stock row |
| InventoryModels.CompanyProfit | backend/apps/inventory/models.py:194-204 | succeeds exactly when the product has a stock row |
| InventoryModels.NoStockRowRaises | backend/apps/inventory/models.py:152-204 | without a stock row, cost, commission, seller profit and company profit all raise |
| InventoryModels.SellerProfitAtLeastCommission | backend/apps/inventory/models.py:177-192 | the seller profit is at least the commission, and equals it when the selling price is at or below the purchase price |
| InventoryModels.CommissionIgnoresSellingPrice | backend/apps/inventory/models.py:165-175 | changing the selling price leaves the commission unchanged |
| InventoryModels.CommissionWithinCost | backend/apps/inventory/models.py:161-175 | with a percentage in 0..100 and a non-negative purchase price, 0 <= commission <= total cost |
| InventoryModels.ProfitSplit | backend/apps/inventory/models.py:158-204 | company profit = (selling − purchase) × quantity − commission; company plus seller profit = (margin + clamped margin) × quantity |
| InventoryModels.CleanSale | backend/apps/inventory/models.py:136-156 | with no stock row `get_stock` raises first, so the "product" error is never recorded; a missing quantity raises a TypeError; the sale is valid exactly with a positive quantity, a price, and enough stock |
| InventoryModels.ProcessSale | backend/apps/inventory/models.py:206-213 | with fewer units in stock than sold it refuses, and neither the stock row nor the sale table changes; otherwise the row's quantity drops by exactly the sale's quantity, whether or not the sale was stored before, and the sale is saved: a new sale is appended under a fresh key, a stored one rewrites its own row in place; price and commission are untouched |
| InventoryModels.SaleTable.Save | backend/apps/inventory/models.py:213 | a sale without a key is inserted as the last row under a key no row holds; a sale with a stored key rewrites exactly that row and leaves the others where they were; a key no row holds is inserted under that key; one row per key is kept |
| InventoryModels.NextPk | backend/apps/inventory/models.py:213 | the key given to an inserted row is above every stored key, so it is fresh |
| InventoryModels.SaleByPk | backend/apps/inventory/views.py:68 | `get_object` finds a sale exactly when a row holds the key, and returns that row's columns |
| InventoryModels.ResaveChangesNothing | backend/apps/inventory/models.py:213 | with one row per key, saving a stored sale with the columns it holds leaves the table unchanged |
| InventoryModels.GeneratedSkuShape | backend/apps/inventory/models.py:23-28 | the generated SKU is the upper-cased first (up to) three characters of the category name, "-GEN-", then four digits that read back as the random number |
| InventoryModels.Product.Save | backend/apps/inventory/models.py:17-28 | a non-empty SKU is kept; an empty one becomes the generated SKU, which is not checked against the stored ones; afterwards the SKU is never empty, and the unique column refuses the row exactly when another product has that SKU |
| InventorySerializers.ValidateTool | backend/apps/inventory/serializers.py:39-55 | no or empty `category` lets any tool through; a category that Django cannot read as a UUID fails the field; an unknown one fails with "Category not found."; otherwise the tool passes exactly when the category lists it; on success the value is returned unchanged |
| InventorySerializers.ToolField | backend/apps/inventory/serializers.py:23-55 | the `tool` field passes exactly when its trimmed value is non-blank, has at most 100 characters and passes `validate_tool`, and then yields the trimmed value; a blank value is "may not be blank", an overlong one "no more than 100 characters" |
| InventorySerializers.ToolFieldIgnoresPadding | backend/apps/inventory/serializers.py:23 | whitespace around the tool changes neither whether the field passes nor the value it yields |
| InventorySerializers.DefaultTool | backend/apps/inventory/serializers.py:57-65 | a listed tool is kept; otherwise the first listed tool; with no tools listed the given tool stays |
| InventorySerializers.DefaultToolIdempotent | backend/apps/inventory/serializers.py:57-65 | defaulting a tool twice gives the same tool as defaulting once |
| InventorySerializers.ValidateMovement | backend/apps/inventory/serializers.py:123-142 | the serializer accepts exactly what the model's `clean` accepts, returns the data unchanged, and reports a single error under the key and text that belong to the failed rule |
| InventorySerializers.ValidateSale | backend/apps/inventory/serializers.py:179-201 | each failing rule leaves its key in one error dictionary; a missing quantity with a stock row raises a TypeError; the data passes exactly with a positive quantity, a price and, when a product is named, a stock row with enough units |
| InventorySerializers.ValidatorsAgree | backend/apps/inventory/serializers.py:179-201 | for a named product with a stock row the serializer and the model's `clean` accept the same sales; without a stock row `clean` raises from `get_stock` |
| InventorySerializers.CommissionPercent | backend/apps/inventory/serializers.py:203-208 | the first stock row's `commission_percent`, or None exactly when there is no stock row |
| InventorySerializers.CommissionPercentNoneWhenAmountsRaise | backend/apps/inventory/serializers.py:203-220 | the percentage reads None exactly when the commission and the company profit raise |
| InventorySerializers.CreateSale | backend/apps/inventory/serializers.py:222-226 | the sale is created exactly when the stock row holds enough units, which then drop by the sale's quantity; the unsaved sale is stored under a fresh key as the table's last row; on refusal neither the stock row nor the sale table changes |
| InventoryViews.ProcessSaleAction | backend/apps/inventory/views.py:66-70 | 404 exactly for an unknown key; for a stored sale, 200 exactly when its product's first stock row holds enough units, which then drop by the sale's quantity a second time (the sale was processed when created); the sale table never changes |
| InventoryViews.CreateProductForCategory | backend/apps/inventory/views.py:16-44 | as written: 404 exactly for an unknown category, 400 exactly for one without tools, 400 from validation exactly when the other fields are invalid or the chosen tool, trimmed, is blank, too long or not listed (with tidy tool names: exactly when the other fields are invalid); every other request ends in the NOT NULL `vendor` error, so no product is ever created |
| InventoryViews.ProductData | backend/apps/inventory/views.py:31-39 | the validated copy keeps every other field of the body, has the path's category id as `str()` writes it, and a listed tool: the client's when listed, else the first |
| InventoryViews.ToolCheckOnPathCategory | backend/apps/inventory/views.py:31-41 | with the category id the view writes, the serializer's `tool` field passes exactly when the trimmed tool is non-blank, at most 100 characters and listed by the category |
| InventoryViews.CreateProductForCategoryStamped | backend/apps/inventory/views.py:16-59 | corrected, saving with the requester's vendor as `perform_create` does: the same 404 and 400 answers; valid data from a requester without a vendor raises; otherwise the product is created under the requester's vendor with the path's category and the trimmed listed tool; never the NOT NULL error |
| InventoryViews.UnstampedSaveFails | backend/apps/inventory/views.py:41-59 | wherever the corrected view creates a product the view as written answers with the NOT NULL error; on every other request except a requester without a vendor the two answer alike |
| InventoryViews.CleanCategoryCreates | backend/apps/inventory/views.py:16-44 | for every category with tidy tool names, a valid body and a requester with a vendor, the corrected view creates the product while the view as written fails |
| InventoryViews.ProductTools | backend/apps/inventory/views.py:51-55 | the product's category's tool list, or None (404) exactly for an unknown product |
| Tenancy.StampVendor | backend/apps/inventory/views.py:57-59 | the saved row carries the requester's vendor and the data unchanged; a requester with no vendor raises |
| Tenancy.ScopedRows | backend/apps/categories/views.py:23-24 | the rows a listing selects are exactly the requester's vendor's rows, all of them and no others, taken from the table without reordering; a requester without a vendor raises |
| Tenancy.StampedRowIsListed | backend/apps/categories/views.py:23-27 | a row created by a requester appears in that requester's scoped listing |
| CategoriesModels.InsertCategory | backend/apps/categories/models.py:19-26 | an insert succeeds exactly when the vendor has no category of that name, appends the row, and keeps (vendor, name) unique |
| CategoriesModels.CleanAttribute | backend/apps/categories/models.py:62-87 | the first failing check decides: a tool key the category does not list, then a vendor other than the category's, then another row with the same name, category and tool key; it passes exactly when none applies |
| CategoriesModels.CleanAttributeOnSavedRow | backend/apps/categories/models.py:62-90 | a stored attribute consistent with its category passes `clean` again, because its own row is excluded from the duplicate search |
| CategoriesModels.CleanAttributeMatchesConstraint | backend/apps/categories/models.py:76-90 | for a new attribute past the first two checks, `clean` passes exactly when the `unique_together` insert would succeed |
| CategoriesModels.CleanAttributeValue | backend/apps/categories/models.py:112-133 | no attribute: nothing is checked; otherwise a vendor mismatch, then another row with the same attribute and text, is the error |
| CategoriesModels.CleanAttributeValueOnSavedRow | backend/apps/categories/models.py:112-136 | a stored value owned by its attribute's vendor passes `clean` again |
| CategoriesSerializers.ValidateValueData | backend/apps/categories/serializers.py:12-21 | the data comes back unchanged exactly when the attribute belongs to the requester's vendor; otherwise "only your own attributes", or the vendor lookup raising |
| CategoriesSerializers.ValidateAttributeData | backend/apps/categories/serializers.py:44-53 | the data comes back unchanged exactly when the category belongs to the requester's vendor; otherwise "only your own categories", or the vendor lookup raising |
| CategoriesSerializers.RowByPk | backend/apps/categories/serializers.py:6-10 | a related-key field finds a row exactly when the request gives a key that some stored row has, and the row found has that key |
| CategoriesSerializers.ValueFieldErrors | backend/apps/categories/models.py:97-103 | `attribute` is refused exactly when it names no stored attribute, and `attribute_value` exactly when it is absent or, once trimmed, blank or over 255 characters |
| CategoriesSerializers.CreateAttributeValue | backend/apps/categories/serializers.py:6-25 | the refused fields are reported together, before anything else; past them a value is stored, stamped with the requester's vendor and with its trimmed text, exactly when no row has the same attribute and trimmed text and the attribute is the requester's; a clash is NotUnique; the key stays unique |
| CategoriesSerializers.CreateValueIgnoresPadding | backend/apps/categories/serializers.py:6-25 | whitespace around the value changes nothing, so " red" is refused wherever "red" is taken |
| CategoriesSerializers.CreatedValuePassesClean | backend/apps/categories/serializers.py:12-25 | a value created through the API, with its trimmed text, satisfies `AttributeValue.clean` |
| CategoriesSerializers.AttributeFieldErrors | backend/apps/categories/models.py:39-55 | `category` is refused exactly when it names no stored category; `name` and `tool_key` exactly when absent or, once trimmed, blank or over 50 and 100 characters; a given `attribute_type` exactly when it is not one of the four choices; the JSON `attribute_value` exactly when absent |
| CategoriesSerializers.CreateAttribute | backend/apps/categories/serializers.py:28-57 | the refused fields are reported together, before anything else; past them an attribute is stored, stamped with the requester's vendor, with trimmed name and tool key and the given or default type, exactly when its trimmed (name, category, tool key) is new and the category is the requester's; a clash is NotUnique; the key stays unique |
| CategoriesSerializers.CreatedAttributeCleanIffToolListed | backend/apps/categories/serializers.py:44-57 | an attribute created through the API passes `Attribute.clean` exactly when its trimmed tool key is listed by the category: the API never checks the tool |
| CategoriesSerializers.ToolKeyNotCheckedOnCreate | backend/apps/categories/serializers.py:44-57 | for every stored category without tools, a well-formed attribute whose trimmed key is new is still created, and `clean` would reject it for its tool |
| CategoriesSerializers.CreateCategory | backend/apps/categories/serializers.py:60-68 | a name that is absent or, once trimmed, blank or over 255 characters is refused first; otherwise it fails exactly when the requester has no vendor or the vendor already has a category of the trimmed name (refused by the database), and else appends the row with the trimmed name and the requester's vendor |
| CategoriesSerializers.CategoryNameIgnoresPadding | backend/apps/categories/serializers.py:60-68 | whitespace around the name changes nothing, so "Tools " is refused wherever "Tools" is taken |
| CategoriesViews.HasObjectPermission | backend/apps/categories/views.py:11-16 | granted exactly when the requester has a vendor and the object's vendor is that vendor; an object without a vendor is always refused |
| CategoriesViews.GetObject | backend/apps/categories/views.py:19-49 | a requester without a vendor raises; otherwise 404 exactly when none of the requester's rows has the primary key; a found row has the key and passes the object permission |
| CategoriesViews.GetObjectNeverForbidden | backend/apps/categories/views.py:11-49 | because detail lookups go through the scoped queryset, the object permission never answers 403 |
| CategoriesViews.ScopedRowsPermitted | backend/apps/categories/views.py:11-46 | every row a requester is listed passes the object permission |
| CategoryModels.InsertCategory | backend/apps/category/models.py:25-28 | an insert succeeds exactly when the vendor has no category of that name, appends the row, and keeps (vendor, name) unique |
| CategoryModels.DefaultIsNotAChoice | backend/apps/category/models.py:32-43 | the default "select attribute type" is none of the three choices |
| CategoryModels.CleanAttributeTypeAsWritten | backend/apps/category/models.py:57-63 | as written, passes exactly when no stored row at all has the same (name, category) |
| CategoryModels.SavedAttributeTypeFailsCleanAsWritten | backend/apps/category/models.py:57-63 | as written, cleaning any saved attribute type fails, because its own row matches |
| CategoryModels.CleanAttributeType | backend/apps/category/models.py:57-66 | corrected: passes exactly when no row other than the object's own has the same (name, category) |
| CategoryModels.CleanAttributeTypeOnSavedRow | backend/apps/category/models.py:57-66 | with (name, category) unique, every saved row passes the corrected check |
| CategoryModels.CleanAttributeTypeMatchesConstraint | backend/apps/category/models.py:57-66 | for a new object the corrected check passes exactly when the `unique_together` insert would succeed |
| CategoryModels.CleanAttributeValueAsWritten | backend/apps/category/models.py:90-96 | as written, passes exactly when no stored row at all has the same (attribute, value) |
| CategoryModels.SavedAttributeValueFailsCleanAsWritten | backend/apps/category/models.py:90-96 | as written, cleaning any saved attribute value fails, because its own row matches |
| CategoryModels.CleanAttributeValue | backend/apps/category/models.py:90-99 | corrected: passes exactly when no row other than the object's own has the same (attribute, value) |
| CategoryModels.CleanAttributeValueOnSavedRow | backend/apps/category/models.py:90-99 | with (attribute, value) unique, every saved row passes the corrected check |
| CategoryModels.CleanAttributeValueMatchesConstraint | backend/apps/category/models.py:90-99 | for a new object the corrected check passes exactly when the `unique_together` insert would succeed |
| CategorySerializers.ParseAll | backend/apps/category/serializers.py:58-60 | `list(map(int, ...))`: raises exactly when some piece is not a number `int` reads; otherwise one number per piece, each the piece's value |
| CategorySerializers.NonEmptyPieces | backend/apps/category/serializers.py:58 | `filter(None, text.split(","))`: every piece kept is non-empty and holds no comma |
| CategorySerializers.ParseKeptIds | backend/apps/category/serializers.py:56-62 | text is split on commas with empty pieces dropped, a list is converted element by element, anything else gives no ids |
| CategorySerializers.EmptyKeptText | backend/apps/category/serializers.py:56-58 | an absent field ("") and a field of commas only parse to no ids |
| CategorySerializers.KeptIdsRoundTrip | backend/apps/category/serializers.py:56-58 | ids the client joins with "," parse back to the same ids, in order |
| CategorySerializers.CategoryCreate | backend/apps/category/models.py:9-28 | `Category.objects.create(**kwargs)`: a keyword that names no field raises TypeError; otherwise the row is inserted exactly when both the vendor and the owner are given, and refused by a NOT NULL column when either is missing |
| CategorySerializers.SerializerCreateRaises | backend/apps/category/serializers.py:39-41 | the serializer's validated data (`vendor`, `name`, `stages`) makes the create raise TypeError, and without `stages` it would still miss the NOT NULL owner |
| CategorySerializers.IntendedCreateSucceeds | backend/apps/category/models.py:9-28 | the vendor, the name and the owner insert a category row |
| CategorySerializers.ImageStore.AddImages | backend/apps/category/serializers.py:43-44 | one image row per uploaded file, appended in order with consecutive new ids |
| CategorySerializers.ImageStore.CreateCategory | backend/apps/category/serializers.py:39-46 | the create answers as `Category.objects.create` does on the given keywords; when it raises no image is stored, otherwise one image per uploaded file is appended for the new category |
| CategorySerializers.ImageStore.CreateCategoryIntended | backend/apps/category/serializers.py:39-46 | corrected, passing the model fields and the owner: the create never raises, and exactly one image per uploaded file is appended for the new category |
| CategorySerializers.ImageStore.UpdateCategoryImages | backend/apps/category/serializers.py:48-73 | a `kept_image_ids` with a piece `int` cannot read raises with nothing changed; otherwise the uploads are stored and exactly the category's earlier images whose ids are not kept are deleted |
| CategorySerializers.UpdateKeepsExactly | backend/apps/category/serializers.py:52-71 | after an update, an earlier image of the category survives exactly when its id is kept, other categories' images all survive, and no new upload is deleted |
| CategoryViews.ParamFilter | backend/apps/category/views.py:140-146 | an absent or empty query parameter selects nothing; any other value filters by the number `int` reads from it, and raises when `int` cannot read one |
| CategoryViews.MenuQueryset | backend/apps/category/views.py:135-148 | the menus listed are exactly those matching both given selections, in table order; with neither parameter all menus; an unparsable parameter raises |
| CategoryViews.AttributeValueErrors | backend/apps/category/serializers.py:95-107 | the attribute field fails exactly when it names no stored type; the value field fails exactly when it is missing or, once surrounding whitespace is trimmed, empty or over 255 characters; the unique-together error appears exactly when both fields are valid and another row has the pair with the trimmed value |
| CategoryViews.ResolveCategoryRoute | backend/apps/category/urls.py:5-16 | only paths under the categories prefix resolve, and the prefix alone is exactly the list route |
| CategoryViews.LookupValue | backend/apps/category/views.py:57-60 | `objects.get(pk=pk)` finds a row with that key exactly when one exists |
| CategoryViews.GetAttributeValue | backend/apps/category/views.py:55-63 | 404 exactly when no row has the key, otherwise 200 with that row |
| CategoryViews.Replaced | backend/apps/category/views.py:72-75 | saving an update rewrites only the row with the key, keeping every other row and the table's length |
| CategoryViews.PutAttributeValue | backend/apps/category/views.py:65-76 | 404 for an unknown key, 400 exactly when the serializer reports errors, both with the table unchanged; otherwise 200 with the row's new attribute and trimmed value, stored in that row only |
| CategoryViews.PostAttributeValue | backend/apps/category/views.py:43-49 | invalid data gets 400 with the serializer's errors; valid data reaches a save without a vendor, which the NOT NULL column refuses; the table never changes |
| CategoryViews.DeleteAttributeValue | backend/apps/category/views.py:78-86 | 404 with nothing changed for an unknown key, otherwise 204 with exactly the rows of other keys left |
| CategoryViews.DeleteThenGetNotFound | backend/apps/category/views.py:55-86 | after a delete a get of the same key is 404 and every other row is still stored |
| CategoryViews.PutKeepsUnique | backend/apps/category/views.py:65-76 | a successful update keeps primary keys unique and keeps the (attribute, value) pairs unique |
| CategoryViews.PutThenGet | backend/apps/category/views.py:55-76 | reading a row back after a successful update gives the new attribute and the trimmed value |
| CategoryViews.PutIgnoresPadding | backend/apps/category/serializers.py:95-106 | whitespace around the value changes neither the validation errors nor the answer and table an update gives |
| CategoryViews.CategoryAttributes | backend/apps/category/views.py:105-127 | 404 exactly for an unknown category, otherwise the category's attribute types and the values whose attribute type belongs to it |
| CategoryViews.CategoryAttributesConsistent | backend/apps/category/views.py:114-125 | every listed value's attribute is a listed type, every listed type is the category's, and a value is listed exactly when its attribute is a listed type |
| RestaurantModels.ParseStatus | backend/apps/restaurant/models.py:51-56 | a stored status text is read as the choice whose key it is, and as nothing when it is not one of the five keys |
| RestaurantModels.StatusKeyRoundTrip | backend/apps/restaurant/models.py:51-64 | each order status's key reads back as that status, so the five keys are distinct; pending is the default |
| RestaurantModels.ParseChoiceType | backend/apps/restaurant/models.py:14-17 | a stored choice type text is read as the choice whose key it is |
| RestaurantModels.ChoiceTypeKeyRoundTrip | backend/apps/restaurant/models.py:14-34 | each menu choice type's key reads back as that choice; dropdown is the default |
| RestaurantModels.ParseRoleType | backend/apps/restaurant/models.py:99-104 | a role text is read as the role whose key it is |
| RestaurantModels.RoleTypeKeyRoundTrip | backend/apps/restaurant/models.py:99-104 | each staff role's key reads back as that role |
| RestaurantModels.RoleTypeKeysExactly | backend/apps/restaurant/models.py:99-104 | the role keys are exactly manager, cashier, chef, waiter and cleaner |
| RestaurantModels.CleanOrderItem | backend/apps/restaurant/models.py:86-90 | an item passes exactly when quantity is at least 1 and price is positive; a bad quantity is reported whatever the price |
| RestaurantModels.InsertOrderItem | backend/apps/restaurant/models.py:95-96 | an insert succeeds exactly when the order has no item for that menu yet, appends the row, and keeps (order, menu) unique |
| RestaurantModels.InsertMenu | backend/apps/restaurant/models.py:46-47 | an insert succeeds exactly when the vendor has no menu of that name yet, appends the row, and keeps (vendor, name) unique |
| RestaurantSerializers.ValidateItem | backend/apps/restaurant/serializers.py:53-65 | a quantity below 0 or above the largest positive integer is refused by its field first; a missing quantity raises KeyError in `validate`; past these the serializer accepts exactly the items the model's clean accepts, with the same first error, and returns the entry as given |
| RestaurantSerializers.NegativeQuantityIsAFieldError | backend/apps/restaurant/models.py:82 | a negative quantity is the field's error, not "at least 1", while a quantity of 0 reaches `validate` and gets "at least 1" |
| RestaurantSerializers.ValidateItems | backend/apps/restaurant/serializers.py:86-95 | the item list is accepted exactly when no menu occurs twice, and comes back unchanged |
| RestaurantSerializers.ItemsTotalAppend | backend/apps/restaurant/serializers.py:100-104 | the running total over two lists in a row is the sum of their totals |
| RestaurantSerializers.ItemsTotalPositive | backend/apps/restaurant/serializers.py:60-65 | validated items add up to a positive total, or to 0 when there are none |
| RestaurantSerializers.Order.AddItems | backend/apps/restaurant/serializers.py:102-104 | one item row per entry, appended in order, with the sum of quantity times price returned, exactly when no entry repeats a menu the order already has; otherwise the loop stops with an IntegrityError at the first such entry and the items before it stay; the order's menus stay distinct |
| RestaurantSerializers.MenuCheckIsTheConstraint | backend/apps/restaurant/models.py:95-96 | the loop's menu check is the `OrderItem` table's unique (order, menu) insert, whatever rows other orders have |
| RestaurantSerializers.Order.Update | backend/apps/restaurant/serializers.py:110-129 | absent fields keep their values; without items the items and total are untouched, with items (whose menus `validate_items` made distinct) the old items are replaced and the total is recomputed from the new list alone; the menus stay distinct |
| RestaurantSerializers.CreateOrder | backend/apps/restaurant/serializers.py:97-108 | for entries whose menus `validate_items` made distinct, the new order holds one item per entry, defaults to pending, and its total is the sum of quantity times price |
| RestaurantSerializers.CreateOrderWithoutTotal | backend/apps/restaurant/serializers.py:132-144 | the order row is created and no total is set; it fails with an IntegrityError exactly when a menu repeats, and then only the items before the first repeat are stored; otherwise the order holds all the items |
| RestaurantSerializers.LookupRole | backend/apps/restaurant/serializers.py:156 | a role key finds the stored role exactly when one has that key |
| RestaurantSerializers.CreateStaff | backend/apps/restaurant/serializers.py:154-159 | a staff member is created exactly when the role key is stored, with that role and the given vendor |
| RestaurantSerializers.UpdateStaff | backend/apps/restaurant/serializers.py:161-166 | the role is replaced only when a key is supplied; an unknown key fails with nothing assigned |
| UserModels.FullName | backend/apps/users/models.py:60-62 | the full name is exactly one character longer than the two names together |
| UserModels.FullNameParts | backend/apps/users/models.py:60-62 | the full name is never empty and splits back, at the space after the first name, into the two title-cased names |
| UserModels.FullNameStable | backend/apps/users/models.py:60-62 | title-casing the names again leaves the full name as it was |
| UserModels.UserString | backend/apps/users/models.py:57-58 | the string of a user is always its full name: the e-mail fallback is never reached, the full name being non-empty |
| UserModels.UsernameFromEmail | backend/apps/users/models.py:70-75 | a username is derived exactly when the e-mail splits into two parts at "@", and it is the part before the "@" |
| UserModels.UsernameOfAddress | backend/apps/users/models.py:70-72 | an address with a single "@" gives the local part as the username |
| UserModels.UsernameOfOddAddress | backend/apps/users/models.py:73-75 | an address with no "@" or with two gives no username |
| UserModels.User.ShortName | backend/apps/users/models.py:64-66 | the short name is the first name as entered |
| UserModels.User.Save | backend/apps/users/models.py:24-76 | a non-empty username is kept; an empty or missing one becomes the e-mail's local part, or None when the e-mail does not split into two; the unique columns refuse the row exactly when another user has its e-mail or its (non-null) username |
| UserManagers.NormalizeEmail | backend/apps/users/managers.py:21-22 | an address without "@" is left alone; otherwise it is stripped of surrounding whitespace, keeps its "@" and the stripped length, and each character is kept or lower-cased |
| UserManagers.LowerDomain | backend/apps/users/managers.py:22 | rejoining the split at the last "@" with the domain lower-cased keeps an "@" and the length, and changes each character at most by lower-casing it |
| UserManagers.NormalizeEmailIdempotent | backend/apps/users/managers.py:21-23 | normalising an address twice gives what normalising once gives |
| UserManagers.LowerDomainIdempotent | backend/apps/users/managers.py:22 | lower-casing the domain of an address whose domain is already lower-cased changes nothing |
| UserManagers.CreateUserCheck | backend/apps/users/managers.py:9-25 | the first failing check, in the order first name, last name, missing e-mail, invalid normalised e-mail, decides the error; none fails exactly when all hold |
| UserManagers.UserDefaults | backend/apps/users/managers.py:27-29 | a flag the caller gave is kept; a missing staff or superuser flag becomes False and a missing active flag True |
| UserManagers.UserDefaultsIdempotent | backend/apps/users/managers.py:27-29 | applying the defaults twice changes nothing |
| UserManagers.CreateUser | backend/apps/users/managers.py:16-46 | fails exactly when the checks fail, with their error, or when the database refuses the row because another user has the normalised e-mail or the username save settles on; otherwise a new user with the normalised e-mail, the defaulted flags, the given or default role, a hashed or unusable password, and that username |
| UserManagers.NewUser | backend/apps/users/managers.py:27-46 | the constructed user has the defaulted flags, the given or default role, a hashed password when one was given and an unusable one otherwise, and the username save settles on; the save is refused exactly when the e-mail or that username is taken |
| UserManagers.SuperuserCheck | backend/apps/users/managers.py:49-60 | after defaulting both flags to True, a flag given as False, then a missing password, then a missing e-mail is refused, each with its own error |
| UserManagers.CreateSuperuser | backend/apps/users/managers.py:48-66 | succeeds exactly when both sets of checks pass and no other user has the normalised e-mail or the username; the superuser is staff and superuser, has the given or default admin role, a hashed password and the normalised e-mail |
| UserSerializers.ValidatePasswords | backend/apps/users/serializers.py:79-82 | registration data passes exactly when the two passwords are equal; otherwise the error "Passwords must match." is reported under "password" |
| UserSerializers.RegisteredUsername | backend/apps/users/serializers.py:89-92 | a non-empty given username is used; otherwise the e-mail's prefix before its first "@", which contains no "@" |
| UserSerializers.RegisteredUsernameAgreesWithSave | backend/apps/users/serializers.py:89-92 | for an address with one "@", registration and the model's save derive the same username |
| UserSerializers.Register | backend/apps/users/serializers.py:84-108 | refused by the database exactly when another user has the e-mail or the derived username; otherwise the new user is active, not staff, has the default role and the given business type, stores only the hash of password1, and gets the derived username |
| UserSerializers.ToRepresentation | backend/apps/users/serializers.py:49-53 | the serialised fields are kept as they are, and "admin" = True is added exactly for a superuser |
| UserSerializers.GetProfilePhoto | backend/apps/users/serializers.py:41-47 | the photo's URL exactly when the profile has a photo with a readable URL, None in every failing case |
| ProfileSerializers.Profile.AssignFields | backend/apps/profiles/serializers.py:56-57 | every supplied field takes its new value and every other field keeps its old one |
| ProfileSerializers.UpdateProfile | backend/apps/profiles/serializers.py:51-66 | the profile fields are always assigned; a supplied role raises with the user row unchanged; otherwise each supplied user field is assigned, the rest kept, the username re-derived by save when empty, the user's save refused exactly when another user has the e-mail or that username, and the same profile returned on success |
| ProfileSerializers.UpdateProfileFields | backend/apps/profiles/serializers.py:69-88 | exactly the supplied editable fields change, so the read-only country keeps its value or stays absent |
| VendorUtils.Owner | backend/apps/vendor/utils.py:3-10 | the owner is the instance's own user, else its vendor's user, else its product's vendor's user, in that order |
| VendorUtils.Extension | backend/apps/vendor/utils.py:13 | the extension holds no "." and is the whole name when the name has none |
| VendorUtils.UserDirectoryPath | backend/apps/vendor/utils.py:2-19 | with an owner the path is `user_<id>/<id>.<ext>`, otherwise `user_file/file.<ext>` |
| VendorUtils.PathIgnoresBaseName | backend/apps/vendor/utils.py:13-18 | two uploads with the same extension are stored at the same path, whatever their base names |
| VendorUtils.ExtensionOf | backend/apps/vendor/utils.py:13 | the extension of `base.ext` is `ext`, whatever dots the base holds |
| VendorUtils.PathKeepsExtension | backend/apps/vendor/utils.py:12-19 | the stored path has the upload's extension when the owner's id has no "." |
| VendorViews.VendorStore.Register | backend/apps/vendor/views.py:14-39 | refused with 400 and nothing created exactly when the requester already owns a vendor; otherwise one row for the requester with the body's fields, keeping one vendor per user |
| VendorViews.RegisterTwice | backend/apps/vendor/views.py:17-21 | a second registration by the same user is always refused |
| SubdomainMiddleware.Subdomain | backend/apps/restaurant/subdomain_middleware.py:6-12 | with the port cut off, a host of more than two labels has its first label as subdomain, which holds no "." or ":"; otherwise none |
| SubdomainMiddleware.ThreeLabels | backend/apps/restaurant/subdomain_middleware.py:6-10 | a host `sub.name.tld:port` has subdomain `sub` |
| SubdomainMiddleware.Request.ProcessRequest | backend/apps/restaurant/subdomain_middleware.py:5-12 | the request's subdomain is set to the one its host names |
| AuthSlice.AuthState.constructor | api/src/features/auth/authSlice.jsx:29-34 | the initial state: no user, not authenticated, not loading, no error |
| AuthSlice.AuthState.Logout | api/src/features/auth/authSlice.jsx:41-48 | both tokens are removed from storage, the rest of it kept, and the state is initial again |
| AuthSlice.AuthState.SetUser | api/src/features/auth/authSlice.jsx:50-53 | authenticated with the given user; loading and error are kept |
| AuthSlice.AuthState.Pending | api/src/features/auth/authSlice.jsx:57-60 | loading with no error; user and authentication kept |
| AuthSlice.AuthState.Fulfilled | api/src/features/auth/authSlice.jsx:61-66 | not loading, authenticated, the payload's user, no error |
| AuthSlice.AuthState.Rejected | api/src/features/auth/authSlice.jsx:67-72 | not loading, signed out, the rejection's payload as the error |
| AuthSlice.RejectionPayload | api/src/features/auth/authSlice.jsx:22-24 | an error response rejects with its body; no response at all rejects with no payload |
| AuthSlice.LoginUserAsWritten | api/src/features/auth/authSlice.jsx:5-27 | the thunk as written: both tokens stored once the token request succeeds, and kept when the profile request fails; fulfilled with the whole profile body as the user |
| AuthSlice.LoginUser | api/src/features/auth/authSlice.jsx:5-72 | the same sign-in storing the profile inside the body as the user, the shape the rest of the client reads |
| AppBoot.LiveIff | api/src/App.jsx:17-18 | a token is live exactly when its expiry in milliseconds is after the clock, so one expiring at this very instant is expired |
| AppBoot.BootDecision | api/src/App.jsx:13-36 | nothing happens exactly when no token is stored; a malformed token signs out; the profile is fetched exactly when the token has an expiry still in the future; an expired or undated token signs out |
| AppBoot.Boot | api/src/App.jsx:12-37 | with no token the store and storage are untouched; a successful fetch signs in as the body's profile; every other path leaves the initial state with both tokens removed |
| AppBoot.EnvelopeLosesRoleAsWritten | api/src/App.jsx:12-37 | with the sign-in as written, an admin is turned away by the admin settings route right after signing in, sees "My Profile" alone in the sidebar and gets the default dashboard; after a reload the first render, with the initial state, redirects to the sign-in page, and once rehydration has settled the route admits them and the admin dashboard is shown |
| AppBoot.EnvelopeAsUser | api/src/routes/AppRoutes.jsx:52 | the `/profiles/me/` body taken as the user has no role: the admin route refuses it, the sidebar shows one entry, the dashboard is the default |
| AppBoot.ProfileAsUser | api/src/routes/AppRoutes.jsx:52 | the admin profile inside that body is admitted by the admin route and gets the admin dashboard |
| AppBoot.ReloadKeepsUser | api/src/App.jsx:12-37 | with the corrected sign-in, a reload with a live token rehydrates exactly the user that sign-in stored |
| ProtectedRoutes.Guard | api/src/routes/protectedRoutes.jsx:8-26 | a visitor not signed in goes to sign-in; with roles listed, a signed-in user passes exactly when their role is a string spelled as listed, and is sent to the unauthorized page otherwise; with no list every signed-in user passes |
| ProtectedRoutes.EmptyRolesAdmitNobody | api/src/routes/protectedRoutes.jsx:17-19 | an empty role list admits no signed-in user |
| ProtectedRoutes.RoleMatchIsExact | api/src/routes/protectedRoutes.jsx:17-19 | a signed-in user with a string role passes a role list exactly when the role is spelled as listed, so "Manager" is refused where "manager" is listed |
| NavigationConfig.ProfileIsTheOnlyEntryForAllRoles | api/src/config/navigationConfig.jsx:11-75 | of the nine entries, "My Profile" is the only one open to every role, and it is open to every business type |
| NavigationConfig.CashierAndCleanerListedNowhere | api/src/config/navigationConfig.jsx:11-75 | no entry lists the roles cashier or cleaner |
| NavigationConfig.NoEmptyRole | api/src/config/navigationConfig.jsx:11-75 | no entry lists the empty role, so a user without a role matches no role list |
| Sidebar.UserRole | api/src/components/layout/Sidebar.jsx:35 | a truthy string role is lower-cased; a falsy one becomes "" |
| Sidebar.UserBusiness | api/src/components/layout/Sidebar.jsx:36 | a truthy business type is kept; a falsy one becomes "" |
| Sidebar.AccessibleRoutes | api/src/components/layout/Sidebar.jsx:32-48 | the entries shown keep the table's order, and an entry is shown exactly when a user is signed in, its role list is empty or holds the lower-cased role, and its business list is empty or holds the business type; nothing is shown without a user |
| Sidebar.OpenEntryAlwaysVisible | api/src/components/layout/Sidebar.jsx:32-48 | every signed-in user sees "My Profile" |
| Sidebar.UnlistedRoleHidden | api/src/components/layout/Sidebar.jsx:39 | a cashier or cleaner never sees an entry that lists roles |
| Sidebar.StaffRoleLowered | api/src/components/layout/Sidebar.jsx:35 | the roles cashier and cleaner stay themselves after lower-casing |
| Sidebar.CashierSeesOnlyProfile | api/src/components/layout/Sidebar.jsx:32-48 | a cashier or cleaner sees exactly one entry, "My Profile" |
| Sidebar.RolelessSeesOnlyProfile | api/src/components/layout/Sidebar.jsx:32-48 | a signed-in user with no role sees exactly one entry, "My Profile" |
| Sidebar.OnlyProfileFor | api/src/components/layout/Sidebar.jsx:32-48 | a signed-in user whose lower-cased role is in no entry's role list sees exactly "My Profile" |
| Sidebar.HandleLogout | api/src/components/layout/Sidebar.jsx:25-28 | signing out leaves the initial auth state, removes both tokens, and goes to the sign-in page |
| DashboardPage.SelectDashboard | api/src/pages/Dashboard.jsx:21-65 | a spinner exactly without a user; the admin dashboard exactly for the role "admin"; the manager and waiter dashboards exactly for those roles in a restaurant; the default dashboard otherwise |
| DashboardPage.RoleComparisonIsExact | api/src/pages/Dashboard.jsx:42-53 | in a restaurant, any role other than exactly "admin", "manager" or "waiter" (a differently cased one included) gets the default dashboard |
| Helpers.StatusChipColor | api/src/utils/helpers.js:2-18 | a falsy status is default; otherwise, compared case-insensitively, delivered is success, pending warning, accepted info, cancelled and rejected error, anything else default |
| Helpers.CaseInsensitive | api/src/utils/helpers.js:5 | lower- or upper-casing a status does not change its color |
| ApiCommon.PartOf | api/src/api/restaurantApi.js:21 | a file is appended as a file and any other value as its `String` text |
| ApiCommon.EachUnder | api/src/api/restaurantApi.js:10-13 | one part per array element, in order, all under the same key |
| ApiCommon.EntriesFor | api/src/api/restaurantApi.js:8-23 | a null or undefined property adds nothing; an `uploaded_images` array one part per file; any other array one text part of its elements joined by ","; anything else one part; every part carries the property's key |
| ApiCommon.FormEntriesAppend | api/src/api/restaurantApi.js:7-24 | the body of two objects' properties in a row is their two bodies in a row |
| ApiCommon.FormKeysFromData | api/src/api/restaurantApi.js:7-24 | every part of the body carries the key of a property that is neither null nor undefined |
| ApiCommon.BuildFormData | api/src/api/restaurantApi.js:4-26 | the loop appends exactly the body the properties describe, in key order |
| ApiCommon.ResultsOrBody | api/src/api/restaurantApi.js:31-34 | a truthy `results` is the list, otherwise the body itself |
| ApiCommon.PageAndListAgree | api/src/api/categoryApi.js:22-25 | a paginated body and the bare list it wraps unwrap to the same list |
| RestaurantApi.UpdateRequest | api/src/api/restaurantApi.js:44-52 | the id goes into the path, and the body is built from every other property, so no part is keyed "id" |
| RestaurantApi.IdNeverInBody | api/src/api/restaurantApi.js:44-45 | no part of an update's body is keyed "id" |
| CategoryApi.JsonUpdate | api/src/api/categoryApi.js:49-52 | the id goes into the path and every other property, unchanged, into the body, which has no "id" |
| CategoryApi.DeleteCategoryPath | api/src/api/categoryApi.js:36-38 | the delete path is the category's detail path, the one `updateCategory` targets, followed by `delete/` |
| CategoryApi.DetailPathResolves | api/src/api/categoryApi.js:31-35 | the path `updateCategory` sends a numeric id to resolves to the category update route with that id as its key |
| CategoryApi.DeletePathResolves | api/src/api/categoryApi.js:36-38 | the path `deleteCategory` sends a numeric id to resolves to the category delete route with that id as its key |
| CategoryApi.KeptIdsTextPart | api/src/api/categoryApi.js:4-18 | the kept image ids go out as a single text part holding the ids joined by "," |
| CategoryApi.KeptIdsReachServer | api/src/api/categoryApi.js:4-18 | kept image ids are sent as one text part of the ids joined by ",", which the category serializer parses back to the same ids |
| ProfileApi.FetchMyProfile | api/src/api/profileApi.js:4-8 | the profile inside the body is returned, not the body |
| ProfileApi.UpdateMyProfileForm | api/src/api/profileApi.js:13-23 | the body holds every property that is neither null nor undefined, once each, in key order; the photo branch adds nothing the general one would not |
| AdminApi.FetchAllUsers | api/src/api/adminApi.js:6-19 | always a list: `profiles.results` when it is an array, the empty list for any other body |
| AdminApi.BareListGivesNoUsers | api/src/api/adminApi.js:10-18 | a bare list body yields no users |
| AxiosClient.WithBearer | api/src/api/axios.js:14-21 | the bearer header is set to the stored access token exactly when one is stored and not empty; otherwise the headers are unchanged |
| AxiosClient.RetriedRequestIsFinal | api/src/api/axios.js:37 | a request already retried is never refreshed: the session is unchanged and the outcome is the server's reply |
| AxiosClient.AtMostOneRefresh | api/src/api/axios.js:37-53 | a request sends at most one refresh request, and none when it is already retried |
| AxiosClient.OtherRepliesPassThrough | api/src/api/axios.js:28-68 | any reply other than a 401 resolves or rejects as it came, with the session unchanged |
| AxiosClient.FailedRefreshSignsOut | api/src/api/axios.js:54-58 | a 401 whose refresh fails clears all of storage, sends the browser to the sign-in page, and rejects with the refresh's error |
| AxiosClient.RefreshedRequestIsReissued | api/src/api/axios.js:43-53 | a 401 with a successful refresh stores the new token, makes it the default header, and ends as the re-issued request sent with that token ends |
| AxiosClient.Client.AttachToken | api/src/api/axios.js:14-21 | the request's headers become those the request interceptor computes from storage |
| AxiosClient.Client.Send | api/src/api/axios.js:14-68 | the request goes out with the instance's default `Authorization` header merged under its own headers and then the stored bearer; the session, the request and the outcome end as the interceptors' specification says |
| AxiosClient.WithDefaults | api/src/api/axios.js:50-51 | the default `Authorization` header set after a refresh is added to a request exactly when the request sets none of its own |
| AxiosClient.Client.MergeDefaults | api/src/api/axios.js:50-51 | the request's headers become its own with the instance's default header merged under them |
| AxiosClient.StaleBearerAfterSignOut | api/src/api/axios.js:14-53 | once a refresh has set the default header, a request after signing out (no tokens stored) that sets no header of its own is sent with the old bearer and answered for it |
| AxiosClient.Client.OnRejected | api/src/api/axios.js:30-68 | the error handler changes the session and the request, and settles, as the response interceptor's specification says |
| StaffFormModal.StaffUserIds | api/src/components/modals/StaffFormModal.jsx:49 | the ids on staff are exactly the `user` of some staff entry |
| StaffFormModal.AvailableUsers | api/src/components/modals/StaffFormModal.jsx:45-51 | no users loaded gives the empty list; editing, or no staff loaded, gives every user; otherwise the users in order whose id is no staff entry's user |
| StaffFormModal.EditModeUserDetails | api/src/components/modals/StaffFormModal.jsx:81-84 | null unless editing with users and a member; then the first user whose id is the member's user, or undefined when none is |
| StaffFormModal.ResetValues | api/src/components/modals/StaffFormModal.jsx:61-70 | editing resets to the member's user and role key, or the role itself when it has no key; otherwise both fields are "" |
| StaffFormModal.SubmitPayload | api/src/components/modals/StaffFormModal.jsx:72-78 | a create sends the data as it is; an edit adds the member's id unless the data has one, and every property of the data wins |
| RegisterPage.OptionsAreTheModelsBusinessTypes | api/src/pages/RegisterPage.jsx:21-28 | the select offers exactly the user model's six business types, in the same order |
| RegisterPage.EmailPatternIff | api/src/pages/RegisterPage.jsx:130-135 | the e-mail pattern accepts exactly the texts with no white space and an "@" somewhere other than at either end |
| RegisterPage.EmailPatternExamples | api/src/pages/RegisterPage.jsx:130-135 | "a@b@c" passes while "a @b" and "@b" fail |
| RegisterPage.RequiredError | api/src/pages/RegisterPage.jsx:98 | a required rule reports its message exactly when the value is "" |
| RegisterPage.EmailError | api/src/pages/RegisterPage.jsx:127-136 | no error exactly when the pattern matches; an empty e-mail is "required", any other mismatch "invalid" |
| RegisterPage.PasswordError | api/src/pages/RegisterPage.jsx:178-187 | no error exactly when the password has at least 8 characters; an empty one is "required", a shorter one "too short" |
| RegisterPage.Password2Error | api/src/pages/RegisterPage.jsx:201-208 | no error exactly when the confirmation is non-empty and equal to the password; empty is "please confirm", different "do not match" |
| RegisterPage.NoErrorsIff | api/src/pages/RegisterPage.jsx:96-208 | the form has no error, so the submit handler runs, exactly when names and business type are non-empty, the e-mail matches, the password has 8 characters and the confirmation equals it |
| RegisterPage.RequiredReportedFirst | api/src/pages/RegisterPage.jsx:181-186 | an empty password is reported as required, never as too short |
| RegisterPage.RenamePassword | api/src/pages/RegisterPage.jsx:61-66 | the payload has no "password" key, its "password1" is the entered password, every other property is unchanged, and its keys are the data's without "password" plus "password1" |
| RegisterPage.AcceptedFormPassesBackend | api/src/pages/RegisterPage.jsx:61-66 | a form that passes every rule is sent with the password as "password1" next to "password2", and the registration serializer's match check accepts it |
| RestaurantManagerDashboard.Kpis | api/src/components/dashboard/RestaurantManagerDashboard.jsx:31-35 | no list yet gives three zeros; the total is the list's length; delivered and pending together never exceed the total |
| RestaurantManagerDashboard.OrderAdded | api/src/components/dashboard/RestaurantManagerDashboard.jsx:31-35 | one more order adds one to the total, and one to the delivered or pending count exactly when its status is that text |
| RestaurantManagerDashboard.StatusMatchIsExact | api/src/components/dashboard/RestaurantManagerDashboard.jsx:32-33 | an order whose status is any text other than exactly "delivered" or "pending", a capitalised "Delivered" included, changes neither the delivered nor the pending count |
| ShopManagerDashboard.AnyLoading | api/src/components/dashboard/ShopManagerDashboard.jsx:32 | loading exactly when some query is loading |
| ShopManagerDashboard.AnyError | api/src/components/dashboard/ShopManagerDashboard.jsx:33 | failed exactly when some query failed |
| ShopManagerDashboard.FirstError | api/src/components/dashboard/ShopManagerDashboard.jsx:34 | undefined when no query failed, otherwise the error of the first failed query |
| ShopManagerDashboard.Kpis | api/src/components/dashboard/ShopManagerDashboard.jsx:37-40 | products and warehouses are the lengths of their lists, or 0 before loading; low stock never exceeds the stock list's length and is 0 before loading |
| ShopManagerDashboard.StockRowAdded | api/src/components/dashboard/ShopManagerDashboard.jsx:39-40 | a stock row with a numeric quantity adds one to the low-stock count exactly when the quantity is below 10 |
| ShopManagerDashboard.TenIsNotLow | api/src/components/dashboard/ShopManagerDashboard.jsx:39-40 | a stock row holding ten or more units leaves the low-stock count unchanged |
| Js.Assign | api/src/pages/RegisterPage.jsx:63 | assigning a property sets that key's value, keeps every other key's value, and adds the key last when it is new |
| Js.Remove | api/src/pages/RegisterPage.jsx:64 | deleting a property removes that key and keeps every other key's value |
| Js.SpreadSourceWins | api/src/components/modals/StaffFormModal.jsx:74 | in an object spread, every property of the later object wins over the earlier one's |
| Js.LocalStorage.GetItem | api/src/api/axios.js:16 | a stored key reads back its text, a missing key null |
| Js.LocalStorage.SetItem | api/src/features/auth/authSlice.jsx:14-15 | storing a value stores its `String` text under the key and leaves other keys alone |
| Js.LocalStorage.RemoveItem | api/src/features/auth/authSlice.jsx:42-43 | removing a key leaves every other key alone |
| Js.LocalStorage.Clear | api/src/api/axios.js:56 | clearing leaves the storage empty |
| Text.AsciiTitleIdempotent | backend/apps/users/models.py:62 | title-casing a title-cased name changes nothing |
| DrfFields.CharField | backend/apps/categories/models.py:103 | a required text field trims surrounding whitespace and accepts exactly the text that is then non-empty and within the maximum length, passing on the trimmed text; absent, blank and too long are told apart |
| DrfFields.CharFieldIgnoresPadding | backend/apps/categories/models.py:103 | whitespace around the text changes neither the outcome nor the value |
| DrfFields.ChoiceField | backend/apps/categories/models.py:51-55 | an optional choice field accepts exactly an absent value, which takes the default, or one of the stored keys exactly as written |
| Text.Strip | backend/apps/category/serializers.py:95-106 | `str.strip()`: the result is empty exactly when the text is all whitespace, otherwise starts and ends with a non-space, and text without surrounding whitespace is returned as it is |
| Text.StripOfPadded | backend/apps/category/serializers.py:95-106 | stripping a text with whitespace put around it gives the text stripped |
| Text.StripKeepsNonSpace | backend/apps/users/managers.py:22 | a character that is not whitespace is still there after stripping |
| Text.ParseInt | backend/apps/category/serializers.py:58 | `int()` on text reads a number exactly when the text, stripped of surrounding whitespace, is an optional sign and a run of ASCII digits with single underscores only between digits; text of digits alone reads as its decimal value |
| Text.ParseIntIgnoresPadding | backend/apps/category/serializers.py:58 | whitespace around a text does not change what `int` reads from it |
| Text.ParseIntRefusesBlank | backend/apps/category/views.py:140-146 | text of whitespace only, the empty text included, is not a number |
| Text.ParseIntNegative | backend/apps/category/serializers.py:58 | a minus sign before digits reads as the negated value |
| Text.ParseIntUnderscoreBetweenDigits | backend/apps/category/serializers.py:58 | an underscore between two groups of digits does not change the number |
| Text.ParseIntRefusesDoubledUnderscore | backend/apps/category/serializers.py:58 | two underscores in a row make the text unreadable |
| Text.ParseIntRefusesOuterUnderscore | backend/apps/category/serializers.py:58 | a leading or trailing underscore makes the text unreadable |
| Text.ParseIntRefusesSpaceAfterSign | backend/apps/category/serializers.py:58 | whitespace between the sign and the digits makes the text unreadable |
| Text.ParseIntOfNatToString | backend/apps/category/serializers.py:58 | the decimal text of a number parses back to that number |
| AxiosClient.NoRefreshTokenRejects | api/src/api/axios.js:37-41 | a 401 with no refresh token stored marks the request retried and rejects with the 401, with the session unchanged and no refresh request |

## Left out

- HTTP, the database and the browser are not modelled as I/O. A server reply is an oracle parameter (`Js.Reply`), tables are values, and `localStorage` is a map.
- react-query caching, the Redux store wiring, routing and all JSX rendering are left out, as are toasts and console logging.
- The thin API wrappers that only issue one request each are left out, as is the route table, which is configuration.
- The Django admin classes, app configs, and the models that are only field declarations are left out. Of the URL confs only the category app's three category routes are modelled (`CategoryViews.ResolveCategoryRoute`); the root URL conf, which mounts the apps below the API root, is not part of this model, and the category app is taken to be mounted at `category/`.
- Three modules do not import as shipped and are left out:
  - backend/apps/restaurant/views.py imports names that the restaurant modules do not define.
  - backend/apps/restaurant/utils.py imports a `Role` that restaurant models do not have.
  - backend/apps/vendor/urls.py names a view that does not exist.
- backend/apps/category/views.py imports a `MenuSerializer` that its app's serializers module does not define (only the restaurant app's does), so as shipped it does not import either. The `CategoryViews` members model its views as they run once that import resolves.
- The category app's list and detail views read a `stages` attribute that `Category` does not have, so they raise AttributeError; those reads are not modelled.
- `fetchAllVendors` in api/src/api/adminApi.js is a placeholder that logs a warning and always returns an empty list; it is not modelled.
- When a row breaks more than one unique column, which constraint the database reports first is not modelled: each such save yields one IntegrityError.
- `Text.ParseInt` reads ASCII digits only. Python's `int()` also reads other Unicode decimal digits, such as Arabic-Indic ones. The members that read numbers through it inherit this: `CategorySerializers.ParseAll`, `CategorySerializers.ParseKeptIds`, `CategorySerializers.ImageStore.UpdateCategoryImages`, `CategoryViews.ParamFilter` and `CategoryViews.MenuQueryset`.
- ParseAll: a piece of non-ASCII decimal digits, which `int()` reads, raises in the model.
- ParseKeptIds: inherits `ParseAll`'s ASCII-only digits.
- UpdateCategoryImages: a `kept_image_ids` holding non-ASCII decimal digits raises in the model where the source deletes the images that are not kept.
- ParamFilter: a query parameter of non-ASCII decimal digits raises in the model where Django filters by its value.
- MenuQueryset: inherits `ParamFilter`'s ASCII-only digits.
- ValidateTool: which texts Django reads as a UUID (`uuid.UUID` accepts several spellings) is a parameter of the model, not modelled; the model only relies on `str()` of an id being non-empty and reading back as that id.
- ToolField: inherits `ValidateTool`'s parameter for reading category ids.
- `Text.Strip` follows Python's `str.isspace()` for the whitespace characters it lists; `str.strip()` and DRF's `trim_whitespace` agree on them.
- Foreign functions become parameters and their insides are not modelled. These are `jwtDecode`, `validate_email`, the password hasher, Django's conversion of text to a UUID key, the default roles (`Role` is abstract in the role app) and `slugify`.
- `Text.AsciiLower`, `Text.AsciiUpper` and `Text.AsciiTitle` map ASCII letters only; Python's and JavaScript's Unicode case mapping is not modelled.
- JavaScript numbers are modelled as integers: every number the modelled client code handles is an id, a count, a quantity or a timestamp in seconds.
- `Js.Value` equality is structural; JavaScript compares objects by identity. This matters only for the staff-list lookups, which compare ids.
- `Js.Spread` and `Js.Lookup` treat an object as its entries in insertion order. The engine's ordering of integer-like keys first in `for...in` is not modelled, so `ApiCommon.BuildFormData` and `ProfileApi.UpdateMyProfileForm` follow insertion order.
- InventoryModels.NextPk: the database's sequence may hand out any unused key; the model takes one above every stored key, and only its freshness is relied on. The sale's product, vendor and timestamps are not among the modelled columns.
- Tenancy.ScopedRows: the model states which rows a listing selects, not the order they come back in. The querysets order by `Meta.ordering`: categories by `name`, attributes by `-category, tool_key`, attribute values by `-attribute` (backend/apps/categories/models.py:22, 91, 137). That ordering is not modelled, so a listing's order is the table's order only in the model.
- `AxiosClient.Client.Send` models one request at a time. Concurrent 401s each start their own refresh, because the source has no single-flight lock, and that interleaving is not modelled.
- `Sidebar.UserRole`: a truthy role that is not a string makes `toLowerCase` throw in JavaScript; the model gives "" for it.
- `ShopManagerDashboard.IsLowStock`: a quantity sent as text or as an array is not converted to a number as JavaScript would; such a row counts as not low.
- `RestaurantManagerDashboard.Kpis` and `ShopManagerDashboard.Kpis` require each list to be an array or absent, as the source's `filter` and `length` calls assume.
- The dashboards' revenue sums (`parseFloat` and `toFixed`) are floating point and are left out, as is the `Order.total_price` FloatField aggregate.
- Decimal amounts are exact reals. Python's 28-digit Decimal context rounding is not modelled.
- The random four-digit number of a generated SKU (`InventoryModels.GeneratedSku`) is a parameter in 1000..9999. `Product.generate_sku` is left out: it calls `.all()` on a JSON field and is never called.
- `ProfileSerializers.UpdateProfile`: when the role check raises, the user fields already set in memory before the raise are not modelled; the stored row is unchanged either way. When the user's save is refused, the model's user holds the new values, as the in-memory instance does, while the stored row keeps the old ones.
- `RegisterPage.PasswordError`: the length is counted in characters (code points), not in JavaScript's UTF-16 units.
- CharField: Django REST framework's text field also refuses text holding a NUL character; that check is not modelled, here or in `InventorySerializers.ToolField` and `CategoryViews.AttributeValueErrors`.
- CreateAttribute: the JSON `attribute_value` of an attribute is required, but its content is not part of the modelled row.
- CreateCategory: `tools` is taken as a list of texts; the JSON field accepts any JSON value.
- ValidateItem: an entry's `price` is taken as a decimal its own field accepts (at most 10 digits, 2 of them after the point), its `menu` as a stored menu's key, and its `quantity` as an integer; the `selected_option` JSON is not modelled. The quantity's upper bound is 2147483647, the `PositiveIntegerField` bound of the PostgreSQL, SQLite and Oracle backends; on MySQL it is 4294967295.
- `transaction.atomic` blocks are one atomic step.
- `ProtectedRoutes.Guard` compares the role to the allowed roles exactly, so a role that differs only in case is refused.
- The sign-in thunk stores the whole `/profiles/me/` body as the user (see the third finding); `AuthSlice.LoginUser` is the corrected thunk.

## Findings

| source | as written | input that shows it | evidently intended | confidence | as-written member | corrected member |
|---|---|---|---|---|---|---|
| backend/apps/category/models.py:57-63 | `AttributeType.clean` looks for any stored row with the same name and category, without excluding the row itself | cleaning an attribute type that is already saved, e.g. on an edit that changes nothing | only another row with the same name and category is a duplicate | high (not executed) | CategoryModels.SavedAttributeTypeFailsCleanAsWritten | CategoryModels.CleanAttributeType |
| backend/apps/category/models.py:90-96 | `AttributeValue.clean` looks for any stored row with the same attribute and value, without excluding the row itself | cleaning an attribute value that is already saved | only another row with the same attribute and value is a duplicate | high (not executed) | CategoryModels.SavedAttributeValueFailsCleanAsWritten | CategoryModels.CleanAttributeValue |
| api/src/features/auth/authSlice.jsx:18-21 | `loginUser` returns the whole `/profiles/me/` body (`{profile: ...}`) as the user, while boot rehydration stores `data.profile` (api/src/App.jsx:23) | an admin signs in: `user.role` is undefined, so `admin/settings` (api/src/routes/AppRoutes.jsx:52) redirects to /unauthorized, the sidebar shows only "My Profile" and the dashboard is the default one; once a reload's rehydration has settled, the same route is admitted and the admin dashboard is shown | the user is the profile inside the body, as on reload | high (not executed) | AppBoot.EnvelopeLosesRoleAsWritten | AppBoot.ReloadKeepsUser |
| backend/apps/inventory/views.py:41-43 | `create_product_for_category` calls `serializer.save()` without a vendor, and `Product.vendor` is a NOT NULL foreign key that `ProductSerializer` does not expose | any valid request, e.g. a category with tools ["drill"] and a body with tool "drill": the INSERT fails with an IntegrityError (500) | the product is saved with `vendor=request.user.vendor`, as `ProductViewSet.perform_create` does | high (not executed) | InventoryViews.CleanCategoryCreates | InventoryViews.CreateProductForCategoryStamped |
| backend/apps/category/serializers.py:39-41 | `CategorySerializer.create` passes the validated data, which holds the declared `stages` list, to `Category.objects.create`, and never supplies the NOT NULL `owner` | any category create: `Category()` gets the unexpected keyword `stages` and raises TypeError before any image is stored; without `stages` the owner is still missing | the model's own fields, with the requesting user as owner, are passed, and the uploaded images are stored for the new row | high (not executed) | CategorySerializers.SerializerCreateRaises | CategorySerializers.ImageStore.CreateCategoryIntended |

=== FILE: admin_api.dfy ===
/** The admin client calls: the user list inside the `/profiles/all/`
    envelope. */
module AdminApi {
  import opened Js

  /** `fetchAllUsers`: `data.profiles.results` when it is an array, and the
      empty list for any other body. */
  function FetchAllUsers(data: Value): (r: Value)
    ensures r.Arr?
    ensures Truthy(data) && Truthy(Get(data, "profiles")) && Get(Get(data, "profiles"), "results").Arr? ==>
      r == Get(Get(data, "profiles"), "results")
    ensures !(Get(Get(data, "profiles"), "results").Arr?) ==> r == Arr([])
  {
    if Truthy(data) && Truthy(Get(data, "profiles")) && Get(Get(data, "profiles"), "results").Arr? then
      Get(Get(data, "profiles"), "results")
    else Arr([])
  }

  /** A bare list, as other list endpoints return, is not understood: no users. */
  lemma BareListGivesNoUsers(items: seq<Value>)
    ensures FetchAllUsers(Arr(items)) == Arr([])
  {
  }
}

=== FILE: api_common.dfy ===
/** What the client's API modules share: the multipart body `buildFormData`
    builds from an object, and the `data.results || data` unwrapping of list
    replies. */
module ApiCommon {
  import opened Text
  import opened Js

  /** A part of a multipart body: text, or a file. */
  datatype Part = TextPart(text: string) | FilePart(name: string)

  datatype FormEntry = FormEntry(key: string, part: Part)

  /** `formData.append(key, value)` keeps a file and sends anything else as
      `String(value)`. */
  function PartOf(v: Value): (r: Part)
    ensures v.File? ==> r == FilePart(v.name)
    ensures !v.File? ==> r == TextPart(StringOf(v))
  {
    if v.File? then FilePart(v.name) else TextPart(StringOf(v))
  }

  /** A `FormData` object: its entries in the order they were appended. */
  class FormDataBuffer {
    var entries: seq<FormEntry>

    constructor ()
      ensures entries == []
    {
      entries := [];
    }

    method Append(key: string, value: Value)
      modifies this
      ensures entries == old(entries) + [FormEntry(key, PartOf(value))]
    {
      entries := entries + [FormEntry(key, PartOf(value))];
    }
  }

  /** The key under which files are sent one entry each. */
  const UploadedImages := "uploaded_images"

  /** One part per element of an array, all under `key`. */
  function EachUnder(key: string, items: seq<Value>): (r: seq<FormEntry>)
    ensures |r| == |items|
    ensures forall i :: 0 <= i < |items| ==> r[i] == FormEntry(key, PartOf(items[i]))
  {
    seq(|items|, i requires 0 <= i < |items| => FormEntry(key, PartOf(items[i])))
  }

  /** What one property adds to the body: nothing when it is `null` or
      `undefined`; one entry per element under `uploaded_images` for an
      `uploaded_images` array; the elements joined by "," for any other array
      (`join(",")`, which is `String` of an array); the value itself
      otherwise. */
  function EntriesFor(e: Entry): (r: seq<FormEntry>)
    ensures Nullish(e.value) ==> r == []
    ensures !Nullish(e.value) && e.key == UploadedImages && e.value.Arr? ==> r == EachUnder(UploadedImages, e.value.items)
    ensures !Nullish(e.value) && e.key != UploadedImages && e.value.Arr? ==>
      r == [FormEntry(e.key, TextPart(StringOf(e.value)))]
    ensures !Nullish(e.value) && !e.value.Arr? ==> r == [FormEntry(e.key, PartOf(e.value))]
    ensures forall i :: 0 <= i < |r| ==> r[i].key == e.key
  {
    if Nullish(e.value) then []
    else if e.key == UploadedImages && e.value.Arr? then EachUnder(UploadedImages, e.value.items)
    else if e.value.Arr? then [FormEntry(e.key, TextPart(StringOf(e.value)))]
    else [FormEntry(e.key, PartOf(e.value))]
  }

  /** The body `buildFormData` builds: each property's entries, in key order. */
  function FormEntries(data: seq<Entry>): seq<FormEntry>
  {
    if |data| == 0 then [] else EntriesFor(data[0]) + FormEntries(data[1..])
  }

  /** The body of two objects' properties, one after the other, is the two
      bodies one after the other: entries follow key order. */
  lemma {:induction false} FormEntriesAppend(a: seq<Entry>, b: seq<Entry>)
    ensures FormEntries(a + b) == FormEntries(a) + FormEntries(b)
  {
    if |a| == 0 {
      assert a + b == b;
    } else {
      assert (a + b)[0] == a[0] && (a + b)[1..] == a[1..] + b;
      FormEntriesAppend(a[1..], b);
    }
  }

  /** Every entry of the body comes from a property that is neither `null`
      nor `undefined`, and carries that property's key. */
  lemma {:induction false} FormKeysFromData(data: seq<Entry>)
    ensures forall j :: 0 <= j < |FormEntries(data)| ==>
      exists i :: 0 <= i < |data| && FormEntries(data)[j].key == data[i].key && !Nullish(data[i].value)
  {
    if |data| > 0 {
      FormKeysFromData(data[1..]);
      var head: seq<FormEntry> := EntriesFor(data[0]);
      var rest: seq<FormEntry> := FormEntries(data[1..]);
      var all: seq<FormEntry> := head + rest;
      assert FormEntries(data) == all;
      forall j | 0 <= j < |all|
        ensures exists i :: 0 <= i < |data| && all[j].key == data[i].key && !Nullish(data[i].value)
      {
        if j < |head| {
          assert all[j].key == data[0].key && !Nullish(data[0].value);
        } else {
          assert all[j] == rest[j - |head|];
          var i :| 0 <= i < |data[1..]| && rest[j - |head|].key == data[1..][i].key && !Nullish(data[1..][i].value);
          assert data[1..][i] == data[i + 1];
          assert all[j].key == data[i + 1].key && !Nullish(data[i + 1].value);
        }
      }
    } else {
      assert FormEntries(data) == [];
    }
  }

  /** The body of the first `k + 1` properties is that of the first `k`
      followed by the entries of property `k`. */
  lemma FormEntriesStep(data: seq<Entry>, k: nat)
    requires k < |data|
    ensures FormEntries(data[..k + 1]) == FormEntries(data[..k]) + EntriesFor(data[k])
  {
    FormEntriesAppend(data[..k], [data[k]]);
    assert FormEntries([data[k]]) == EntriesFor(data[k]) + FormEntries([]);
    assert data[..k + 1] == data[..k] + [data[k]];
  }

  /** `buildFormData(data)`: a loop over the keys appending each property's
      entries; files under `uploaded_images` are appended one by one. */
  method BuildFormData(data: seq<Entry>) returns (form: FormDataBuffer)
    ensures fresh(form)
    ensures form.entries == FormEntries(data)
  {
    form := new FormDataBuffer();
    var k := 0;
    while k < |data|
      invariant 0 <= k <= |data|
      invariant form.entries == FormEntries(data[..k])
    {
      var key := data[k].key;
      var value := data[k].value;
      ghost var before := form.entries;
      if !Nullish(value) {
        if key == UploadedImages && value.Arr? {
          var j := 0;
          while j < |value.items|
            invariant 0 <= j <= |value.items|
            invariant form.entries == before + EachUnder(UploadedImages, value.items[..j])
          {
            form.Append(UploadedImages, value.items[j]);
            assert value.items[..j + 1] == value.items[..j] + [value.items[j]];
            j := j + 1;
          }
          assert value.items[..j] == value.items;
        } else if value.Arr? {
          form.Append(key, Str(StringOf(value)));
        } else {
          form.Append(key, value);
        }
      }
      assert form.entries == before + EntriesFor(data[k]);
      FormEntriesStep(data, k);
      k := k + 1;
    }
    assert data[..k] == data;
  }

  /** `data.results || data`: the page's `results` when truthy, else the body. */
  function ResultsOrBody(data: Value): (r: Value)
    ensures Truthy(Get(data, "results")) ==> r == Get(data, "results")
    ensures !Truthy(Get(data, "results")) ==> r == data
  {
    if Truthy(Get(data, "results")) then Get(data, "results") else data
  }

  /** A paginated body and the bare list it wraps unwrap to the same list. */
  lemma PageAndListAgree(items: seq<Value>, others: seq<Entry>)
    requires "results" !in Keys(others)
    ensures ResultsOrBody(Obj([Entry("results", Arr(items))] + others)) == ResultsOrBody(Arr(items))
  {
  }
}

=== FILE: app_boot.dfy ===
/** `App`'s boot effect: with an access token stored, its `exp` claim
    (section 4.1.4 of RFC 7519, seconds since the epoch) is compared with the
    clock; a live token triggers a profile fetch that signs the user in, and
    anything else signs out. */
module AppBoot {
  import opened Wrappers
  import opened Js
  import opened AuthSlice
  import opened ProtectedRoutes
  import NavigationConfig
  import Sidebar
  import DashboardPage

  /** What `jwtDecode` makes of the stored token: it throws on a malformed
      token; otherwise its claims, of which only `exp` is read. */
  datatype Claims = Malformed | Decoded(exp: Option<int>)

  /** The path the effect takes. */
  datatype BootStep = NothingStored | FetchProfile | LogoutExpired | LogoutInvalid

  /** `decodedToken.exp > Date.now() / 1000`, with the clock in milliseconds. */
  predicate Live(exp: int, nowMs: int) {
    exp as real > nowMs as real / 1000.0
  }

  /** The comparison in whole milliseconds: a token expiring at this very
      instant is already expired. */
  lemma LiveIff(exp: int, nowMs: int)
    ensures Live(exp, nowMs) <==> exp * 1000 > nowMs
  {
    assert nowMs as real / 1000.0 * 1000.0 == nowMs as real;
    assert (exp * 1000) as real == exp as real * 1000.0;
  }

  /** The decision, from the stored access token (None when missing or ""),
      the decoded claims and the clock. */
  function BootDecision(accessToken: Option<string>, claims: Claims, nowMs: int): (r: BootStep)
    ensures r == NothingStored <==> accessToken.None?
    ensures r == LogoutInvalid <==> accessToken.Some? && claims.Malformed?
    ensures r == FetchProfile <==>
      accessToken.Some? && claims.Decoded? && claims.exp.Some? && claims.exp.value * 1000 > nowMs
  {
    if accessToken.None? then NothingStored
    else if claims.Malformed? then LogoutInvalid
    else if claims.exp.Some? && Live(claims.exp.value, nowMs) then
      LiveIff(claims.exp.value, nowMs);
      FetchProfile
    else
      (if claims.exp.Some? then LiveIff(claims.exp.value, nowMs); LogoutExpired else LogoutExpired)
  }

  /** The effect on the store and storage. `claims` is what `jwtDecode` makes
      of the stored token and `profileReply` how `GET /profiles/me/` ends; the
      reply is only used on the `FetchProfile` path. A successful fetch signs
      in as the body's `profile`; a failed fetch, an expired or undated token
      and a malformed one all sign out. */
  method Boot(auth: AuthState, storage: LocalStorage, claims: Claims, nowMs: int, profileReply: Reply)
    returns (step: BootStep)
    modifies auth, storage
    ensures step == BootDecision(StoredToken(old(storage.items), AccessTokenKey), claims, nowMs)
    ensures step == NothingStored ==>
      storage.items == old(storage.items) && auth.user == old(auth.user) &&
      auth.isAuthenticated == old(auth.isAuthenticated) && auth.loading == old(auth.loading) &&
      auth.error == old(auth.error)
    ensures step == FetchProfile && profileReply.Ok? ==>
      storage.items == old(storage.items) && auth.isAuthenticated &&
      auth.user == Get(profileReply.data, "profile") &&
      auth.loading == old(auth.loading) && auth.error == old(auth.error)
    ensures (step == FetchProfile && !profileReply.Ok?) || step == LogoutExpired || step == LogoutInvalid ==>
      auth.IsInitial() && storage.items == old(storage.items) - {AccessTokenKey, RefreshTokenKey}
  {
    var accessToken := StoredToken(storage.items, AccessTokenKey);
    step := BootDecision(accessToken, claims, nowMs);
    match step
    case NothingStored =>
    case FetchProfile =>
      if profileReply.Ok? {
        auth.SetUser(Get(profileReply.data, "profile"));
      } else {
        auth.Logout(storage);
      }
    case LogoutExpired =>
      auth.Logout(storage);
    case LogoutInvalid =>
      auth.Logout(storage);
  }

  /** The roles of the one role-guarded route, `admin/settings`. */
  const AdminSettingsRoles: Option<seq<string>> := Some(["admin"])

  /** An admin's profile, and the `/profiles/me/` body that wraps it. */
  const AdminProfile := Obj([Entry("role", Str("admin")), Entry("business_type", Str("restaurant"))])
  const AdminEnvelope := Obj([Entry("profile", AdminProfile)])

  /** Taken as the user, the envelope has no role: the admin route refuses
      it, the sidebar shows "My Profile" alone, the dashboard is the default. */
  lemma EnvelopeAsUser()
    ensures Guard(true, AdminEnvelope, AdminSettingsRoles) == UnauthorizedRedirect
    ensures Sidebar.AccessibleRoutes(AdminEnvelope) == [NavigationConfig.MyProfile]
    ensures DashboardPage.SelectDashboard(AdminEnvelope) == DashboardPage.DefaultDashboard
  {
    assert Get(AdminEnvelope, "role") == Undefined;
    Sidebar.RolelessSeesOnlyProfile(AdminEnvelope);
  }

  /** Taken as the user, the profile inside it is an admin's. */
  lemma ProfileAsUser()
    ensures Guard(true, AdminProfile, AdminSettingsRoles) == Outlet
    ensures DashboardPage.SelectDashboard(AdminProfile) == DashboardPage.AdminDashboard
  {
    assert Get(AdminProfile, "role") == Str("admin");
  }

  /** With `LoginUserAsWritten`, an admin signs in and the stored user is
      the `/profiles/me/` envelope, which has no `role`: the admin settings
      route turns them away, the sidebar shows "My Profile" alone and the
      dashboard is the default one. After a reload the first render still
      has the initial state, so the guard sends the visitor to the sign-in
      page (which passes a signed-in user on to the dashboard); once the
      boot effect has stored the profile inside the envelope, the same
      route admits them and the admin dashboard is shown. */
  method EnvelopeLosesRoleAsWritten()
    returns (afterLogin: Route, entries: seq<NavigationConfig.NavItem>, dashboard: DashboardPage.View,
             firstRender: Route, settled: Route, settledDashboard: DashboardPage.View)
    ensures afterLogin == UnauthorizedRedirect
    ensures entries == [NavigationConfig.MyProfile]
    ensures dashboard == DashboardPage.DefaultDashboard
    ensures firstRender == LoginRedirect
    ensures settled == Outlet
    ensures settledDashboard == DashboardPage.AdminDashboard
  {
    var tokens := Obj([Entry("access", Str("header.claims.signature")), Entry("refresh", Str("refresh"))]);
    var storage := new LocalStorage(map[]);
    var auth := new AuthState();
    var _ := LoginUserAsWritten(auth, storage, Ok(tokens), Ok(AdminEnvelope));
    var signedIn, user := auth.isAuthenticated, auth.user;
    assert signedIn && user == AdminEnvelope;
    EnvelopeAsUser();
    afterLogin := Guard(signedIn, user, AdminSettingsRoles);
    entries := Sidebar.AccessibleRoutes(user);
    dashboard := DashboardPage.SelectDashboard(user);
    var reloaded := new AuthState();
    firstRender := Guard(reloaded.isAuthenticated, reloaded.user, AdminSettingsRoles);
    var _ := Boot(reloaded, storage, Decoded(Some(2)), 1000, Ok(AdminEnvelope));
    var rehydrated, restored := reloaded.isAuthenticated, reloaded.user;
    assert rehydrated && restored == AdminProfile;
    ProfileAsUser();
    settled := Guard(rehydrated, restored, AdminSettingsRoles);
    settledDashboard := DashboardPage.SelectDashboard(restored);
  }

  /** With `LoginUser`, a page reload keeps the signed-in user: whatever the
      two replies, once sign-in succeeds with a non-empty access token that is
      still live, the rehydrated user is the one sign-in stored. */
  method ReloadKeepsUser(tokens: Value, me: Value, exp: int, nowMs: int, initial: map<string, string>)
    returns (signedIn: Value, rehydrated: Value)
    requires StringOf(Get(tokens, "access")) != ""
    requires exp * 1000 > nowMs
    ensures signedIn == rehydrated
  {
    var storage := new LocalStorage(initial);
    var auth := new AuthState();
    var _ := LoginUser(auth, storage, Ok(tokens), Ok(me));
    signedIn := auth.user;
    var reloaded := new AuthState();
    var step := Boot(reloaded, storage, Decoded(Some(exp)), nowMs, Ok(me));
    rehydrated := reloaded.user;
  }
}

=== FILE: auth_slice.dfy ===
/** The Redux `auth` slice: the signed-in user, whether the session is
    authenticated, whether a sign-in is in flight, and the last sign-in
    error; and the `loginUser` thunk that stores both JWTs and fetches the
    signed-in user's profile. */
module AuthSlice {
  import opened Js

  /** The two `localStorage` keys the session keeps its tokens under. */
  const AccessTokenKey := "access_token"
  const RefreshTokenKey := "refresh_token"

  class AuthState {
    var user: Value
    var isAuthenticated: bool
    var loading: bool
    var error: Value

    /** `initialState`. */
    predicate IsInitial()
      reads this
    {
      user == Null && !isAuthenticated && !loading && error == Null
    }

    constructor ()
      ensures IsInitial()
    {
      user := Null;
      isAuthenticated := false;
      loading := false;
      error := Null;
    }

    /** `logout`: both tokens are removed and the state is initial again,
        whatever it was. */
    method Logout(storage: LocalStorage)
      modifies this, storage
      ensures IsInitial()
      ensures storage.items == old(storage.items) - {AccessTokenKey, RefreshTokenKey}
    {
      storage.RemoveItem(AccessTokenKey);
      storage.RemoveItem(RefreshTokenKey);
      user := Null;
      isAuthenticated := false;
      loading := false;
      error := Null;
    }

    /** `setUser`: authenticated as `payload`; `loading` and `error` are kept. */
    method SetUser(payload: Value)
      modifies this
      ensures isAuthenticated && user == payload
      ensures loading == old(loading) && error == old(error)
    {
      isAuthenticated := true;
      user := payload;
    }

    /** `loginUser.pending`. */
    method Pending()
      modifies this
      ensures loading && error == Null
      ensures user == old(user) && isAuthenticated == old(isAuthenticated)
    {
      loading := true;
      error := Null;
    }

    /** `loginUser.fulfilled`: the user is the payload's `user`. */
    method Fulfilled(payload: Value)
      modifies this
      ensures !loading && isAuthenticated && user == Get(payload, "user") && error == Null
    {
      loading := false;
      isAuthenticated := true;
      user := Get(payload, "user");
      error := Null;
    }

    /** `loginUser.rejected`: signed out, with the rejection's payload as the error. */
    method Rejected(payload: Value)
      modifies this
      ensures !loading && !isAuthenticated && user == Null && error == payload
    {
      loading := false;
      isAuthenticated := false;
      user := Null;
      error := payload;
    }
  }

  /** What `rejectWithValue(error.response.data)` hands on: the error
      response's body; with no response at all, reading `data` throws, and the
      thunk rejects with no payload. */
  function RejectionPayload(reply: Reply): (r: Value)
    requires !reply.Ok?
    ensures reply.HttpError? ==> r == reply.body
    ensures reply.NoResponse? ==> r == Undefined
  {
    if reply.HttpError? then reply.body else Undefined
  }

  /** How a dispatched `loginUser` settles. */
  datatype LoginOutcome = LoginFulfilled(payload: Value) | LoginRejected(payload: Value)

  /** `loginUser` as written, dispatched: pending; the token request; both
      tokens stored; the profile request; fulfilled with `{tokens, user}`
      where `user` is the whole `/profiles/me/` body. A failed profile
      request rejects after the tokens are stored, and they stay stored. */
  method LoginUserAsWritten(auth: AuthState, storage: LocalStorage, tokenReply: Reply, meReply: Reply)
    returns (outcome: LoginOutcome)
    modifies auth, storage
    ensures !tokenReply.Ok? ==> storage.items == old(storage.items)
    ensures tokenReply.Ok? ==> storage.items == old(storage.items)
      [AccessTokenKey := StringOf(Get(tokenReply.data, "access"))]
      [RefreshTokenKey := StringOf(Get(tokenReply.data, "refresh"))]
    ensures !tokenReply.Ok? ==> outcome == LoginRejected(RejectionPayload(tokenReply))
    ensures tokenReply.Ok? && !meReply.Ok? ==> outcome == LoginRejected(RejectionPayload(meReply))
    ensures tokenReply.Ok? && meReply.Ok? ==>
      outcome == LoginFulfilled(Obj([Entry("tokens", tokenReply.data), Entry("user", meReply.data)]))
    ensures outcome.LoginRejected? ==>
      !auth.loading && !auth.isAuthenticated && auth.user == Null && auth.error == outcome.payload
    ensures outcome.LoginFulfilled? ==>
      !auth.loading && auth.isAuthenticated && auth.user == meReply.data && auth.error == Null
  {
    auth.Pending();
    if !tokenReply.Ok? {
      outcome := LoginRejected(RejectionPayload(tokenReply));
      auth.Rejected(outcome.payload);
      return;
    }
    storage.SetItem(AccessTokenKey, Get(tokenReply.data, "access"));
    storage.SetItem(RefreshTokenKey, Get(tokenReply.data, "refresh"));
    if !meReply.Ok? {
      outcome := LoginRejected(RejectionPayload(meReply));
      auth.Rejected(outcome.payload);
      return;
    }
    outcome := LoginFulfilled(Obj([Entry("tokens", tokenReply.data), Entry("user", meReply.data)]));
    assert Get(outcome.payload, "user") == outcome.payload.entries[1].value by {
      assert "tokens" != "user" by { assert "tokens"[0] != "user"[0]; }
      assert outcome.payload.entries[1..] == [outcome.payload.entries[1]];
    }
    auth.Fulfilled(outcome.payload);
  }

  /** `loginUser` storing the profile inside the `/profiles/me/` body, as the
      boot-time rehydration and `fetchMyProfile` read it; otherwise as
      `LoginUserAsWritten`. */
  method LoginUser(auth: AuthState, storage: LocalStorage, tokenReply: Reply, meReply: Reply)
    returns (outcome: LoginOutcome)
    modifies auth, storage
    ensures !tokenReply.Ok? ==> storage.items == old(storage.items)
    ensures tokenReply.Ok? ==> storage.items == old(storage.items)
      [AccessTokenKey := StringOf(Get(tokenReply.data, "access"))]
      [RefreshTokenKey := StringOf(Get(tokenReply.data, "refresh"))]
    ensures !tokenReply.Ok? ==> outcome == LoginRejected(RejectionPayload(tokenReply))
    ensures tokenReply.Ok? && !meReply.Ok? ==> outcome == LoginRejected(RejectionPayload(meReply))
    ensures tokenReply.Ok? && meReply.Ok? ==>
      outcome == LoginFulfilled(Obj([Entry("tokens", tokenReply.data), Entry("user", Get(meReply.data, "profile"))]))
    ensures outcome.LoginRejected? ==>
      !auth.loading && !auth.isAuthenticated && auth.user == Null && auth.error == outcome.payload
    ensures outcome.LoginFulfilled? ==>
      !auth.loading && auth.isAuthenticated && auth.user == Get(meReply.data, "profile") && auth.error == Null
  {
    auth.Pending();
    if !tokenReply.Ok? {
      outcome := LoginRejected(RejectionPayload(tokenReply));
      auth.Rejected(outcome.payload);
      return;
    }
    storage.SetItem(AccessTokenKey, Get(tokenReply.data, "access"));
    storage.SetItem(RefreshTokenKey, Get(tokenReply.data, "refresh"));
    if !meReply.Ok? {
      outcome := LoginRejected(RejectionPayload(meReply));
      auth.Rejected(outcome.payload);
      return;
    }
    outcome := LoginFulfilled(Obj([Entry("tokens", tokenReply.data), Entry("user", Get(meReply.data, "profile"))]));
    assert Get(outcome.payload, "user") == outcome.payload.entries[1].value by {
      assert "tokens" != "user" by { assert "tokens"[0] != "user"[0]; }
      assert outcome.payload.entries[1..] == [outcome.payload.entries[1]];
    }
    auth.Fulfilled(outcome.payload);
  }
}

=== FILE: axios_client.dfy ===
/** The axios instance every API call goes through. A request interceptor
    adds the stored access token as an `Authorization: Bearer` header
    (section 2.1 of RFC 6750). A response interceptor refreshes the token once
    on a 401 and re-issues the request; when the refresh fails it clears the
    storage and sends the browser to the sign-in page. */
module AxiosClient {
  import opened Wrappers
  import opened Js
  import opened AuthSlice

  const AuthorizationHeader := "Authorization"
  const LoginPath := "/login"

  /** The request interceptor: the bearer header is set exactly when the
      stored access token is present and not empty. */
  function WithBearer(headers: map<string, string>, storage: map<string, string>): (r: map<string, string>)
    ensures StoredToken(storage, AccessTokenKey).Some? ==>
      r == headers[AuthorizationHeader := "Bearer " + storage[AccessTokenKey]]
    ensures StoredToken(storage, AccessTokenKey).None? ==> r == headers
  {
    match StoredToken(storage, AccessTokenKey)
    case Some(token) => headers[AuthorizationHeader := "Bearer " + token]
    case None => headers
  }

  /** The instance's defaults merged under the request's own headers, as
      axios does before the request interceptors run: the default
      `Authorization` header (`defaults.headers.common`) is sent unless the
      request sets one itself. */
  function WithDefaults(headers: map<string, string>, defaultAuthorization: Option<string>): (r: map<string, string>)
    ensures AuthorizationHeader in headers || defaultAuthorization.None? ==> r == headers
    ensures AuthorizationHeader !in headers && defaultAuthorization.Some? ==>
      r == headers[AuthorizationHeader := defaultAuthorization.value]
  {
    if AuthorizationHeader !in headers && defaultAuthorization.Some? then
      headers[AuthorizationHeader := defaultAuthorization.value]
    else headers
  }

  /** Why a request was rejected: with the reply it got, or with the failed
      refresh's reply. */
  datatype Rejection = WithReply(reply: Reply) | RefreshFailed(refreshReply: Reply)

  datatype Outcome = Resolved(data: Value) | Rejected(reason: Rejection)

  /** What the interceptors touch outside the request: the storage, the
      instance's default `Authorization` header, the number of refresh
      requests sent, and where the browser was sent. */
  datatype Session = Session(
    storage: map<string, string>, defaultAuthorization: Option<string>,
    refreshRequests: nat, location: Option<string>)

  /** The headers a request goes out with: the defaults merged in, then the
      request interceptor. */
  function Outgoing(s: Session, headers: map<string, string>): map<string, string> {
    WithBearer(WithDefaults(headers, s.defaultAuthorization), s.storage)
  }

  /** A request's end: the session, the request's headers and `_retry` flag,
      and the outcome. */
  datatype Sent = Sent(session: Session, headers: map<string, string>, retry: bool, outcome: Outcome)

  /** `axiosInstance(config)`: the defaults merged in, the request interceptor, the server's reply to
      the headers sent, then the response interceptor. `server` answers a
      request by its headers and `refresh` answers `POST /auth/refresh/` for
      a refresh token. */
  function SendSpec(s: Session, headers: map<string, string>, retry: bool,
                    server: map<string, string> -> Reply, refresh: string -> Reply): Sent
    decreases if retry then 0 else 1, 1
  {
    var sentHeaders := Outgoing(s, headers);
    var reply := server(sentHeaders);
    if reply.Ok? then Sent(s, sentHeaders, retry, Resolved(reply.data))
    else OnRejectedSpec(s, sentHeaders, retry, reply, server, refresh)
  }

  /** The response interceptor's error branch. A 401 on a request not yet
      retried marks it retried; with a stored refresh token, one refresh
      request follows. On success the new access token is stored, set as the
      default and on the request, and the request is re-issued, its own
      outcome being the outcome. On failure all of the storage is cleared,
      the browser goes to the sign-in page, and the refresh's error is the
      rejection. Anything else is rejected with the reply as it came. */
  function OnRejectedSpec(s: Session, headers: map<string, string>, retry: bool, reply: Reply,
                          server: map<string, string> -> Reply, refresh: string -> Reply): Sent
    decreases if retry then 0 else 1, 0
  {
    if reply.HttpError? && reply.status == 401 && !retry then
      match StoredToken(s.storage, RefreshTokenKey)
      case None => Sent(s, headers, true, Rejected(WithReply(reply)))
      case Some(refreshToken) =>
        var counted := s.(refreshRequests := s.refreshRequests + 1);
        var refreshReply := refresh(refreshToken);
        if refreshReply.Ok? then
          var access := StringOf(Get(refreshReply.data, "access"));
          var renewed := counted.(storage := counted.storage[AccessTokenKey := access],
                                  defaultAuthorization := Some("Bearer " + access));
          SendSpec(renewed, headers[AuthorizationHeader := "Bearer " + access], true, server, refresh)
        else
          Sent(counted.(storage := map[], location := Some(LoginPath)), headers, true,
               Rejected(RefreshFailed(refreshReply)))
    else Sent(s, headers, retry, Rejected(WithReply(reply)))
  }

  /** A request already retried is never refreshed again: nothing outside
      it changes, and its outcome is the server's reply. */
  lemma RetriedRequestIsFinal(s: Session, headers: map<string, string>,
                              server: map<string, string> -> Reply, refresh: string -> Reply)
    ensures var sent := SendSpec(s, headers, true, server, refresh);
      var reply := server(Outgoing(s, headers));
      && sent.session == s
      && sent.retry
      && (reply.Ok? ==> sent.outcome == Resolved(reply.data))
      && (!reply.Ok? ==> sent.outcome == Rejected(WithReply(reply)))
  {
  }

  /** At most one refresh request per request the caller issues, and none
      for a request already marked retried. */
  lemma {:induction false} AtMostOneRefresh(s: Session, headers: map<string, string>, retry: bool,
                                            server: map<string, string> -> Reply, refresh: string -> Reply)
    ensures SendSpec(s, headers, retry, server, refresh).session.refreshRequests
            <= s.refreshRequests + (if retry then 0 else 1)
  {
    var sentHeaders := Outgoing(s, headers);
    var reply := server(sentHeaders);
    if !reply.Ok? && reply.HttpError? && reply.status == 401 && !retry {
      match StoredToken(s.storage, RefreshTokenKey)
      case None =>
      case Some(refreshToken) =>
        var refreshReply := refresh(refreshToken);
        if refreshReply.Ok? {
          var access := StringOf(Get(refreshReply.data, "access"));
          var renewed := s.(refreshRequests := s.refreshRequests + 1).(
            storage := s.storage[AccessTokenKey := access], defaultAuthorization := Some("Bearer " + access));
          RetriedRequestIsFinal(renewed, sentHeaders[AuthorizationHeader := "Bearer " + access], server, refresh);
        }
    }
  }

  /** Every reply other than a 401 is passed on as it came, with no refresh. */
  lemma OtherRepliesPassThrough(s: Session, headers: map<string, string>, retry: bool,
                                server: map<string, string> -> Reply, refresh: string -> Reply)
    requires var reply := server(Outgoing(s, headers));
      !(reply.HttpError? && reply.status == 401)
    ensures var sent := SendSpec(s, headers, retry, server, refresh);
      var reply := server(Outgoing(s, headers));
      && sent.session == s
      && sent.outcome == (if reply.Ok? then Resolved(reply.data) else Rejected(WithReply(reply)))
  {
  }

  /** A 401 with no refresh token stored marks the request retried and
      rejects with the 401 itself, with no refresh request. */
  lemma NoRefreshTokenRejects(s: Session, headers: map<string, string>,
                              server: map<string, string> -> Reply, refresh: string -> Reply)
    requires var reply := server(Outgoing(s, headers));
      reply.HttpError? && reply.status == 401
    requires StoredToken(s.storage, RefreshTokenKey).None?
    ensures var sent := SendSpec(s, headers, false, server, refresh);
      && sent.session == s
      && sent.retry
      && sent.outcome == Rejected(WithReply(server(Outgoing(s, headers))))
  {
  }

  /** A 401 whose refresh fails leaves the storage empty (the other keys
      too), the browser on the sign-in page, and the refresh's error as the
      rejection. */
  lemma FailedRefreshSignsOut(s: Session, headers: map<string, string>,
                              server: map<string, string> -> Reply, refresh: string -> Reply)
    requires var reply := server(Outgoing(s, headers));
      reply.HttpError? && reply.status == 401
    requires StoredToken(s.storage, RefreshTokenKey).Some?
    requires !refresh(s.storage[RefreshTokenKey]).Ok?
    ensures var sent := SendSpec(s, headers, false, server, refresh);
      && sent.session.storage == map[]
      && sent.session.location == Some(LoginPath)
      && sent.session.refreshRequests == s.refreshRequests + 1
      && sent.outcome == Rejected(RefreshFailed(refresh(s.storage[RefreshTokenKey])))
  {
  }

  /** A 401 with a successful refresh: the new token is stored and is the
      default header, and the outcome is that of the re-issued request, sent
      with the new token. */
  lemma RefreshedRequestIsReissued(s: Session, headers: map<string, string>,
                                   server: map<string, string> -> Reply, refresh: string -> Reply)
    requires var reply := server(Outgoing(s, headers));
      reply.HttpError? && reply.status == 401
    requires StoredToken(s.storage, RefreshTokenKey).Some?
    requires refresh(s.storage[RefreshTokenKey]).Ok?
    ensures var access := StringOf(Get(refresh(s.storage[RefreshTokenKey]).data, "access"));
      var sent := SendSpec(s, headers, false, server, refresh);
      var reissued := WithBearer(Outgoing(s, headers)[AuthorizationHeader := "Bearer " + access],
                                 s.storage[AccessTokenKey := access]);
      && sent.session.storage == s.storage[AccessTokenKey := access]
      && sent.session.defaultAuthorization == Some("Bearer " + access)
      && sent.session.refreshRequests == s.refreshRequests + 1
      && sent.headers == reissued
      && sent.outcome == (if server(reissued).Ok? then Resolved(server(reissued).data)
                          else Rejected(WithReply(server(reissued))))
  {
  }

  /** After a refresh has set the default header, signing out removes both
      tokens (`AuthSlice.AuthState.Logout`) but leaves the instance's
      defaults as they are until the page reloads. A later request that sets
      no `Authorization` header of its own, a registration say, still goes
      out with the old bearer, and the server answers that. */
  lemma StaleBearerAfterSignOut(s: Session, headers: map<string, string>, retry: bool,
                                server: map<string, string> -> Reply, refresh: string -> Reply)
    requires s.defaultAuthorization.Some?
    requires StoredToken(s.storage, AccessTokenKey).None? && StoredToken(s.storage, RefreshTokenKey).None?
    requires AuthorizationHeader !in headers
    ensures var stale := headers[AuthorizationHeader := s.defaultAuthorization.value];
      var sent := SendSpec(s, headers, retry, server, refresh);
      && sent.headers == stale
      && sent.session == s
      && sent.outcome == (if server(stale).Ok? then Resolved(server(stale).data)
                          else Rejected(WithReply(server(stale))))
  {
  }

  /** A request as the interceptors see and change it. */
  class RequestConfig {
    var headers: map<string, string>
    var retry: bool

    constructor (headers: map<string, string>)
      ensures this.headers == headers && !retry
    {
      this.headers := headers;
      retry := false;
    }
  }

  /** The instance with the state its interceptors change. */
  class Client {
    const storage: LocalStorage
    var defaultAuthorization: Option<string>
    var refreshRequests: nat
    var location: Option<string>

    constructor (storage: LocalStorage)
      ensures this.storage == storage && defaultAuthorization == None
      ensures refreshRequests == 0 && location == None
    {
      this.storage := storage;
      defaultAuthorization := None;
      refreshRequests := 0;
      location := None;
    }

    function CurrentSession(): Session
      reads this, storage
    {
      Session(storage.items, defaultAuthorization, refreshRequests, location)
    }

    /** The request interceptor. */
    method AttachToken(config: RequestConfig)
      modifies config`headers
      ensures config.headers == WithBearer(old(config.headers), storage.items)
    {
      var accessToken := storage.GetItem(AccessTokenKey);
      if accessToken.Some? && accessToken.value != "" {
        config.headers := config.headers[AuthorizationHeader := "Bearer " + accessToken.value];
      }
    }

    /** Merging the instance's defaults into the request's headers. */
    method MergeDefaults(config: RequestConfig)
      modifies config`headers
      ensures config.headers == WithDefaults(old(config.headers), defaultAuthorization)
    {
      if AuthorizationHeader !in config.headers && defaultAuthorization.Some? {
        config.headers := config.headers[AuthorizationHeader := defaultAuthorization.value];
      }
    }

    /** `axiosInstance(config)`. */
    method Send(config: RequestConfig, server: map<string, string> -> Reply, refresh: string -> Reply)
      returns (outcome: Outcome)
      modifies this, storage, config
      decreases if config.retry then 0 else 1, 1
      ensures var sent := SendSpec(old(CurrentSession()), old(config.headers), old(config.retry), server, refresh);
        CurrentSession() == sent.session && config.headers == sent.headers &&
        config.retry == sent.retry && outcome == sent.outcome
    {
      MergeDefaults(config);
      AttachToken(config);
      var reply := server(config.headers);
      if reply.Ok? {
        return Resolved(reply.data);
      }
      outcome := OnRejected(config, reply, server, refresh);
    }

    /** The response interceptor's error handler. */
    method OnRejected(config: RequestConfig, reply: Reply,
                      server: map<string, string> -> Reply, refresh: string -> Reply)
      returns (outcome: Outcome)
      modifies this, storage, config
      decreases if config.retry then 0 else 1, 0
      ensures var sent := OnRejectedSpec(old(CurrentSession()), old(config.headers), old(config.retry), reply, server, refresh);
        CurrentSession() == sent.session && config.headers == sent.headers &&
        config.retry == sent.retry && outcome == sent.outcome
    {
      if reply.HttpError? && reply.status == 401 && !config.retry {
        config.retry := true;
        var refreshToken := storage.GetItem(RefreshTokenKey);
        if refreshToken.Some? && refreshToken.value != "" {
          refreshRequests := refreshRequests + 1;
          var refreshReply := refresh(refreshToken.value);
          if refreshReply.Ok? {
            var access := Get(refreshReply.data, "access");
            ghost var counted := old(CurrentSession()).(refreshRequests := refreshRequests);
            storage.SetItem(AccessTokenKey, access);
            defaultAuthorization := Some("Bearer " + StringOf(access));
            config.headers := config.headers[AuthorizationHeader := "Bearer " + StringOf(access)];
            assert CurrentSession() == counted.(storage := counted.storage[AccessTokenKey := StringOf(access)],
                                                defaultAuthorization := Some("Bearer " + StringOf(access)));
            outcome := Send(config, server, refresh);
            return;
          }
          storage.Clear();
          location := Some(LoginPath);
          return Rejected(RefreshFailed(refreshReply));
        }
      }
      return Rejected(WithReply(reply));
    }
  }
}

=== FILE: categories_models.dfy ===
/** The `categories` app's models: categories with their `tools` list, unique
    by name within a vendor; attributes tied to one of the category's tools;
    attribute values; and the two `clean` methods, which leave the object's
    own row out of their duplicate search. Every row is `Tenancy.Owned`: its
    fields together with its vendor. */
module CategoriesModels {
  import opened Wrappers
  import opened Tables
  import opened Tenancy

  /** The fields of a `Category` row. */
  datatype CategoryFields = CategoryFields(pk: nat, name: string, tools: seq<string>)

  /** The fields of an `Attribute` row. */
  datatype AttributeFields = AttributeFields(pk: nat, name: string, category: nat, toolKey: string, attributeType: string)

  /** The fields of an `AttributeValue` row. */
  datatype ValueFields = ValueFields(pk: nat, attribute: nat, value: string)

  /** The columns' `max_length`: a category's name, an attribute's name and
      tool key, and an attribute value's text. */
  const MaxCategoryName: nat := 255
  const MaxAttributeName: nat := 50
  const MaxToolKey: nat := 100
  const MaxValueText: nat := 255

  /** `Attribute.AttributeChoiceType`: the stored keys, and the default. */
  const AttributeChoices: seq<string> := ["dropdown", "date", "checkbox", "input"]
  const DefaultAttributeType: string := "input"

  /** Inserting a category: refused when the vendor already has one of that name. */
  function InsertCategory(rows: seq<Owned<CategoryFields>>, c: Owned<CategoryFields>)
    : (r: Result<seq<Owned<CategoryFields>>, IntegrityError>)
    ensures r.Success? <==> forall i :: 0 <= i < |rows| ==> (rows[i].vendor, rows[i].data.name) != (c.vendor, c.data.name)
    ensures r.Success? ==> r.value == rows + [c]
    ensures UniqueBy(rows, (x: Owned<CategoryFields>) => (x.vendor, x.data.name)) && r.Success? ==>
      UniqueBy(r.value, (x: Owned<CategoryFields>) => (x.vendor, x.data.name))
  {
    InsertUnique(rows, c, (x: Owned<CategoryFields>) => (x.vendor, x.data.name))
  }

  /** The errors `Attribute.clean` raises, in the order it checks. */
  datatype AttributeCleanError = ToolKeyNotInCategory | VendorMismatch | DuplicateAttribute

  /** Another stored attribute (its pk is not `pk`) has this name and tool in
      this category. */
  predicate AttributeTaken(rows: seq<Owned<AttributeFields>>, pk: Option<nat>, name: string, category: nat, toolKey: string) {
    exists i :: 0 <= i < |rows| && Some(rows[i].data.pk) != pk &&
      rows[i].data.name == name && rows[i].data.category == category && rows[i].data.toolKey == toolKey
  }

  /** `Attribute.clean` for an attribute of `category` owned by `vendor`:
      the tool key must be one of the category's tools, the vendor must be
      the category's, and no other row may share (name, category, tool key);
      the first failing check decides the error. */
  function CleanAttribute(rows: seq<Owned<AttributeFields>>, category: Owned<CategoryFields>, pk: Option<nat>,
                          name: string, toolKey: string, vendor: VendorId): (r: Option<AttributeCleanError>)
    ensures r == Some(ToolKeyNotInCategory) <==> toolKey !in category.data.tools
    ensures r == Some(VendorMismatch) <==> toolKey in category.data.tools && vendor != category.vendor
    ensures r == Some(DuplicateAttribute) <==>
      toolKey in category.data.tools && vendor == category.vendor && AttributeTaken(rows, pk, name, category.data.pk, toolKey)
    ensures r.None? <==>
      toolKey in category.data.tools && vendor == category.vendor && !AttributeTaken(rows, pk, name, category.data.pk, toolKey)
  {
    if toolKey !in category.data.tools then Some(ToolKeyNotInCategory)
    else if vendor != category.vendor then Some(VendorMismatch)
    else if Find(rows, (a: Owned<AttributeFields>) => Some(a.data.pk) != pk && a.data.name == name &&
                   a.data.category == category.data.pk && a.data.toolKey == toolKey).Some?
    then Some(DuplicateAttribute)
    else None
  }

  /** The `unique_together` key of `Attribute`. */
  function AttributeKey(a: Owned<AttributeFields>): (string, nat, string) {
    (a.data.name, a.data.category, a.data.toolKey)
  }

  /** A stored attribute that is consistent with its category and unique by
      key passes `clean` again: its own row is left out of the search. */
  lemma {:induction false} CleanAttributeOnSavedRow(rows: seq<Owned<AttributeFields>>, i: nat, category: Owned<CategoryFields>)
    requires i < |rows|
    requires UniqueBy(rows, AttributeKey)
    requires rows[i].data.category == category.data.pk
    requires rows[i].data.toolKey in category.data.tools && rows[i].vendor == category.vendor
    ensures CleanAttribute(rows, category, Some(rows[i].data.pk), rows[i].data.name, rows[i].data.toolKey, rows[i].vendor).None?
  {
    var a := rows[i];
    forall j | 0 <= j < |rows| && Some(rows[j].data.pk) != Some(a.data.pk)
      ensures !(rows[j].data.name == a.data.name && rows[j].data.category == category.data.pk && rows[j].data.toolKey == a.data.toolKey)
    {
      assert j != i;
      if j < i {
        assert AttributeKey(rows[j]) != AttributeKey(rows[i]);
      } else {
        assert AttributeKey(rows[i]) != AttributeKey(rows[j]);
      }
    }
  }

  /** For a new attribute that passes the first two checks, `clean` passes
      exactly when inserting it keeps the `unique_together` key unique. */
  lemma CleanAttributeMatchesConstraint(rows: seq<Owned<AttributeFields>>, category: Owned<CategoryFields>, a: Owned<AttributeFields>)
    requires a.data.category == category.data.pk
    requires a.data.toolKey in category.data.tools && a.vendor == category.vendor
    ensures CleanAttribute(rows, category, None, a.data.name, a.data.toolKey, a.vendor).None? <==>
      InsertUnique(rows, a, AttributeKey).Success?
  {
  }

  /** The errors `AttributeValue.clean` raises, in the order it checks. */
  datatype ValueCleanError = ValueVendorMismatch | DuplicateValue

  /** Another stored value (its pk is not `pk`) has this attribute and text. */
  predicate ValueTaken(rows: seq<Owned<ValueFields>>, pk: Option<nat>, attribute: nat, value: string) {
    exists i :: 0 <= i < |rows| && Some(rows[i].data.pk) != pk && rows[i].data.attribute == attribute && rows[i].data.value == value
  }

  /** `AttributeValue.clean`: nothing to check without an attribute; then the
      vendor must be the attribute's, and no other row may share
      (attribute, value). */
  function CleanAttributeValue(rows: seq<Owned<ValueFields>>, pk: Option<nat>, vendor: VendorId,
                               attribute: Option<Owned<AttributeFields>>, value: string): (r: Option<ValueCleanError>)
    ensures attribute.None? ==> r.None?
    ensures r == Some(ValueVendorMismatch) <==> attribute.Some? && vendor != attribute.value.vendor
    ensures r == Some(DuplicateValue) <==>
      attribute.Some? && vendor == attribute.value.vendor && ValueTaken(rows, pk, attribute.value.data.pk, value)
  {
    match attribute
    case None => None
    case Some(a) =>
      if vendor != a.vendor then Some(ValueVendorMismatch)
      else if Find(rows, (x: Owned<ValueFields>) => Some(x.data.pk) != pk && x.data.attribute == a.data.pk && x.data.value == value).Some?
      then Some(DuplicateValue)
      else None
  }

  /** The `unique_together` key of `AttributeValue`. */
  function ValueKey(v: Owned<ValueFields>): (nat, string) {
    (v.data.attribute, v.data.value)
  }

  /** A stored value owned by its attribute's vendor and unique by key
      passes `clean` again. */
  lemma {:induction false} CleanAttributeValueOnSavedRow(rows: seq<Owned<ValueFields>>, i: nat, attribute: Owned<AttributeFields>)
    requires i < |rows|
    requires UniqueBy(rows, ValueKey)
    requires rows[i].data.attribute == attribute.data.pk && rows[i].vendor == attribute.vendor
    ensures CleanAttributeValue(rows, Some(rows[i].data.pk), rows[i].vendor, Some(attribute), rows[i].data.value).None?
  {
    var v := rows[i];
    forall j | 0 <= j < |rows| && Some(rows[j].data.pk) != Some(v.data.pk)
      ensures !(rows[j].data.attribute == attribute.data.pk && rows[j].data.value == v.data.value)
    {
      assert j != i;
      if j < i {
        assert ValueKey(rows[j]) != ValueKey(rows[i]);
      } else {
        assert ValueKey(rows[i]) != ValueKey(rows[j]);
      }
    }
  }
}

=== FILE: categories_serializers.dfy ===
/** The `categories` app's serializers and their viewsets' creation path.
    The fields DRF builds from the model's columns check their input first
    (every failing field is reported together); then the unique-together
    validator runs on the trimmed text; then `validate` lets a requester use
    only their own vendor's attribute or category; `create` (like
    `perform_create`) stamps the requester's vendor. The category
    serializer has no vendor field, so its uniqueness is left to the
    database. */
module CategoriesSerializers {
  import opened Wrappers
  import opened Text
  import opened Tables
  import opened Tenancy
  import opened CategoriesModels
  import DrfFields

  /** The request keys of the serializers' fields. */
  datatype Field =
    | AttributeInput       // "attribute"
    | AttributeValueInput  // "attribute_value"
    | CategoryInput        // "category"
    | NameInput            // "name"
    | ToolKeyInput         // "tool_key"
    | AttributeTypeInput   // "attribute_type"

  /** Why a write through these serializers fails. */
  datatype WriteError =
    | FieldErrors(fields: set<Field>)  // 400: the named fields refused their input
    | NotUnique          // 400: the serializer's unique-together validator
    | NotOwnAttribute    // 400: "You can only assign values to your own attributes."
    | NotOwnCategory     // 400: "You can only assign attributes to your own categories."
    | RequesterNoVendor  // `request.user.vendor` raised
    | Integrity          // the database refused the row

  /** A `PrimaryKeyRelatedField` over all stored rows: the row whose
      primary key the request gives, None when it gives none or no row has
      it. */
  function RowByPk<T>(rows: seq<Owned<T>>, pkOf: T -> nat, pk: Option<nat>): (r: Option<Owned<T>>)
    ensures r.Some? <==> pk.Some? && exists i :: 0 <= i < |rows| && pkOf(rows[i].data) == pk.value
    ensures r.Some? ==> r.value in rows && pkOf(r.value.data) == pk.value
  {
    if pk.None? then None else Find(rows, (x: Owned<T>) => pkOf(x.data) == pk.value)
  }

  function AttributePk(a: AttributeFields): nat { a.pk }

  function CategoryPk(c: CategoryFields): nat { c.pk }

  /** `AttributeValueSerializer.validate`: the data comes back unchanged
      exactly when the attribute belongs to the requester's vendor. */
  function ValidateValueData<T>(data: T, attribute: Owned<AttributeFields>, userVendor: Option<VendorId>): (r: Result<T, WriteError>)
    ensures r.Success? <==> userVendor.Some? && attribute.vendor == userVendor.value
    ensures r.Success? ==> r.value == data
    ensures r.Failure? ==> (r.error == RequesterNoVendor <==> userVendor.None?) &&
                           (r.error == NotOwnAttribute <==> userVendor.Some?)
  {
    match userVendor
    case None => Failure(RequesterNoVendor)
    case Some(v) => if attribute.vendor != v then Failure(NotOwnAttribute) else Success(data)
  }

  /** `AttributeSerializer.validate`: the data comes back unchanged exactly
      when the category belongs to the requester's vendor. */
  function ValidateAttributeData<T>(data: T, category: Owned<CategoryFields>, userVendor: Option<VendorId>): (r: Result<T, WriteError>)
    ensures r.Success? <==> userVendor.Some? && category.vendor == userVendor.value
    ensures r.Success? ==> r.value == data
    ensures r.Failure? ==> (r.error == RequesterNoVendor <==> userVendor.None?) &&
                           (r.error == NotOwnCategory <==> userVendor.Some?)
  {
    match userVendor
    case None => Failure(RequesterNoVendor)
    case Some(v) => if category.vendor != v then Failure(NotOwnCategory) else Success(data)
  }

  /** The fields of `AttributeValueSerializer` that refuse their input:
      `attribute` names no stored attribute, or `attribute_value` is
      absent, blank or too long once trimmed. */
  function ValueFieldErrors(attributes: seq<Owned<AttributeFields>>, attributePk: Option<nat>, value: Option<string>)
    : (r: set<Field>)
    ensures AttributeInput in r <==> RowByPk(attributes, AttributePk, attributePk).None?
    ensures AttributeValueInput in r <==> DrfFields.CharField(value, MaxValueText).Failure?
    ensures r <= {AttributeInput, AttributeValueInput}
  {
    (if RowByPk(attributes, AttributePk, attributePk).None? then {AttributeInput} else {}) +
    (if DrfFields.CharField(value, MaxValueText).Failure? then {AttributeValueInput} else {})
  }

  /** Creating an attribute value through `AttributeValueViewSet`: the
      fields, then the unique-together validator on the trimmed text, then
      `validate`, then the row is stored with the requester's vendor and
      the trimmed text. */
  function CreateAttributeValue(rows: seq<Owned<ValueFields>>, attributes: seq<Owned<AttributeFields>>,
                                attributePk: Option<nat>, value: Option<string>,
                                pk: nat, userVendor: Option<VendorId>): (r: Result<seq<Owned<ValueFields>>, WriteError>)
    ensures var errors := ValueFieldErrors(attributes, attributePk, value);
      r == Failure(FieldErrors(errors)) <==> errors != {}
    ensures r.Success? <==>
      ValueFieldErrors(attributes, attributePk, value) == {} &&
      var attribute := RowByPk(attributes, AttributePk, attributePk).value;
      !ValueTaken(rows, None, attribute.data.pk, Strip(value.value)) &&
      userVendor.Some? && attribute.vendor == userVendor.value
    ensures (r.Failure? && ValueFieldErrors(attributes, attributePk, value) == {} &&
             ValueTaken(rows, None, attributePk.value, Strip(value.value))) ==> r.error == NotUnique
    ensures r.Success? ==>
      r.value == rows + [Owned(ValueFields(pk, attributePk.value, Strip(value.value)), userVendor.value)]
    ensures r.Success? && UniqueBy(rows, ValueKey) ==> UniqueBy(r.value, ValueKey)
  {
    var errors := ValueFieldErrors(attributes, attributePk, value);
    if errors != {} then Failure(FieldErrors(errors))
    else
      var attribute := RowByPk(attributes, AttributePk, attributePk).value;
      var text := Strip(value.value);
      var row := ValueFields(pk, attribute.data.pk, text);
      if Find(rows, (x: Owned<ValueFields>) => x.data.attribute == attribute.data.pk && x.data.value == text).Some? then
        Failure(NotUnique)
      else match ValidateValueData(row, attribute, userVendor)
        case Failure(e) => Failure(e)
        case Success(data) =>
          var stamped := StampVendor(data, userVendor);
          match InsertUnique(rows, stamped.value, ValueKey)
          case Failure(_) => assert false; Failure(Integrity)
          case Success(t) => Success(t)
  }

  /** Whitespace around the value changes nothing: " red" is refused as
      not unique exactly where "red" is, and is stored as "red". */
  lemma CreateValueIgnoresPadding(rows: seq<Owned<ValueFields>>, attributes: seq<Owned<AttributeFields>>,
                                  attributePk: Option<nat>, pre: string, value: string, post: string,
                                  pk: nat, userVendor: Option<VendorId>)
    requires AllSpace(pre) && AllSpace(post)
    ensures CreateAttributeValue(rows, attributes, attributePk, Some(pre + value + post), pk, userVendor) ==
      CreateAttributeValue(rows, attributes, attributePk, Some(value), pk, userVendor)
  {
    StripOfPadded(pre, value, post);
  }

  /** A value created through the API satisfies the model's own `clean`. */
  lemma CreatedValuePassesClean(rows: seq<Owned<ValueFields>>, attributes: seq<Owned<AttributeFields>>,
                                attributePk: Option<nat>, value: Option<string>,
                                pk: nat, userVendor: Option<VendorId>)
    requires CreateAttributeValue(rows, attributes, attributePk, value, pk, userVendor).Success?
    ensures CleanAttributeValue(rows, None, userVendor.value, RowByPk(attributes, AttributePk, attributePk),
                                Strip(value.value)).None?
  {
  }

  /** The fields of `AttributeSerializer` that refuse their input:
      `category` names no stored category; `name` or `tool_key` is absent,
      blank or too long once trimmed; a given `attribute_type` is not one of
      the choices (an absent one takes the model's default); the JSON
      `attribute_value` is absent or null. */
  function AttributeFieldErrors<J>(categories: seq<Owned<CategoryFields>>, categoryPk: Option<nat>, name: Option<string>,
                                   toolKey: Option<string>, attributeType: Option<string>, attributeValue: Option<J>)
    : (r: set<Field>)
    ensures CategoryInput in r <==> RowByPk(categories, CategoryPk, categoryPk).None?
    ensures NameInput in r <==> DrfFields.CharField(name, MaxAttributeName).Failure?
    ensures ToolKeyInput in r <==> DrfFields.CharField(toolKey, MaxToolKey).Failure?
    ensures AttributeTypeInput in r <==> attributeType.Some? && attributeType.value !in AttributeChoices
    ensures AttributeValueInput in r <==> attributeValue.None?
    ensures r <= {CategoryInput, NameInput, ToolKeyInput, AttributeTypeInput, AttributeValueInput}
  {
    set f | f in {CategoryInput, NameInput, ToolKeyInput, AttributeTypeInput, AttributeValueInput} &&
              AttributeFieldRefused(f, categories, categoryPk, name, toolKey, attributeType, attributeValue)
  }

  /** Whether one field of `AttributeSerializer` refuses its input. */
  predicate AttributeFieldRefused<J>(f: Field, categories: seq<Owned<CategoryFields>>, categoryPk: Option<nat>,
                                     name: Option<string>, toolKey: Option<string>, attributeType: Option<string>,
                                     attributeValue: Option<J>)
  {
    match f
    case CategoryInput => RowByPk(categories, CategoryPk, categoryPk).None?
    case NameInput => DrfFields.CharField(name, MaxAttributeName).Failure?
    case ToolKeyInput => DrfFields.CharField(toolKey, MaxToolKey).Failure?
    case AttributeTypeInput => DrfFields.ChoiceField(attributeType, AttributeChoices, DefaultAttributeType).Failure?
    case AttributeValueInput => attributeValue.None?
    case AttributeInput => false
  }

  /** Creating an attribute through `AttributeViewSet`: the fields, then
      the unique-together validator on the trimmed (name, category, tool
      key), then `validate`, then the row is stored with the requester's
      vendor, the trimmed texts and the type given or defaulted. The tool
      key is not checked against the category's tools. The JSON
      `attribute_value` is only required here; its content is not part of
      the row. */
  function CreateAttribute<J>(rows: seq<Owned<AttributeFields>>, categories: seq<Owned<CategoryFields>>,
                              categoryPk: Option<nat>, name: Option<string>, toolKey: Option<string>,
                              attributeType: Option<string>, attributeValue: Option<J>,
                              pk: nat, userVendor: Option<VendorId>)
    : (r: Result<seq<Owned<AttributeFields>>, WriteError>)
    ensures var errors := AttributeFieldErrors(categories, categoryPk, name, toolKey, attributeType, attributeValue);
      r == Failure(FieldErrors(errors)) <==> errors != {}
    ensures r.Success? <==>
      AttributeFieldErrors(categories, categoryPk, name, toolKey, attributeType, attributeValue) == {} &&
      var category := RowByPk(categories, CategoryPk, categoryPk).value;
      !AttributeTaken(rows, None, Strip(name.value), category.data.pk, Strip(toolKey.value)) &&
      userVendor.Some? && category.vendor == userVendor.value
    ensures (r.Failure? && AttributeFieldErrors(categories, categoryPk, name, toolKey, attributeType, attributeValue) == {} &&
             AttributeTaken(rows, None, Strip(name.value), categoryPk.value, Strip(toolKey.value))) ==> r.error == NotUnique
    ensures r.Success? ==>
      r.value == rows + [Owned(AttributeFields(pk, Strip(name.value), categoryPk.value, Strip(toolKey.value),
                                               attributeType.GetOr(DefaultAttributeType)), userVendor.value)]
    ensures r.Success? && UniqueBy(rows, AttributeKey) ==> UniqueBy(r.value, AttributeKey)
  {
    var errors := AttributeFieldErrors(categories, categoryPk, name, toolKey, attributeType, attributeValue);
    if errors != {} then Failure(FieldErrors(errors))
    else
      var category := RowByPk(categories, CategoryPk, categoryPk).value;
      var n, t := Strip(name.value), Strip(toolKey.value);
      var row := AttributeFields(pk, n, category.data.pk, t, attributeType.GetOr(DefaultAttributeType));
      if Find(rows, (a: Owned<AttributeFields>) => a.data.name == n && a.data.category == category.data.pk && a.data.toolKey == t).Some? then
        Failure(NotUnique)
      else match ValidateAttributeData(row, category, userVendor)
        case Failure(e) => Failure(e)
        case Success(data) =>
          var stamped := StampVendor(data, userVendor);
          match InsertUnique(rows, stamped.value, AttributeKey)
          case Failure(_) => assert false; Failure(Integrity)
          case Success(t) => Success(t)
  }

  /** An attribute created through the API passes the model's `clean`
      exactly when its trimmed tool key is one of the category's tools: the
      vendor and duplicate rules hold already, the tool rule is never
      checked. */
  lemma CreatedAttributeCleanIffToolListed<J>(rows: seq<Owned<AttributeFields>>, categories: seq<Owned<CategoryFields>>,
                                              categoryPk: Option<nat>, name: Option<string>, toolKey: Option<string>,
                                              attributeType: Option<string>, attributeValue: Option<J>,
                                              pk: nat, userVendor: Option<VendorId>)
    requires CreateAttribute(rows, categories, categoryPk, name, toolKey, attributeType, attributeValue, pk, userVendor).Success?
    ensures var category := RowByPk(categories, CategoryPk, categoryPk).value;
      CleanAttribute(rows, category, None, Strip(name.value), Strip(toolKey.value), userVendor.value).None? <==>
      Strip(toolKey.value) in category.data.tools
    ensures var category := RowByPk(categories, CategoryPk, categoryPk).value;
      Strip(toolKey.value) !in category.data.tools ==>
      CleanAttribute(rows, category, None, Strip(name.value), Strip(toolKey.value), userVendor.value) == Some(ToolKeyNotInCategory)
  {
  }

  /** A stored category with no tools still accepts, through the API, any
      well-formed new attribute of its own vendor, although `clean` refuses
      every tool key. */
  lemma ToolKeyNotCheckedOnCreate<J>(rows: seq<Owned<AttributeFields>>, categories: seq<Owned<CategoryFields>>,
                                     categoryPk: nat, name: string, toolKey: string, attributeValue: J, pk: nat)
    requires RowByPk(categories, CategoryPk, Some(categoryPk)).Some?
    requires RowByPk(categories, CategoryPk, Some(categoryPk)).value.data.tools == []
    requires Strip(name) != "" && |Strip(name)| <= MaxAttributeName
    requires Strip(toolKey) != "" && |Strip(toolKey)| <= MaxToolKey
    requires !AttributeTaken(rows, None, Strip(name), categoryPk, Strip(toolKey))
    ensures var category := RowByPk(categories, CategoryPk, Some(categoryPk)).value;
      CreateAttribute(rows, categories, Some(categoryPk), Some(name), Some(toolKey), None, Some(attributeValue),
                      pk, Some(category.vendor)).Success? &&
      CleanAttribute(rows, category, None, Strip(name), Strip(toolKey), category.vendor) == Some(ToolKeyNotInCategory)
  {
  }

  /** Creating a category through `CategoryViewSet`: the `name` field
      first (trimmed, not blank, at most 255 characters), then
      `perform_create` reads the requester's vendor; the serializer has no
      vendor field and so no unique-together validator, and a trimmed name
      the vendor already uses is refused by the database. `tools` is the
      list given, or the model's empty default. */
  function CreateCategory(rows: seq<Owned<CategoryFields>>, pk: nat, name: Option<string>, tools: seq<string>,
                          userVendor: Option<VendorId>)
    : (r: Result<seq<Owned<CategoryFields>>, WriteError>)
    ensures r == Failure(FieldErrors({NameInput})) <==> DrfFields.CharField(name, MaxCategoryName).Failure?
    ensures r.Failure? <==> (DrfFields.CharField(name, MaxCategoryName).Failure? || userVendor.None? ||
      exists i :: 0 <= i < |rows| && rows[i].vendor == userVendor.value && rows[i].data.name == Strip(name.value))
    ensures r == Failure(RequesterNoVendor) <==> DrfFields.CharField(name, MaxCategoryName).Success? && userVendor.None?
    ensures r.Success? ==> r.value == rows + [Owned(CategoryFields(pk, Strip(name.value), tools), userVendor.value)]
  {
    match DrfFields.CharField(name, MaxCategoryName)
    case Failure(_) => Failure(FieldErrors({NameInput}))
    case Success(n) =>
      match StampVendor(CategoryFields(pk, n, tools), userVendor)
      case Failure(_) => Failure(RequesterNoVendor)
      case Success(row) =>
        match InsertCategory(rows, row)
        case Failure(_) => Failure(Integrity)
        case Success(t) => Success(t)
  }

  /** "Tools " is refused where the vendor already has "Tools": the name is
      trimmed before the database compares it. */
  lemma CategoryNameIgnoresPadding(rows: seq<Owned<CategoryFields>>, pk: nat, pre: string, name: string, post: string,
                                   tools: seq<string>, userVendor: Option<VendorId>)
    requires AllSpace(pre) && AllSpace(post)
    ensures CreateCategory(rows, pk, Some(pre + name + post), tools, userVendor) ==
      CreateCategory(rows, pk, Some(name), tools, userVendor)
  {
    StripOfPadded(pre, name, post);
  }
}

=== FILE: categories_views.dfy ===
/** The `categories` app's viewsets: `VendorPermission` on single objects,
    listings scoped to the requester's vendor (`Tenancy.ScopedRows`) and
    creation stamped with it (`Tenancy.StampVendor`). A detail request looks
    the primary key up in the scoped listing first, so an object of another
    vendor is reported missing, never forbidden. */
module CategoriesViews {
  import opened Wrappers
  import opened Tables
  import opened Tenancy

  /** `VendorPermission.has_object_permission`: the requester must have a
      vendor (`hasattr` is false when the accessor raises) and the object's
      `vendor` (None when it has no such attribute) must be that vendor. */
  function HasObjectPermission(userVendor: Option<VendorId>, objectVendor: Option<VendorId>): (granted: bool)
    ensures granted <==> userVendor.Some? && objectVendor == userVendor
    ensures objectVendor.None? ==> !granted
  {
    userVendor.Some? && objectVendor == userVendor
  }

  /** The outcome of a detail request (retrieve, update or destroy). */
  datatype Detail<T> = NoVendorRaised | NotFound404 | Forbidden403 | Found(row: Owned<T>)

  /** `get_object()`: the primary key is looked up in `get_queryset()`, and
      the object permission is checked on what is found. */
  function GetObject<T>(rows: seq<Owned<T>>, userVendor: Option<VendorId>, pkOf: T -> nat, pk: nat): (r: Detail<T>)
    ensures r == NoVendorRaised <==> userVendor.None?
    ensures userVendor.Some? ==>
      (r == NotFound404 <==> forall i :: 0 <= i < |rows| ==> !(rows[i].vendor == userVendor.value && pkOf(rows[i].data) == pk))
    ensures r.Found? ==> r.row in rows && pkOf(r.row.data) == pk && HasObjectPermission(userVendor, Some(r.row.vendor))
  {
    match ScopedRows(rows, userVendor)
    case Failure(_) => NoVendorRaised
    case Success(scoped) =>
      match Find(scoped, (o: Owned<T>) => pkOf(o.data) == pk)
      case None =>
        assert forall i :: 0 <= i < |rows| && rows[i].vendor == userVendor.value ==> rows[i] in scoped;
        NotFound404
      case Some(row) =>
        if HasObjectPermission(userVendor, Some(row.vendor)) then Found(row) else Forbidden403
  }

  /** Because the lookup goes through the scoped listing, the permission
      check never refuses: a detail request ends in not-found or found. */
  lemma {:induction false} GetObjectNeverForbidden<T>(rows: seq<Owned<T>>, userVendor: Option<VendorId>, pkOf: T -> nat, pk: nat)
    ensures GetObject(rows, userVendor, pkOf, pk) != Forbidden403
  {
    if userVendor.Some? {
      var scoped := ScopedRows(rows, userVendor).value;
      var found := Find(scoped, (o: Owned<T>) => pkOf(o.data) == pk);
      if found.Some? {
        var k :| 0 <= k < |scoped| && scoped[k] == found.value;
        assert scoped[k].vendor == userVendor.value;
      }
    }
  }

  /** Every row a requester is listed is one they may act on. */
  lemma ScopedRowsPermitted<T>(rows: seq<Owned<T>>, userVendor: Option<VendorId>)
    requires userVendor.Some?
    ensures forall i :: 0 <= i < |ScopedRows(rows, userVendor).value| ==>
      HasObjectPermission(userVendor, Some(ScopedRows(rows, userVendor).value[i].vendor))
  {
  }
}

=== FILE: category_api.dfy ===
/** The category app's client calls: multipart bodies for categories and
    menus, JSON bodies for attribute types, updates that carry the id in the
    path, and the category delete route. */
module CategoryApi {
  import opened Wrappers
  import opened Text
  import opened Js
  import opened ApiCommon
  import opened CategorySerializers
  import CategoryViews

  const CategoriesPath := "/category/categories/"
  const AttributeTypesPath := "/category/attribute-types/"

  /** A JSON update (`updateAttributeType`): the id goes into the path and the
      other properties, in order, into the body. */
  function JsonUpdate(collection: string, data: seq<Entry>): (r: (string, seq<Entry>))
    ensures r.0 == collection + StringOf(Lookup(data, "id")) + "/"
    ensures "id" !in Keys(r.1)
    ensures forall k :: k != "id" ==> Lookup(r.1, k) == Lookup(data, k)
  {
    (collection + StringOf(Lookup(data, "id")) + "/", Remove(data, "id"))
  }

  /** The detail path of a category, which `updateCategory` targets. */
  function CategoryDetailPath(id: Value): string {
    CategoriesPath + StringOf(id) + "/"
  }

  /** `deleteCategory` uses the `delete/` route under the category's detail
      path, unlike every other delete here, which targets the detail path
      itself. */
  function DeleteCategoryPath(id: Value): (r: string)
    ensures r == CategoryDetailPath(id) + "delete/"
  {
    CategoriesPath + StringOf(id) + "/delete/"
  }

  /** The path under the category prefix is the id's digits, then `tail`. */
  lemma RouteOfNumber(n: nat, tail: string)
    requires tail == "/" || tail == "/delete/"
    ensures var path := CategoriesPath + NatToString(n) + tail;
      var rest := path[|CategoriesPath|..];
      && path[..|CategoriesPath|] == CategoriesPath
      && rest == NatToString(n) + tail
      && CategoryViews.DigitRunLength(rest) == |NatToString(n)|
      && rest[..|NatToString(n)|] == NatToString(n)
      && rest[|NatToString(n)|..] == tail
  {
    CategoryViews.DigitRunOf(NatToString(n), tail);
  }

  /** The path `updateCategory` sends a category's id to reaches the
      category's update view, with the id as its primary key. */
  lemma DetailPathResolves(n: nat)
    ensures CategoryViews.ResolveCategoryRoute(CategoryDetailPath(Num(n))) == Some(CategoryViews.CategoryDetail(n))
  {
    RouteOfNumber(n, "/");
    DigitsValueOfNatToString(n);
  }

  /** The path `deleteCategory` sends a category's id to reaches the
      category's delete view, with the id as its primary key. */
  lemma DeletePathResolves(n: nat)
    ensures CategoryViews.ResolveCategoryRoute(DeleteCategoryPath(Num(n))) == Some(CategoryViews.CategoryDelete(n))
  {
    assert DeleteCategoryPath(Num(n)) == CategoriesPath + NatToString(n) + "/delete/";
    RouteOfNumber(n, "/delete/");
    DigitsValueOfNatToString(n);
  }

  /** The ids as numbers, as the image form holds them. */
  function Numbers(ids: seq<nat>): (r: seq<Value>)
    ensures |r| == |ids|
    ensures forall i :: 0 <= i < |ids| ==> r[i] == Num(ids[i])
  {
    seq(|ids|, i requires 0 <= i < |ids| => Num(ids[i]))
  }

  /** The kept ids go out as one text part holding the ids joined by ",". */
  lemma KeptIdsTextPart(ids: seq<nat>)
    ensures EntriesFor(Entry("kept_image_ids", Arr(Numbers(ids)))) ==
      [FormEntry("kept_image_ids", TextPart(ClientJoin(ids)))]
  {
    assert "kept_image_ids" != UploadedImages by { assert "kept_image_ids"[0] != UploadedImages[0]; }
    var items := Numbers(ids);
    if |ids| > 0 {
      var texts := seq(|items|, i requires 0 <= i < |items| => if Nullish(items[i]) then "" else StringOf(items[i]));
      assert texts == seq(|ids|, i requires 0 <= i < |ids| => NatToString(ids[i]));
    }
  }

  /** The kept image ids reach the server as one text part, the ids joined
      by ",", and `CategorySerializer.update` parses that text back to the
      same ids. */
  lemma KeptIdsReachServer(ids: seq<nat>)
    ensures EntriesFor(Entry("kept_image_ids", Arr(Numbers(ids)))) ==
      [FormEntry("kept_image_ids", TextPart(ClientJoin(ids)))]
    ensures ParseKeptIds(KeptText(ClientJoin(ids))) == Success(ids)
  {
    KeptIdsTextPart(ids);
    KeptIdsRoundTrip(ids);
  }
}

=== FILE: category_models.dfy ===
/** The `category` app's models: categories unique by name within a vendor,
    attribute types with their choice table and default, attribute values,
    and the two `clean` methods. As written, both `clean` methods look for
    any stored row with the same key, the object's own row included, so
    a saved row can never be cleaned again. The corrected `clean` methods
    exclude the object's own primary key, as the `categories` app does. */
module CategoryModels {
  import opened Wrappers
  import opened Tables
  import opened Tenancy

  /** A row of the `Category` table. */
  datatype CategoryRow = CategoryRow(pk: nat, vendor: VendorId, name: string, owner: nat)

  /** Inserting a category: refused when the vendor already has one of that name. */
  function InsertCategory(rows: seq<CategoryRow>, c: CategoryRow): (r: Result<seq<CategoryRow>, IntegrityError>)
    ensures r.Success? <==> forall i :: 0 <= i < |rows| ==> (rows[i].vendor, rows[i].name) != (c.vendor, c.name)
    ensures r.Success? ==> r.value == rows + [c]
    ensures UniqueBy(rows, (x: CategoryRow) => (x.vendor, x.name)) && r.Success? ==>
      UniqueBy(r.value, (x: CategoryRow) => (x.vendor, x.name))
  {
    InsertUnique(rows, c, (x: CategoryRow) => (x.vendor, x.name))
  }

  /** `AttributeType.ATTRIBUTE_CHOICE_TYPE`: the stored keys. */
  const AttributeChoices: seq<string> := ["dropdown", "checkbox", "input"]

  /** The default of `attribute_type`. */
  const DefaultAttributeType: string := "select attribute type"

  /** The default is none of the choices, so a type saved with the default
      holds a value its own field's choices reject. */
  lemma DefaultIsNotAChoice()
    ensures DefaultAttributeType !in AttributeChoices
    ensures |AttributeChoices| == 3
  {
    assert DefaultAttributeType[0] == 's';
    assert forall i :: 0 <= i < |AttributeChoices| ==> AttributeChoices[i][0] != 's';
  }

  /** A row of the `AttributeType` table. */
  datatype AttributeTypeRow = AttributeTypeRow(pk: nat, name: string, category: nat, attributeType: string, vendor: VendorId)

  /** A row of the `AttributeValue` table. */
  datatype AttributeValueRow = AttributeValueRow(pk: nat, attribute: nat, value: string, vendor: VendorId)

  /** `AttributeType.clean` as written: it passes (true) only when no stored
      row has the same (name, category), the object's own row included. */
  function CleanAttributeTypeAsWritten(rows: seq<AttributeTypeRow>, name: string, category: nat): (ok: bool)
    ensures ok <==> forall i :: 0 <= i < |rows| ==> !(rows[i].name == name && rows[i].category == category)
  {
    Find(rows, (t: AttributeTypeRow) => t.name == name && t.category == category).None?
  }

  /** Cleaning a saved attribute type again always fails as written. */
  lemma SavedAttributeTypeFailsCleanAsWritten(rows: seq<AttributeTypeRow>, i: nat)
    requires i < |rows|
    ensures !CleanAttributeTypeAsWritten(rows, rows[i].name, rows[i].category)
  {
  }

  /** `AttributeType.clean` corrected: rows with the object's own primary key
      are left out of the search (an unsaved object, `pk` None, leaves out
      nothing). */
  function CleanAttributeType(rows: seq<AttributeTypeRow>, pk: Option<nat>, name: string, category: nat): (ok: bool)
    ensures ok <==> forall i :: 0 <= i < |rows| && Some(rows[i].pk) != pk ==>
      !(rows[i].name == name && rows[i].category == category)
  {
    Find(rows, (t: AttributeTypeRow) => Some(t.pk) != pk && t.name == name && t.category == category).None?
  }

  /** When (name, category) is unique, the corrected check passes for every
      stored row. */
  lemma {:induction false} CleanAttributeTypeOnSavedRow(rows: seq<AttributeTypeRow>, i: nat)
    requires i < |rows|
    requires UniqueBy(rows, (t: AttributeTypeRow) => (t.name, t.category))
    ensures CleanAttributeType(rows, Some(rows[i].pk), rows[i].name, rows[i].category)
  {
    forall j | 0 <= j < |rows| && Some(rows[j].pk) != Some(rows[i].pk)
      ensures !(rows[j].name == rows[i].name && rows[j].category == rows[i].category)
    {
      assert j != i;
      if j < i {
        assert (rows[j].name, rows[j].category) != (rows[i].name, rows[i].category);
      } else {
        assert (rows[i].name, rows[i].category) != (rows[j].name, rows[j].category);
      }
    }
  }

  /** For a new object the corrected check passes exactly when inserting it
      keeps (name, category) unique. */
  lemma CleanAttributeTypeMatchesConstraint(rows: seq<AttributeTypeRow>, t: AttributeTypeRow)
    ensures CleanAttributeType(rows, None, t.name, t.category) <==>
      InsertUnique(rows, t, (x: AttributeTypeRow) => (x.name, x.category)).Success?
  {
  }

  /** `AttributeValue.clean` as written: no stored row may have the same
      (attribute, value), the object's own row included. */
  function CleanAttributeValueAsWritten(rows: seq<AttributeValueRow>, attribute: nat, value: string): (ok: bool)
    ensures ok <==> forall i :: 0 <= i < |rows| ==> !(rows[i].attribute == attribute && rows[i].value == value)
  {
    Find(rows, (v: AttributeValueRow) => v.attribute == attribute && v.value == value).None?
  }

  /** Cleaning a saved attribute value again always fails as written. */
  lemma SavedAttributeValueFailsCleanAsWritten(rows: seq<AttributeValueRow>, i: nat)
    requires i < |rows|
    ensures !CleanAttributeValueAsWritten(rows, rows[i].attribute, rows[i].value)
  {
  }

  /** `AttributeValue.clean` corrected: the object's own row is left out. */
  function CleanAttributeValue(rows: seq<AttributeValueRow>, pk: Option<nat>, attribute: nat, value: string): (ok: bool)
    ensures ok <==> forall i :: 0 <= i < |rows| && Some(rows[i].pk) != pk ==>
      !(rows[i].attribute == attribute && rows[i].value == value)
  {
    Find(rows, (v: AttributeValueRow) => Some(v.pk) != pk && v.attribute == attribute && v.value == value).None?
  }

  /** When (attribute, value) is unique, the corrected check passes for every
      stored row. */
  lemma {:induction false} CleanAttributeValueOnSavedRow(rows: seq<AttributeValueRow>, i: nat)
    requires i < |rows|
    requires UniqueBy(rows, (v: AttributeValueRow) => (v.attribute, v.value))
    ensures CleanAttributeValue(rows, Some(rows[i].pk), rows[i].attribute, rows[i].value)
  {
    forall j | 0 <= j < |rows| && Some(rows[j].pk) != Some(rows[i].pk)
      ensures !(rows[j].attribute == rows[i].attribute && rows[j].value == rows[i].value)
    {
      assert j != i;
      if j < i {
        assert (rows[j].attribute, rows[j].value) != (rows[i].attribute, rows[i].value);
      } else {
        assert (rows[i].attribute, rows[i].value) != (rows[j].attribute, rows[j].value);
      }
    }
  }

  /** For a new object the corrected check passes exactly when inserting it
      keeps (attribute, value) unique. */
  lemma CleanAttributeValueMatchesConstraint(rows: seq<AttributeValueRow>, v: AttributeValueRow)
    ensures CleanAttributeValue(rows, None, v.attribute, v.value) <==>
      InsertUnique(rows, v, (x: AttributeValueRow) => (x.attribute, x.value)).Success?
  {
  }

  /** A row of the `Menu` table: its category and its vendor. */
  datatype MenuRow = MenuRow(pk: nat, category: nat, vendor: VendorId)
}

=== FILE: category_serializers.dfy ===
/** The `category` app's `CategorySerializer`: creating a category stores
    one image row per uploaded file; updating one stores the newly uploaded
    files and deletes the category's earlier images whose ids are not in
    `kept_image_ids`. That field arrives as comma-separated text (the
    client's form builder joins an id array with ","), as a list, or as
    something else. */
module CategorySerializers {
  import opened Wrappers
  import opened Text
  import opened Tables

  /** A row of the `MultiImages` table. */
  datatype Image = Image(id: nat, category: nat, file: string)

  /** The raw `kept_image_ids` of the request: text (also what an absent
      field defaults to, ""), a list, or any other value. */
  datatype KeptRaw = KeptText(text: string) | KeptList(items: seq<string>) | KeptOther

  /** `int(piece)` raised. */
  datatype ValueError = ValueError

  /** `list(map(int, pieces))`. */
  function ParseAll(pieces: seq<string>): (r: Result<seq<int>, ValueError>)
    ensures r.Success? ==> |r.value| == |pieces|
    ensures r.Success? ==> forall i :: 0 <= i < |pieces| ==> ParseInt(pieces[i]) == Some(r.value[i])
    ensures r.Failure? <==> exists i :: 0 <= i < |pieces| && ParseInt(pieces[i]).None?
    decreases |pieces|
  {
    if |pieces| == 0 then Success([])
    else match ParseInt(pieces[0])
      case None => Failure(ValueError)
      case Some(n) =>
        var rest := ParseAll(pieces[1..]);
        if rest.Failure? then
          assert exists i :: 0 <= i < |pieces[1..]| && ParseInt(pieces[1..][i]).None?;
          var i :| 0 <= i < |pieces[1..]| && ParseInt(pieces[1..][i]).None?;
          assert ParseInt(pieces[i + 1]).None?;
          Failure(ValueError)
        else Success([n] + rest.value)
  }

  /** `filter(None, text.split(","))`: the non-empty pieces. */
  function NonEmptyPieces(text: string): (r: seq<string>)
    ensures forall i :: 0 <= i < |r| ==> r[i] != "" && ',' !in r[i]
  {
    Filter(Split(text, ','), (p: string) => p != "")
  }

  /** How `CategorySerializer.update` reads `kept_image_ids`. */
  function ParseKeptIds(raw: KeptRaw): (r: Result<seq<int>, ValueError>)
    ensures raw.KeptOther? ==> r == Success([])
    ensures raw.KeptList? ==> r == ParseAll(raw.items)
    ensures raw.KeptText? ==> r == ParseAll(NonEmptyPieces(raw.text))
  {
    match raw
    case KeptText(text) => ParseAll(NonEmptyPieces(text))
    case KeptList(items) => ParseAll(items)
    case KeptOther => Success([])
  }

  /** An absent field parses to no ids at all, and so does a field made only
      of commas. */
  lemma {:induction false} EmptyKeptText(n: nat)
    ensures ParseKeptIds(KeptText(seq(n, _ => ','))) == Success([])
    decreases n
  {
    var s: string := seq(n, _ => ',');
    if n > 0 {
      EmptyKeptText(n - 1);
      assert s[1..] == seq(n - 1, _ => ',');
      assert Split(s, ',') == [""] + Split(s[1..], ',');
    } else {
      assert Split(s, ',') == [""];
    }
  }

  /** The client's `ids.join(",")` for an array of ids. */
  function ClientJoin(ids: seq<nat>): string {
    if |ids| == 0 then "" else Join(IdPieces(ids), ',')
  }

  /** The decimal texts of the ids, one piece each. */
  function IdPieces(ids: seq<nat>): (r: seq<string>)
    ensures |r| == |ids|
    ensures forall i :: 0 <= i < |ids| ==> r[i] == NatToString(ids[i])
  {
    seq(|ids|, i requires 0 <= i < |ids| => NatToString(ids[i]))
  }

  /** No piece is empty or holds a comma, so splitting the joined text
      gives the pieces back and the empty-piece filter keeps them all. */
  lemma IdPiecesSplitBack(ids: seq<nat>)
    requires |ids| > 0
    ensures NonEmptyPieces(Join(IdPieces(ids), ',')) == IdPieces(ids)
  {
    var pieces := IdPieces(ids);
    forall i | 0 <= i < |pieces| ensures ',' !in pieces[i] && pieces[i] != "" {
      assert IsDigits(pieces[i]);
      assert |pieces[i]| >= 1;
      assert forall k :: 0 <= k < |pieces[i]| ==> IsDigit(pieces[i][k]);
    }
    SplitJoin(pieces, ',');
    FilterAll(pieces, (p: string) => p != "");
  }

  /** Each piece parses back to its id. */
  lemma IdPiecesParseBack(ids: seq<nat>)
    ensures ParseAll(IdPieces(ids)) == Success(ids)
  {
    var pieces := IdPieces(ids);
    forall i | 0 <= i < |pieces| ensures ParseInt(pieces[i]) == Some(ids[i] as int) {
      ParseIntOfNatToString(ids[i]);
    }
    var parsed := ParseAll(pieces);
    assert parsed.Success?;
    assert parsed.value == ids;
  }

  /** Ids joined by the client parse back to the same ids. */
  lemma KeptIdsRoundTrip(ids: seq<nat>)
    ensures ParseKeptIds(KeptText(ClientJoin(ids))) == Success(ids)
  {
    if |ids| == 0 {
      EmptyKeptText(0);
      assert seq(0, _ => ',') == "";
    } else {
      assert ClientJoin(ids) == Join(IdPieces(ids), ',');
      IdPiecesSplitBack(ids);
      IdPiecesParseBack(ids);
    }
  }

  /** The image rows `n` uploads give, numbered from `firstId`. */
  function NewImages(firstId: nat, category: nat, uploaded: seq<string>): (r: seq<Image>)
    ensures |r| == |uploaded|
    ensures forall i :: 0 <= i < |r| ==> r[i] == Image(firstId + i, category, uploaded[i])
  {
    seq(|uploaded|, i requires 0 <= i < |uploaded| => Image(firstId + i, category, uploaded[i]))
  }

  /** Whether an update of `category` keeping `kept` deletes `img`: an image
      of that category, among the ids present before the update, that is
      not kept. */
  predicate Removed(img: Image, category: nat, existing: set<nat>, kept: set<int>) {
    img.category == category && img.id in existing && img.id as int !in kept
  }

  /** The keyword arguments `Category(**kwargs)` accepts: the model's
      fields, the foreign keys' `_id` columns, and `pk`. */
  const CategoryFields: set<string> :=
    {"id", "pk", "vendor", "vendor_id", "name", "owner", "owner_id", "created_at", "updated_at"}

  /** Why `Category.objects.create(**kwargs)` raised. */
  datatype CreateError =
    | UnexpectedKeyword   // TypeError: "Category() got unexpected keyword arguments"
    | NotNullViolated     // IntegrityError: the `vendor` or `owner` column left empty

  /** `Category.objects.create` called with the keyword arguments `keys`: a
      keyword that is not a field raises in the constructor, before any
      insert; a row without its vendor or its owner is refused by the NOT
      NULL columns; otherwise the row is inserted. */
  function CategoryCreate(keys: set<string>): (r: Option<CreateError>)
    ensures r == Some(UnexpectedKeyword) <==> exists k :: k in keys && k !in CategoryFields
    ensures r == None <==>
      keys <= CategoryFields && ("vendor" in keys || "vendor_id" in keys) && ("owner" in keys || "owner_id" in keys)
  {
    if !(keys <= CategoryFields) then Some(UnexpectedKeyword)
    else if ("vendor" in keys || "vendor_id" in keys) && ("owner" in keys || "owner_id" in keys) then None
    else Some(NotNullViolated)
  }

  /** The keys of `CategorySerializer`'s validated data once `uploaded_images`
      is popped: the write-only `vendor_id` under its source `vendor`, `name`,
      and the declared `stages` list. */
  const SerializerCreateKeys: set<string> := {"vendor", "name", "stages"}

  /** What `Category.objects.create` is evidently meant to receive: the
      model's own fields, with the requesting user as owner. */
  const IntendedCreateKeys: set<string> := {"vendor", "name", "owner"}

  /** As written, every create through the serializer raises: `stages` is
      not a field of `Category`; and dropping it alone would still leave
      the owner unset. */
  lemma SerializerCreateRaises()
    ensures CategoryCreate(SerializerCreateKeys) == Some(UnexpectedKeyword)
    ensures CategoryCreate(SerializerCreateKeys - {"stages"}) == Some(NotNullViolated)
  {
    assert "stages" in SerializerCreateKeys && "stages" !in CategoryFields;
    assert SerializerCreateKeys - {"stages"} == {"vendor", "name"};
    assert "owner" !in SerializerCreateKeys - {"stages"} && "owner_id" !in SerializerCreateKeys - {"stages"};
  }

  /** The intended keyword arguments insert the row. */
  lemma IntendedCreateSucceeds()
    ensures CategoryCreate(IntendedCreateKeys) == None
  {
    assert IntendedCreateKeys <= CategoryFields;
  }

  /** The `MultiImages` table and the next id the database hands out. */
  class ImageStore {
    var images: seq<Image>
    var nextId: nat

    ghost predicate Valid()
      reads this
    {
      forall i :: 0 <= i < |images| ==> images[i].id < nextId
    }

    constructor ()
      ensures Valid() && images == [] && nextId == 0
    {
      images := [];
      nextId := 0;
    }

    /** `for img in uploaded_images: MultiImages.objects.create(category=..., image=img)`. */
    method AddImages(category: nat, uploaded: seq<string>)
      requires Valid()
      modifies this
      ensures Valid()
      ensures images == old(images) + NewImages(old(nextId), category, uploaded)
      ensures nextId == old(nextId) + |uploaded|
    {
      var k := 0;
      while k < |uploaded|
        invariant 0 <= k <= |uploaded|
        invariant nextId == old(nextId) + k
        invariant images == old(images) + NewImages(old(nextId), category, uploaded[..k])
        invariant Valid()
      {
        images := images + [Image(nextId, category, uploaded[k])];
        nextId := nextId + 1;
        k := k + 1;
        assert NewImages(old(nextId), category, uploaded[..k]) ==
          NewImages(old(nextId), category, uploaded[..k - 1]) + [Image(nextId - 1, category, uploaded[k - 1])];
      }
      assert uploaded[..k] == uploaded;
    }

    /** `CategorySerializer.create`: `uploaded_images` is popped, the rest
        of the validated data, whose keys are `keys`, goes to
        `Category.objects.create`, and the images are stored for the new
        row `category` only once that has returned. When the insert raises,
        no image is stored. */
    method CreateCategory(keys: set<string>, category: nat, uploaded: seq<string>) returns (r: Option<CreateError>)
      requires Valid()
      modifies this
      ensures Valid()
      ensures r == CategoryCreate(keys)
      ensures r.Some? ==> images == old(images) && nextId == old(nextId)
      ensures r.None? ==> images == old(images) + NewImages(old(nextId), category, uploaded)
    {
      r := CategoryCreate(keys);
      if r.None? {
        AddImages(category, uploaded);
      }
    }

    /** `CategorySerializer.create` as evidently intended: the category row
        gets its own fields and the requesting user as owner, and then every
        uploaded file becomes one image of it. */
    method CreateCategoryIntended(category: nat, uploaded: seq<string>) returns (r: Option<CreateError>)
      requires Valid()
      modifies this
      ensures Valid()
      ensures r.None?
      ensures images == old(images) + NewImages(old(nextId), category, uploaded)
    {
      IntendedCreateSucceeds();
      r := CreateCategory(IntendedCreateKeys, category, uploaded);
    }

    /** The image part of `CategorySerializer.update`. The ids of the
        category's images are taken before anything is added; a
        `kept_image_ids` that does not parse raises before any image is
        added or deleted; then the uploads are stored and the earlier images
        whose ids are not kept are deleted. */
    method UpdateCategoryImages(category: nat, uploaded: seq<string>, keptRaw: KeptRaw)
      returns (r: Result<(), ValueError>)
      requires Valid()
      modifies this
      ensures Valid()
      ensures r.Failure? <==> ParseKeptIds(keptRaw).Failure?
      ensures r.Failure? ==> images == old(images) && nextId == old(nextId)
      ensures r.Success? ==>
        var existing := set i | 0 <= i < |old(images)| && old(images)[i].category == category :: old(images)[i].id;
        var kept := set i | 0 <= i < |ParseKeptIds(keptRaw).value| :: ParseKeptIds(keptRaw).value[i];
        images == Filter(old(images), (img: Image) => !Removed(img, category, existing, kept))
                  + NewImages(old(nextId), category, uploaded)
    {
      var existingIds := set i | 0 <= i < |images| && images[i].category == category :: images[i].id;
      var parsed := ParseKeptIds(keptRaw);
      if parsed.Failure? {
        return Failure(parsed.error);
      }
      var keptIds := set i | 0 <= i < |parsed.value| :: parsed.value[i];
      ghost var before := images;
      ghost var firstNew := nextId;
      AddImages(category, uploaded);
      var toRemove := existingIds - (set id | id in existingIds && id as int in keptIds);
      DeleteAfterAdd(before, firstNew, category, uploaded, existingIds, keptIds, toRemove);
      images := Filter(images, NotDeleted(category, toRemove));
      return Success(());
    }
  }

  /** `MultiImages.objects.filter(category=..., id__in=to_remove).delete()`
      keeps exactly the rows this holds for. */
  function NotDeleted(category: nat, toRemove: set<nat>): Image -> bool {
    (img: Image) => !(img.category == category && img.id in toRemove)
  }

  /** Deleting after the uploads were added removes only earlier images, and
      exactly the ones `Removed` names. */
  lemma DeleteAfterAdd(before: seq<Image>, firstNew: nat, category: nat, uploaded: seq<string>,
                       existing: set<nat>, kept: set<int>, toRemove: set<nat>)
    requires forall j :: 0 <= j < |before| ==> before[j].id < firstNew
    requires forall id :: id in existing ==> id < firstNew
    requires toRemove == existing - (set id | id in existing && id as int in kept)
    ensures Filter(before + NewImages(firstNew, category, uploaded), NotDeleted(category, toRemove))
      == Filter(before, (img: Image) => !Removed(img, category, existing, kept))
         + NewImages(firstNew, category, uploaded)
  {
    var added := NewImages(firstNew, category, uploaded);
    var keep := NotDeleted(category, toRemove);
    FilterAppend(before, added, keep);
    forall i | 0 <= i < |added| ensures keep(added[i]) {
      assert added[i].id >= firstNew;
      assert added[i].id !in existing;
    }
    FilterAll(added, keep);
    FilterSame(before, keep, (img: Image) => !Removed(img, category, existing, kept));
  }

  /** What the update's result means: an earlier image of the category
      survives exactly when its id is kept, images of other categories all
      survive, and no newly uploaded image is deleted. */
  lemma {:induction false} UpdateKeepsExactly(before: seq<Image>, category: nat, kept: set<int>, added: seq<Image>, img: Image)
    requires img in before
    ensures var existing := set i | 0 <= i < |before| && before[i].category == category :: before[i].id;
      var after := Filter(before, (x: Image) => !Removed(x, category, existing, kept)) + added;
      (img.category == category ==> (img in Filter(before, (x: Image) => !Removed(x, category, existing, kept)) <==> img.id as int in kept))
      && (img.category != category ==> img in after)
      && (forall i :: 0 <= i < |added| ==> added[i] in after)
  {
    var existing := set i | 0 <= i < |before| && before[i].category == category :: before[i].id;
    var p := (x: Image) => !Removed(x, category, existing, kept);
    var f := Filter(before, p);
    var k :| 0 <= k < |before| && before[k] == img;
    if img.category == category {
      assert img.id in existing;
      if img.id as int in kept {
        assert p(before[k]);
      } else {
        assert !p(img);
        assert forall j :: 0 <= j < |f| ==> p(f[j]);
      }
    } else {
      assert p(before[k]);
    }
    var after := f + added;
    forall i | 0 <= i < |added| ensures added[i] in after {
      assert after[|f| + i] == added[i];
    }
    if img.category != category {
      assert img in f;
      var j :| 0 <= j < |f| && f[j] == img;
      assert after[j] == img;
    }
  }
}

=== FILE: category_views.dfy ===
/** The `category` app's views: the menu list filtered by the optional
    `vendor` and `category` query parameters, the hand-written
    attribute-value views (404 for an unknown primary key, 400 with the
    serializer's errors), and the view listing a category's attribute types
    and values. */
module CategoryViews {
  import opened Wrappers
  import opened Text
  import opened Tables
  import opened CategoryModels
  import opened CategorySerializers
  import opened DrfFields

  /** How a query parameter is read: absent or empty (falsy) means no
      filter; otherwise the lookup converts it with `int`, which raises. */
  function ParamFilter(param: Option<string>): (r: Result<Option<int>, ValueError>)
    ensures param.None? || param == Some("") ==> r == Success(None)
    ensures param.Some? && param.value != "" ==>
      (r.Failure? <==> ParseInt(param.value).None?) &&
      (r.Success? ==> r.value == ParseInt(param.value))
  {
    if param.None? || param.value == "" then Success(None)
    else match ParseInt(param.value)
      case None => Failure(ValueError)
      case Some(n) => Success(Some(n))
  }

  /** A menu matches the vendor and category selections it is given. */
  predicate MenuSelected(m: MenuRow, vendor: Option<int>, category: Option<int>) {
    (vendor.None? || m.vendor as int == vendor.value) && (category.None? || m.category as int == category.value)
  }

  /** The selections as a filter predicate. */
  function Selector(vendor: Option<int>, category: Option<int>): MenuRow -> bool {
    (m: MenuRow) => MenuSelected(m, vendor, category)
  }

  /** `MenuViewSet.get_queryset`: the vendor filter, then the category
      filter, each applied only when its parameter is given. The two
      filters in a row select what one filter on both selections selects,
      and with neither parameter every menu is listed. */
  method MenuQueryset(menus: seq<MenuRow>, vendorParam: Option<string>, categoryParam: Option<string>)
    returns (r: Result<seq<MenuRow>, ValueError>)
    ensures r.Failure? <==> ParamFilter(vendorParam).Failure? || ParamFilter(categoryParam).Failure?
    ensures r.Success? ==>
      r.value == Filter(menus, Selector(ParamFilter(vendorParam).value, ParamFilter(categoryParam).value))
    ensures ParamFilter(vendorParam) == Success(None) && ParamFilter(categoryParam) == Success(None) ==>
      r == Success(menus)
  {
    var queryset := menus;
    var vendorSel := ParamFilter(vendorParam);
    if vendorSel.Failure? {
      return Failure(vendorSel.error);
    }
    var vendorId := vendorSel.value.GetOr(0);
    var byVendor := (m: MenuRow) => m.vendor as int == vendorId;
    if vendorSel.value.Some? {
      queryset := Filter(queryset, byVendor);
    }
    var categorySel := ParamFilter(categoryParam);
    if categorySel.Failure? {
      return Failure(categorySel.error);
    }
    var categoryId := categorySel.value.GetOr(0);
    var byCategory := (m: MenuRow) => m.category as int == categoryId;
    if categorySel.value.Some? {
      queryset := Filter(queryset, byCategory);
    }
    var selected := Selector(vendorSel.value, categorySel.value);
    if vendorSel.value.None? && categorySel.value.None? {
      FilterAll(menus, selected);
    } else if categorySel.value.None? {
      FilterSame(menus, byVendor, selected);
    } else if vendorSel.value.None? {
      FilterSame(menus, byCategory, selected);
    } else {
      FilterTwice(menus, byVendor, byCategory, selected);
    }
    return Success(queryset);
  }

  /** The routes of the app's URL table that concern categories: the list,
      and the update and delete views of one category. */
  datatype CategoryRoute = CategoryList | CategoryDetail(pk: nat) | CategoryDelete(pk: nat)

  /** The length of the run of ASCII digits `s` starts with. */
  function DigitRunLength(s: string): (n: nat)
    ensures n <= |s|
    ensures forall i :: 0 <= i < n ==> IsDigit(s[i])
    ensures n < |s| ==> !IsDigit(s[n])
  {
    if |s| == 0 || !IsDigit(s[0]) then 0 else 1 + DigitRunLength(s[1..])
  }

  /** A run of digits followed by text that does not start with a digit. */
  lemma {:induction false} DigitRunOf(d: string, t: string)
    requires IsDigits(d)
    requires t == [] || !IsDigit(t[0])
    ensures DigitRunLength(d + t) == |d|
  {
    if |d| > 0 {
      assert (d + t)[1..] == d[1..] + t;
      DigitRunOf(d[1..], t);
    } else {
      assert d + t == t;
    }
  }

  /** Django resolving a request path, taken relative to the API root the
      client's `baseURL` names, with the app mounted at "category/", against
      `categories/`, `categories/<int:pk>/` and `categories/<int:pk>/delete/`;
      the `int` converter takes a run of ASCII digits. None is a 404 as far
      as these routes go. */
  function ResolveCategoryRoute(path: string): (r: Option<CategoryRoute>)
    ensures r.Some? ==> |path| >= |"/category/categories/"| && path[..|"/category/categories/"|] == "/category/categories/"
    ensures r == Some(CategoryList) <==> path == "/category/categories/"
  {
    var prefix := "/category/categories/";
    if |path| < |prefix| || path[..|prefix|] != prefix then None
    else
      var rest := path[|prefix|..];
      assert path == prefix + rest;
      var n := DigitRunLength(rest);
      if rest == "" then Some(CategoryList)
      else if n == 0 then None
      else
        assert IsDigits(rest[..n]);
        var pk := DigitsValue(rest[..n]);
        if rest[n..] == "/" then Some(CategoryDetail(pk))
        else if rest[n..] == "/delete/" then Some(CategoryDelete(pk))
        else None
  }

  /** `attribute_value`'s `max_length`. */
  const MaxValueLength: nat := 255

  /** The attribute field names a stored attribute type. */
  predicate AttributeExists(types: seq<AttributeTypeRow>, attribute: Option<nat>) {
    attribute.Some? && exists i :: 0 <= i < |types| && types[i].pk == attribute.value
  }

  /** The value field, a `CharField(max_length=255)`, accepts the value:
      present and, once surrounding whitespace is trimmed, neither blank
      nor too long. */
  predicate ValueWellFormed(value: Option<string>) {
    CharField(value, MaxValueLength).Success?
  }

  /** A stored row other than the instance under update has this pair. */
  predicate PairTaken(rows: seq<AttributeValueRow>, instancePk: Option<nat>, attribute: nat, value: string) {
    exists i :: 0 <= i < |rows| && Some(rows[i].pk) != instancePk && rows[i].attribute == attribute && rows[i].value == value
  }

  /** `AttributeValueSerializer(instance, data).errors`: field errors first;
      the unique-together check, which leaves the instance out, runs only
      once both fields are valid, on the trimmed value. An empty map means
      `is_valid()`. */
  function AttributeValueErrors(types: seq<AttributeTypeRow>, rows: seq<AttributeValueRow>, instancePk: Option<nat>,
                                attribute: Option<nat>, value: Option<string>): (errors: map<string, FieldError>)
    ensures errors.Keys <= {"attribute", "attribute_value", "non_field_errors"}
    ensures "attribute" in errors <==> !AttributeExists(types, attribute)
    ensures "attribute_value" in errors <==> !ValueWellFormed(value)
    ensures "non_field_errors" in errors <==>
      AttributeExists(types, attribute) && ValueWellFormed(value) && PairTaken(rows, instancePk, attribute.value, Strip(value.value))
    ensures "attribute" in errors && attribute.None? ==> errors["attribute"] == Required
    ensures "attribute_value" in errors && value.None? ==> errors["attribute_value"] == Required
  {
    TrimmedErrors(types, rows, instancePk, attribute, Trimmed(value))
  }

  /** The value field after `trim_whitespace`. */
  function Trimmed(value: Option<string>): Option<string> {
    if value.None? then None else Some(Strip(value.value))
  }

  /** The serializer's checks on the trimmed value. */
  function TrimmedErrors(types: seq<AttributeTypeRow>, rows: seq<AttributeValueRow>, instancePk: Option<nat>,
                         attribute: Option<nat>, value: Option<string>): map<string, FieldError>
  {
    var e1: map<string, FieldError> :=
      if attribute.None? then map["attribute" := Required]
      else if Find(types, (t: AttributeTypeRow) => t.pk == attribute.value).None? then map["attribute" := DoesNotExist]
      else map[];
    var e2 :=
      if value.None? then e1["attribute_value" := Required]
      else if value.value == "" then e1["attribute_value" := Blank]
      else if |value.value| > MaxValueLength then e1["attribute_value" := TooLong]
      else e1;
    if e2 != map[] || attribute.None? || value.None? then e2
    else if Find(rows, (x: AttributeValueRow) => Some(x.pk) != instancePk && x.attribute == attribute.value && x.value == value.value).Some?
    then map["non_field_errors" := NotUnique]
    else map[]
  }

  /** The responses of the attribute-value views. */
  datatype Response =
    | Ok200(row: AttributeValueRow)
    | Created201(row: AttributeValueRow)
    | BadRequest400(errors: map<string, FieldError>)
    | NotFound404
    | NoContent204
    | IntegrityError500   // the INSERT violated the `vendor` NOT NULL column

  /** `AttributeValue.objects.get(pk=pk)`. */
  function LookupValue(rows: seq<AttributeValueRow>, pk: nat): (r: Option<AttributeValueRow>)
    ensures r.None? <==> forall i :: 0 <= i < |rows| ==> rows[i].pk != pk
    ensures r.Some? ==> r.value in rows && r.value.pk == pk
  {
    Find(rows, (x: AttributeValueRow) => x.pk == pk)
  }

  /** `AttributeValueDetailView.get`. */
  function GetAttributeValue(rows: seq<AttributeValueRow>, pk: nat): (r: Response)
    ensures r == NotFound404 <==> forall i :: 0 <= i < |rows| ==> rows[i].pk != pk
    ensures r != NotFound404 ==> r.Ok200? && r.row in rows && r.row.pk == pk
  {
    match LookupValue(rows, pk)
    case None => NotFound404
    case Some(row) => Ok200(row)
  }

  /** The table after the row `pk` gets a new attribute and value; its
      primary key and vendor stay. */
  function Replaced(rows: seq<AttributeValueRow>, pk: nat, attribute: nat, value: string): (r: seq<AttributeValueRow>)
    ensures |r| == |rows|
    ensures forall i :: 0 <= i < |rows| ==>
      r[i] == if rows[i].pk == pk then rows[i].(attribute := attribute, value := value) else rows[i]
  {
    seq(|rows|, i requires 0 <= i < |rows| =>
      if rows[i].pk == pk then rows[i].(attribute := attribute, value := value) else rows[i])
  }

  /** `AttributeValueDetailView.put`: 404 for an unknown pk and 400 for
      invalid data, both leaving the table as it was; otherwise the row gets
      the new attribute and the trimmed value. */
  function PutAttributeValue(types: seq<AttributeTypeRow>, rows: seq<AttributeValueRow>, pk: nat,
                             attribute: Option<nat>, value: Option<string>): (r: (Response, seq<AttributeValueRow>))
    ensures r.0 == NotFound404 <==> forall i :: 0 <= i < |rows| ==> rows[i].pk != pk
    ensures r.0.BadRequest400? <==>
      (exists i :: 0 <= i < |rows| && rows[i].pk == pk) && AttributeValueErrors(types, rows, Some(pk), attribute, value) != map[]
    ensures !r.0.Ok200? ==> r.1 == rows
    ensures r.0.Ok200? ==>
      AttributeExists(types, attribute) && ValueWellFormed(value) && !PairTaken(rows, Some(pk), attribute.value, Strip(value.value))
      && r.1 == Replaced(rows, pk, attribute.value, Strip(value.value))
      && r.0.row.pk == pk && r.0.row.attribute == attribute.value && r.0.row.value == Strip(value.value)
    ensures r.0.Ok200? || r.0.BadRequest400? || r.0 == NotFound404
  {
    match LookupValue(rows, pk)
    case None => (NotFound404, rows)
    case Some(instance) =>
      var errors := AttributeValueErrors(types, rows, Some(pk), attribute, value);
      if errors != map[] then (BadRequest400(errors), rows)
      else (Ok200(instance.(attribute := attribute.value, value := Strip(value.value))),
            Replaced(rows, pk, attribute.value, Strip(value.value)))
  }

  /** `AttributeValueListCreateView.post`. Invalid data gets 400 with the
      errors. Valid data is saved without a vendor, which the NOT NULL
      column refuses; either way the table is unchanged. */
  function PostAttributeValue(types: seq<AttributeTypeRow>, rows: seq<AttributeValueRow>,
                              attribute: Option<nat>, value: Option<string>): (r: (Response, seq<AttributeValueRow>))
    ensures r.1 == rows
    ensures r.0.BadRequest400? <==> AttributeValueErrors(types, rows, None, attribute, value) != map[]
    ensures r.0.BadRequest400? ==> r.0.errors == AttributeValueErrors(types, rows, None, attribute, value)
    ensures !r.0.BadRequest400? ==> r.0 == IntegrityError500
  {
    var errors := AttributeValueErrors(types, rows, None, attribute, value);
    if errors != map[] then (BadRequest400(errors), rows) else (IntegrityError500, rows)
  }

  /** `AttributeValueDetailView.delete`. */
  function DeleteAttributeValue(rows: seq<AttributeValueRow>, pk: nat): (r: (Response, seq<AttributeValueRow>))
    ensures r.0 == NotFound404 <==> forall i :: 0 <= i < |rows| ==> rows[i].pk != pk
    ensures r.0 == NotFound404 ==> r.1 == rows
    ensures r.0 != NotFound404 ==> r.0 == NoContent204 && r.1 == Filter(rows, (x: AttributeValueRow) => x.pk != pk)
  {
    match LookupValue(rows, pk)
    case None => (NotFound404, rows)
    case Some(_) => (NoContent204, Filter(rows, (x: AttributeValueRow) => x.pk != pk))
  }

  /** After a delete the primary key is gone, and every other row is still there. */
  lemma DeleteThenGetNotFound(rows: seq<AttributeValueRow>, pk: nat)
    ensures GetAttributeValue(DeleteAttributeValue(rows, pk).1, pk) == NotFound404
    ensures forall i :: 0 <= i < |rows| && rows[i].pk != pk ==> rows[i] in DeleteAttributeValue(rows, pk).1
  {
    var after := DeleteAttributeValue(rows, pk).1;
    if DeleteAttributeValue(rows, pk).0 == NotFound404 {
      assert after == rows;
    } else {
      assert forall i :: 0 <= i < |after| ==> after[i].pk != pk;
    }
  }

  /** A successful update keeps the table's two uniqueness guarantees: the
      primary key and the (attribute, value) pair. */
  lemma {:induction false} PutKeepsUnique(types: seq<AttributeTypeRow>, rows: seq<AttributeValueRow>, pk: nat,
                                          attribute: Option<nat>, value: Option<string>)
    requires UniqueBy(rows, (x: AttributeValueRow) => x.pk)
    requires UniqueBy(rows, (x: AttributeValueRow) => (x.attribute, x.value))
    ensures var after := PutAttributeValue(types, rows, pk, attribute, value).1;
      UniqueBy(after, (x: AttributeValueRow) => x.pk) && UniqueBy(after, (x: AttributeValueRow) => (x.attribute, x.value))
  {
    var r := PutAttributeValue(types, rows, pk, attribute, value);
    if r.0.Ok200? {
      var a := attribute.value;
      var v := Strip(value.value);
      var after := r.1;
      forall i, j | 0 <= i < j < |after|
        ensures after[i].pk != after[j].pk
        ensures (after[i].attribute, after[i].value) != (after[j].attribute, after[j].value)
      {
        assert after[i].pk == rows[i].pk && after[j].pk == rows[j].pk;
        assert rows[i].pk != rows[j].pk;
        if rows[i].pk == pk {
          assert after[j] == rows[j];
          assert !(Some(rows[j].pk) != Some(pk) && rows[j].attribute == a && rows[j].value == v);
        } else if rows[j].pk == pk {
          assert after[i] == rows[i];
          assert !(Some(rows[i].pk) != Some(pk) && rows[i].attribute == a && rows[i].value == v);
        } else {
          assert (rows[i].attribute, rows[i].value) != (rows[j].attribute, rows[j].value);
        }
      }
    }
  }

  /** Reading a row back after a successful update gives the new attribute
      and the trimmed value. */
  lemma PutThenGet(types: seq<AttributeTypeRow>, rows: seq<AttributeValueRow>, pk: nat,
                   attribute: Option<nat>, value: Option<string>)
    requires PutAttributeValue(types, rows, pk, attribute, value).0.Ok200?
    ensures var g := GetAttributeValue(PutAttributeValue(types, rows, pk, attribute, value).1, pk);
      g.Ok200? && g.row.attribute == attribute.value && g.row.value == Strip(value.value)
  {
    var r := PutAttributeValue(types, rows, pk, attribute, value);
    var a, v := attribute.value, Strip(value.value);
    var after := r.1;
    assert after == Replaced(rows, pk, a, v);
    var k :| 0 <= k < |rows| && rows[k].pk == pk;
    assert after[k].pk == pk;
    var g := GetAttributeValue(after, pk);
    var j :| 0 <= j < |after| && after[j] == g.row;
    assert rows[j].pk == pk;
    assert after[j] == rows[j].(attribute := a, value := v);
  }

  /** Whitespace around the value changes neither the validation outcome
      nor what an update stores. */
  lemma PutIgnoresPadding(types: seq<AttributeTypeRow>, rows: seq<AttributeValueRow>, pk: nat,
                          attribute: Option<nat>, pre: string, value: string, post: string)
    requires AllSpace(pre) && AllSpace(post)
    ensures AttributeValueErrors(types, rows, Some(pk), attribute, Some(pre + value + post))
         == AttributeValueErrors(types, rows, Some(pk), attribute, Some(value))
    ensures PutAttributeValue(types, rows, pk, attribute, Some(pre + value + post))
         == PutAttributeValue(types, rows, pk, attribute, Some(value))
  {
    StripOfPadded(pre, value, post);
    assert Trimmed(Some(pre + value + post)) == Trimmed(Some(value));
  }

  /** `CategoryAttributeView.get`: None (404) for an unknown category;
      otherwise the category's attribute types and the attribute values
      whose attribute belongs to it. */
  function CategoryAttributes(categories: seq<CategoryRow>, types: seq<AttributeTypeRow>, values: seq<AttributeValueRow>,
                              categoryId: nat): (r: Option<(seq<AttributeTypeRow>, seq<AttributeValueRow>)>)
    ensures r.None? <==> forall i :: 0 <= i < |categories| ==> categories[i].pk != categoryId
    ensures r.Some? ==> r.value.0 == Filter(types, InCategory(categoryId))
    ensures r.Some? ==> r.value.1 == Filter(values, OfCategory(types, categoryId))
  {
    if Find(categories, (c: CategoryRow) => c.pk == categoryId).None? then None
    else Some((Filter(types, InCategory(categoryId)), Filter(values, OfCategory(types, categoryId))))
  }

  /** `AttributeType.objects.filter(category=category)`. */
  function InCategory(categoryId: nat): AttributeTypeRow -> bool {
    (t: AttributeTypeRow) => t.category == categoryId
  }

  /** `AttributeValue.objects.filter(attribute__category=category)`. */
  function OfCategory(types: seq<AttributeTypeRow>, categoryId: nat): AttributeValueRow -> bool {
    (v: AttributeValueRow) => TypeOfCategory(types, v.attribute, categoryId)
  }

  /** `attribute__category=category`: the value's attribute type is in the category. */
  predicate TypeOfCategory(types: seq<AttributeTypeRow>, attribute: nat, categoryId: nat) {
    exists i :: 0 <= i < |types| && types[i].pk == attribute && types[i].category == categoryId
  }

  /** The two lists fit together: every listed value's attribute is one of
      the listed types, every listed type is the category's, and a value is
      listed exactly when its attribute is one of the category's types. */
  lemma CategoryAttributesConsistent(categories: seq<CategoryRow>, types: seq<AttributeTypeRow>,
                                     values: seq<AttributeValueRow>, categoryId: nat,
                                     ts: seq<AttributeTypeRow>, vs: seq<AttributeValueRow>)
    requires CategoryAttributes(categories, types, values, categoryId) == Some((ts, vs))
    ensures forall j :: 0 <= j < |vs| ==> exists k :: 0 <= k < |ts| && ts[k].pk == vs[j].attribute
    ensures forall k :: 0 <= k < |ts| ==> ts[k].category == categoryId
    ensures forall j :: 0 <= j < |values| ==>
      (values[j] in vs <==> exists k :: 0 <= k < |ts| && ts[k].pk == values[j].attribute)
  {
    assert ts == Filter(types, InCategory(categoryId));
    assert vs == Filter(values, OfCategory(types, categoryId));
    forall k | 0 <= k < |ts| ensures ts[k].category == categoryId {
      assert InCategory(categoryId)(ts[k]);
    }
    forall j | 0 <= j < |vs| ensures exists k :: 0 <= k < |ts| && ts[k].pk == vs[j].attribute {
      assert OfCategory(types, categoryId)(vs[j]);
      CategoryTypeIsListed(types, categoryId, vs[j].attribute);
    }
    forall j | 0 <= j < |values|
      ensures values[j] in vs <==> exists k :: 0 <= k < |ts| && ts[k].pk == values[j].attribute
    {
      ValueListedIff(types, values, categoryId, ts, vs, j);
    }
  }

  /** A type of the category with this pk is among the listed types. */
  lemma CategoryTypeIsListed(types: seq<AttributeTypeRow>, categoryId: nat, attribute: nat)
    requires TypeOfCategory(types, attribute, categoryId)
    ensures exists k :: 0 <= k < |Filter(types, InCategory(categoryId))| && Filter(types, InCategory(categoryId))[k].pk == attribute
  {
    var ts := Filter(types, InCategory(categoryId));
    var i :| 0 <= i < |types| && types[i].pk == attribute && types[i].category == categoryId;
    assert InCategory(categoryId)(types[i]);
    assert types[i] in ts;
    var k :| 0 <= k < |ts| && ts[k] == types[i];
    assert ts[k].pk == attribute;
  }

  /** A value is listed exactly when one of the listed types is its attribute. */
  lemma ValueListedIff(types: seq<AttributeTypeRow>, values: seq<AttributeValueRow>, categoryId: nat,
                       ts: seq<AttributeTypeRow>, vs: seq<AttributeValueRow>, j: nat)
    requires ts == Filter(types, InCategory(categoryId))
    requires vs == Filter(values, OfCategory(types, categoryId))
    requires j < |values|
    ensures values[j] in vs <==> exists k :: 0 <= k < |ts| && ts[k].pk == values[j].attribute
  {
    if exists k :: 0 <= k < |ts| && ts[k].pk == values[j].attribute {
      var k :| 0 <= k < |ts| && ts[k].pk == values[j].attribute;
      assert InCategory(categoryId)(ts[k]);
      var i :| 0 <= i < |types| && types[i] == ts[k];
      assert types[i].pk == values[j].attribute && types[i].category == categoryId;
      assert OfCategory(types, categoryId)(values[j]);
      assert values[j] in vs;
    }
    if values[j] in vs {
      var i :| 0 <= i < |vs| && vs[i] == values[j];
      assert OfCategory(types, categoryId)(vs[i]);
      CategoryTypeIsListed(types, categoryId, values[j].attribute);
    }
  }
}

=== FILE: dashboard_page.dfy ===
/** `DashboardPage`: which dashboard the signed-in user gets. */
module DashboardPage {
  import opened Js

  datatype View = Spinner | AdminDashboard | RestaurantManagerDashboard | WaiterDashboard | DefaultDashboard

  /** `renderDashboard`, behind the spinner shown while there is no user.
      Roles and business types are compared exactly, as strings. */
  function SelectDashboard(user: Value): (r: View)
    ensures r == Spinner <==> !Truthy(user)
    ensures r == AdminDashboard <==> Truthy(user) && Get(user, "role") == Str("admin")
    ensures r == RestaurantManagerDashboard <==>
      Truthy(user) && Get(user, "business_type") == Str("restaurant") && Get(user, "role") == Str("manager")
    ensures r == WaiterDashboard <==>
      Truthy(user) && Get(user, "business_type") == Str("restaurant") && Get(user, "role") == Str("waiter")
    ensures r == DefaultDashboard <==>
      Truthy(user) && Get(user, "role") != Str("admin") &&
      (Get(user, "business_type") != Str("restaurant") ||
       (Get(user, "role") != Str("manager") && Get(user, "role") != Str("waiter")))
  {
    if !Truthy(user) then Spinner
    else
      var role := Get(user, "role");
      if role == Str("admin") then AdminDashboard
      else if Get(user, "business_type") == Str("restaurant") then
        if role == Str("manager") then RestaurantManagerDashboard
        else if role == Str("waiter") then WaiterDashboard
        else DefaultDashboard
      else DefaultDashboard
  }

  /** In a restaurant, any role text other than exactly "admin", "manager"
      or "waiter" (a capitalised "Manager", say) gets the default dashboard. */
  lemma RoleComparisonIsExact(role: string)
    requires role != "admin" && role != "manager" && role != "waiter"
    ensures SelectDashboard(Obj([Entry("role", Str(role)), Entry("business_type", Str("restaurant"))]))
            == DefaultDashboard
  {
    assert "role" != "business_type" by { assert "role"[0] != "business_type"[0]; }
  }
}

=== FILE: drf_fields.dfy ===
/** The serializer fields Django REST framework builds for a model's
    columns, as far as the modelled serializers use them: a `CharField` for
    a required text column (surrounding whitespace trimmed, blank and
    overlong text refused) and a `ChoiceField` for a column with choices
    and a default. */
module DrfFields {
  import opened Wrappers
  import opened Text

  /** The error a field records under its name. */
  datatype FieldError =
    | Required       // "This field is required."
    | Blank          // "This field may not be blank."
    | TooLong        // "Ensure this field has no more than N characters."
    | InvalidChoice  // "\"...\" is not a valid choice."
    | DoesNotExist   // "Invalid pk ... - object does not exist."
    | NotUnique      // "The fields ... must make a unique set."

  /** `CharField(max_length=maxLength)` for a column that is neither
      nullable nor blank: an absent value is required, surrounding
      whitespace is trimmed (`trim_whitespace`), and the trimmed text must
      be non-empty and at most `maxLength` characters long. The trimmed
      text is what the serializer passes on. */
  function CharField(raw: Option<string>, maxLength: nat): (r: Result<string, FieldError>)
    ensures r.Success? <==> raw.Some? && Strip(raw.value) != "" && |Strip(raw.value)| <= maxLength
    ensures r.Success? ==> r.value == Strip(raw.value)
    ensures r == Failure(Required) <==> raw.None?
    ensures r == Failure(Blank) <==> raw.Some? && Strip(raw.value) == ""
    ensures r == Failure(TooLong) <==> raw.Some? && |Strip(raw.value)| > maxLength
  {
    match raw
    case None => Failure(Required)
    case Some(s) =>
      var v := Strip(s);
      if v == "" then Failure(Blank)
      else if |v| > maxLength then Failure(TooLong)
      else Success(v)
  }

  /** Whitespace around the text changes neither the outcome nor the value. */
  lemma CharFieldIgnoresPadding(pre: string, raw: string, post: string, maxLength: nat)
    requires AllSpace(pre) && AllSpace(post)
    ensures CharField(Some(pre + raw + post), maxLength) == CharField(Some(raw), maxLength)
  {
    StripOfPadded(pre, raw, post);
  }

  /** `ChoiceField` for a column with `choices` and a model default: the
      field is optional, an absent value leaves the default to the model,
      and a given value must be one of the stored keys exactly (no
      trimming, no case folding). */
  function ChoiceField(raw: Option<string>, choices: seq<string>, default: string): (r: Result<string, FieldError>)
    ensures r.Success? <==> raw.None? || raw.value in choices
    ensures r.Success? ==> r.value == raw.GetOr(default)
    ensures r.Failure? ==> r.error == InvalidChoice
  {
    match raw
    case None => Success(default)
    case Some(s) => if s in choices then Success(s) else Failure(InvalidChoice)
  }
}

=== FILE: helpers.dfy ===
/** `getStatusChipColor`: the chip colour of an order status. */
module Helpers {
  import opened Text
  import opened Js

  datatype ChipColor = Default | Success | Warning | Info | Error

  /** The colour of a status; matching ignores case. `status` is a string
      or falsy: `toLowerCase` is called on any truthy status. */
  function StatusChipColor(status: Value): (r: ChipColor)
    requires !Truthy(status) || status.Str?
    ensures !Truthy(status) ==> r == Default
    ensures r == Success <==> status.Str? && AsciiLower(status.s) == "delivered"
    ensures r == Warning <==> status.Str? && AsciiLower(status.s) == "pending"
    ensures r == Info <==> status.Str? && AsciiLower(status.s) == "accepted"
    ensures r == Error <==> status.Str? && (AsciiLower(status.s) == "cancelled" || AsciiLower(status.s) == "rejected")
  {
    if !Truthy(status) then
      assert status.Str? ==> AsciiLower(status.s) == "";
      Default
    else
      var lower := AsciiLower(status.s);
      if lower == "delivered" then Success
      else if lower == "pending" then Warning
      else if lower == "accepted" then Info
      else if lower == "cancelled" || lower == "rejected" then Error
      else Default
  }

  /** Changing the case of a status does not change its colour. */
  lemma CaseInsensitive(s: string)
    ensures StatusChipColor(Str(AsciiLower(s))) == StatusChipColor(Str(s))
    ensures StatusChipColor(Str(AsciiUpper(s))) == StatusChipColor(Str(s))
  {
    AsciiLowerIdempotent(s);
    var u := AsciiUpper(s);
    assert AsciiLower(u) == AsciiLower(s) by {
      forall i | 0 <= i < |s| ensures AsciiLowerChar(u[i]) == AsciiLowerChar(s[i]) {
      }
    }
  }
}

=== FILE: inventory_models.dfy ===
/** The inventory app's models: stock movements and their `clean` rules,
    sales and their exact decimal arithmetic (Python `Decimal` is modelled
    as `real`), `process_sale`, which takes stock out in place, and the SKU
    that `Product.save` generates. */
module InventoryModels {
  import opened Wrappers
  import opened Text
  import opened Tables

  type WarehouseId = nat

  // The stored keys of `StockMovement.MovementType`.
  const MovementIn: string := "in"
  const MovementOut: string := "out"
  const MovementTransfer: string := "transfer"

  /** A stock movement as `clean` sees it. A warehouse foreign key is either
      unset or a saved warehouse, which is always truthy. `movementType` is
      the stored text: `clean` compares it with the three keys and lets any
      other text through. */
  datatype Movement = Movement(
    movementType: string,
    fromWarehouse: Option<WarehouseId>,
    toWarehouse: Option<WarehouseId>,
    quantity: nat)

  datatype MovementError =
    | TransferNeedsBoth       // "Transfer must include both source and destination warehouses."
    | TransferSameWarehouse   // "Source and destination warehouses cannot be the same."
    | InNeedsDestination      // "Incoming stock must specify the destination warehouse."
    | OutNeedsSource          // "Outgoing stock must specify the source warehouse."

  /** `StockMovement.clean`: None when it returns normally, the error it raises otherwise. */
  function CleanMovement(m: Movement): (r: Option<MovementError>)
    ensures m.movementType == MovementTransfer ==>
      (r == Some(TransferNeedsBoth) <==> m.fromWarehouse.None? || m.toWarehouse.None?)
    ensures m.movementType == MovementTransfer ==>
      (r == Some(TransferSameWarehouse) <==>
         m.fromWarehouse.Some? && m.toWarehouse.Some? && m.fromWarehouse == m.toWarehouse)
    ensures m.movementType == MovementIn ==> (r.Some? <==> m.toWarehouse.None?)
    ensures m.movementType == MovementIn && r.Some? ==> r.value == InNeedsDestination
    ensures m.movementType == MovementOut ==> (r.Some? <==> m.fromWarehouse.None?)
    ensures m.movementType == MovementOut && r.Some? ==> r.value == OutNeedsSource
    ensures m.movementType !in {MovementIn, MovementOut, MovementTransfer} ==> r.None?
  {
    if m.movementType == MovementTransfer then
      if m.fromWarehouse.None? || m.toWarehouse.None? then Some(TransferNeedsBoth)
      else if m.fromWarehouse == m.toWarehouse then Some(TransferSameWarehouse)
      else None
    else if m.movementType == MovementIn then
      if m.toWarehouse.None? then Some(InNeedsDestination) else None
    else if m.movementType == MovementOut then
      if m.fromWarehouse.None? then Some(OutNeedsSource) else None
    else None
  }

  /** The movements `clean` accepts, stated as one condition per kind. */
  predicate MovementAcceptable(m: Movement) {
    && (m.movementType == MovementTransfer ==>
          m.fromWarehouse.Some? && m.toWarehouse.Some? && m.fromWarehouse != m.toWarehouse)
    && (m.movementType == MovementIn ==> m.toWarehouse.Some?)
    && (m.movementType == MovementOut ==> m.fromWarehouse.Some?)
  }

  lemma CleanMovementAcceptsExactly(m: Movement)
    ensures CleanMovement(m).None? <==> MovementAcceptable(m)
  {
  }

  /** One row of the `Stock` table: `purchase_price_per_unit`,
      `quantity` (a PositiveIntegerField, so never negative) and
      `commission_percent`. */
  datatype StockRow = StockRow(purchasePrice: real, quantity: nat, commissionPercent: real)

  /** A saved sale: `quantity` and `selling_price_per_unit` are NOT NULL columns. */
  datatype Sale = Sale(quantity: nat, sellingPrice: real)

  /** The error `get_stock` raises when the product has no stock row. */
  datatype NoStock = NoStockAvailable

  /** `Sale.get_stock`: the product's first stock row (`stock_set.first()`, given
      here as its result), raising when there is none. `first()` orders by
      `Stock.Meta.ordering`, the product, and all of one product's rows tie
      on it, so which of them is first is left to the database; the model
      takes whichever row it returns as given. */
  function GetStock(first: Option<StockRow>): (r: Result<StockRow, NoStock>)
    ensures r.Success? <==> first.Some?
    ensures r.Success? ==> r.value == first.value
  {
    match first
    case None => Failure(NoStockAvailable)
    case Some(row) => Success(row)
  }

  /** `get_total_revenue`: selling price times quantity; it reads no stock row. */
  function TotalRevenue(s: Sale): real {
    s.sellingPrice * s.quantity as real
  }

  /** `get_total_cost`: the first stock row's purchase price times the sale quantity. */
  function TotalCost(s: Sale, first: Option<StockRow>): (r: Result<real, NoStock>)
    ensures r.Success? <==> first.Some?
  {
    match GetStock(first)
    case Failure(e) => Failure(e)
    case Success(stock) => Success(stock.purchasePrice * s.quantity as real)
  }

  /** `get_seller_commission_amount`: `commission_percent` percent of the
      purchase price, per unit sold. */
  function Commission(s: Sale, first: Option<StockRow>): (r: Result<real, NoStock>)
    ensures r.Success? <==> first.Some?
    ensures r.Success? ==> r.value == TotalCost(s, first).value * first.value.commissionPercent / 100.0
  {
    match GetStock(first)
    case Failure(e) => Failure(e)
    case Success(stock) =>
      var rate := stock.commissionPercent / 100.0;
      Success(stock.purchasePrice * rate * s.quantity as real)
  }

  /** The per-unit margin above the purchase price, clamped at zero. */
  function ExtraPerUnit(s: Sale, stock: StockRow): real {
    var extra := s.sellingPrice - stock.purchasePrice;
    if extra < 0.0 then 0.0 else extra
  }

  /** `get_seller_profit`: the commission plus the clamped margin on every unit. */
  function SellerProfit(s: Sale, first: Option<StockRow>): (r: Result<real, NoStock>)
    ensures r.Success? <==> first.Some?
  {
    match GetStock(first)
    case Failure(e) => Failure(e)
    case Success(stock) =>
      var commission := Commission(s, first).value;
      Success(commission + ExtraPerUnit(s, stock) * s.quantity as real)
  }

  /** `get_company_profit`: revenue less cost less the commission only. */
  function CompanyProfit(s: Sale, first: Option<StockRow>): (r: Result<real, NoStock>)
    ensures r.Success? <==> first.Some?
  {
    match TotalCost(s, first)
    case Failure(e) => Failure(e)
    case Success(cost) =>
      var commission := Commission(s, first).value;
      Success(TotalRevenue(s) - cost - commission)
  }

  /** Without a stock row every amount that needs one raises; revenue does not need one. */
  lemma NoStockRowRaises(s: Sale)
    ensures TotalCost(s, None).Failure? && Commission(s, None).Failure?
    ensures SellerProfit(s, None).Failure? && CompanyProfit(s, None).Failure?
  {
  }

  /** The seller always earns at least the commission, and exactly the
      commission when selling at or below the purchase price. */
  lemma SellerProfitAtLeastCommission(s: Sale, row: StockRow)
    ensures SellerProfit(s, Some(row)).value >= Commission(s, Some(row)).value
    ensures s.sellingPrice <= row.purchasePrice ==>
      SellerProfit(s, Some(row)).value == Commission(s, Some(row)).value
  {
    var q := s.quantity as real;
    assert ExtraPerUnit(s, row) >= 0.0;
    assert ExtraPerUnit(s, row) * q >= 0.0;
  }

  /** The commission does not depend on the selling price. */
  lemma CommissionIgnoresSellingPrice(s: Sale, price: real, row: StockRow)
    ensures Commission(s.(sellingPrice := price), Some(row)) == Commission(s, Some(row))
  {
    var t := s.(sellingPrice := price);
    var expected := row.purchasePrice * (row.commissionPercent / 100.0) * s.quantity as real;
    assert GetStock(Some(row)) == Success(row);
    assert Commission(t, Some(row)).value == expected;
    assert Commission(s, Some(row)).value == expected;
  }

  /** With a percentage between 0 and 100 and a non-negative purchase price the
      commission lies between zero and the total cost. */
  lemma CommissionWithinCost(s: Sale, row: StockRow)
    requires 0.0 <= row.commissionPercent <= 100.0 && row.purchasePrice >= 0.0
    ensures 0.0 <= Commission(s, Some(row)).value <= TotalCost(s, Some(row)).value
  {
    var cost := row.purchasePrice * s.quantity as real;
    assert cost >= 0.0;
    assert Commission(s, Some(row)).value == cost * (row.commissionPercent / 100.0);
    assert 0.0 <= row.commissionPercent / 100.0 <= 1.0;
  }

  /** The company profit is the sale's margin over cost less the commission,
      and the company and the seller together earn the margin plus the
      clamped margin. */
  lemma ProfitSplit(s: Sale, row: StockRow)
    ensures CompanyProfit(s, Some(row)).value ==
      (s.sellingPrice - row.purchasePrice) * s.quantity as real - Commission(s, Some(row)).value
    ensures CompanyProfit(s, Some(row)).value + SellerProfit(s, Some(row)).value ==
      (s.sellingPrice - row.purchasePrice + ExtraPerUnit(s, row)) * s.quantity as real
  {
    var q := s.quantity as real;
    assert TotalRevenue(s) - TotalCost(s, Some(row)).value == (s.sellingPrice - row.purchasePrice) * q;
  }

  /** What `Sale.clean` records under a field name. */
  datatype SaleFieldError =
    | QuantityNotPositive   // "Quantity must be positive and set."
    | PriceNotSet           // "Selling price must be set."
    | NoStockEntry          // "No stock entry found for this product."
    | NotEnoughStock        // "Not enough stock available."

  /** A sale before validation: quantity and price may still be unset. */
  datatype SaleInput = SaleInput(quantity: Option<int>, sellingPrice: Option<real>)

  /** How `Sale.clean` ends: normally, with a ValidationError carrying the
      collected errors by field, or by an exception raised on the way. */
  datatype SaleCheck =
    | SaleValid
    | SaleInvalid(errors: map<string, SaleFieldError>)
    | SaleRaisedNoStock     // `get_stock` raised its own ValidationError
    | SaleRaisedTypeError   // `stock.quantity < None`

  /** `Sale.clean`. */
  function CleanSale(s: SaleInput, first: Option<StockRow>): (r: SaleCheck)
    ensures r == SaleRaisedNoStock <==> first.None?
    ensures r == SaleRaisedTypeError <==> first.Some? && s.quantity.None?
    ensures r.SaleInvalid? ==> "product" !in r.errors && r.errors != map[]
    ensures r == SaleValid <==>
      && s.quantity.Some? && s.quantity.value > 0 && s.sellingPrice.Some?
      && first.Some? && first.value.quantity >= s.quantity.value
    ensures r.SaleInvalid? ==>
      ("selling_price_per_unit" in r.errors <==> s.sellingPrice.None?)
  {
    var e0: map<string, SaleFieldError> :=
      if s.quantity.None? || s.quantity.value <= 0 then map["quantity" := QuantityNotPositive] else map[];
    var e1 := if s.sellingPrice.None? then e0["selling_price_per_unit" := PriceNotSet] else e0;
    match GetStock(first)
    case Failure(_) => SaleRaisedNoStock
    case Success(stock) =>
      if s.quantity.None? then SaleRaisedTypeError
      else
        var e2 := if stock.quantity < s.quantity.value then e1["quantity" := NotEnoughStock] else e1;
        assert "quantity" in e0 ==> "quantity" in e2;
        assert "selling_price_per_unit" in e1 ==> "selling_price_per_unit" in e2;
        if e2 != map[] then SaleInvalid(e2) else SaleValid
  }

  /** A row of the `Stock` table whose quantity `process_sale` decrements in place. */
  class Stock {
    var purchasePrice: real
    var quantity: nat
    var commissionPercent: real

    constructor (purchasePrice: real, quantity: nat, commissionPercent: real)
      ensures this.purchasePrice == purchasePrice && this.quantity == quantity
      ensures this.commissionPercent == commissionPercent
    {
      this.purchasePrice := purchasePrice;
      this.quantity := quantity;
      this.commissionPercent := commissionPercent;
    }

    function Row(): (r: StockRow)
      reads this
      ensures r.quantity == quantity
    {
      StockRow(purchasePrice, quantity, commissionPercent)
    }
  }

  /** A stored sale: its primary key and its columns. */
  datatype SaleRow = SaleRow(pk: nat, sale: Sale)

  function SalePk(row: SaleRow): nat {
    row.pk
  }

  /** Some stored row has primary key `pk`. */
  predicate StoredIn(rows: seq<SaleRow>, pk: nat) {
    exists i :: 0 <= i < |rows| && rows[i].pk == pk
  }

  /** The key the database assigns to a new row: above every stored key. */
  function NextPk(rows: seq<SaleRow>): (r: nat)
    ensures forall i :: 0 <= i < |rows| ==> rows[i].pk < r
  {
    if rows == [] then 1
    else
      var rest := NextPk(rows[..|rows| - 1]);
      var last := rows[|rows| - 1].pk;
      if last < rest then rest else last + 1
  }

  /** The UPDATE of `Sale.save` on a stored sale: the row keyed `pk` takes
      the new columns, every other row stays as it was and where it was. */
  function Overwritten(rows: seq<SaleRow>, pk: nat, sale: Sale): (r: seq<SaleRow>)
  {
    seq(|rows|, i requires 0 <= i < |rows| => if rows[i].pk == pk then SaleRow(pk, sale) else rows[i])
  }

  /** `Sale.objects.get(pk=pk)`: the stored sale with that key. */
  function SaleByPk(rows: seq<SaleRow>, pk: nat): (r: Option<Sale>)
    ensures r.Some? <==> StoredIn(rows, pk)
    ensures r.Some? ==> exists i :: 0 <= i < |rows| && rows[i] == SaleRow(pk, r.value)
  {
    if rows == [] then None
    else if rows[0].pk == pk then Some(rows[0].sale)
    else SaleByPk(rows[1..], pk)
  }

  /** Saving a stored sale again with the columns it already holds leaves
      the table as it was: with one row per key, that row is the only one
      the UPDATE touches. */
  lemma {:induction false} ResaveChangesNothing(rows: seq<SaleRow>, pk: nat)
    requires UniqueBy(rows, SalePk) && StoredIn(rows, pk)
    ensures Overwritten(rows, pk, SaleByPk(rows, pk).value) == rows
  {
    var sale := SaleByPk(rows, pk).value;
    var j :| 0 <= j < |rows| && rows[j] == SaleRow(pk, sale);
    forall i | 0 <= i < |rows|
      ensures Overwritten(rows, pk, sale)[i] == rows[i]
    {
      if rows[i].pk == pk {
        assert SalePk(rows[i]) == SalePk(rows[j]);
      }
    }
  }

  /** The `Sale` table, one row per primary key. */
  class SaleTable {
    var rows: seq<SaleRow>

    predicate Valid()
      reads this
    {
      UniqueBy(rows, SalePk)
    }

    constructor ()
      ensures rows == [] && Valid()
    {
      rows := [];
    }

    /** `Sale.save`. A sale without a key (`pk` None) is INSERTed under a
        fresh key. A sale with a key is an UPDATE of the row holding that
        key, in place; Django INSERTs it under that key when no row holds
        it. `id` is the sale's key afterwards. */
    method Save(pk: Option<nat>, sale: Sale) returns (id: nat)
      requires Valid()
      modifies this
      ensures Valid()
      ensures pk.Some? ==> id == pk.value
      ensures pk.None? ==> !StoredIn(old(rows), id)
      ensures StoredIn(old(rows), id) ==> rows == Overwritten(old(rows), id, sale)
      ensures !StoredIn(old(rows), id) ==> rows == old(rows) + [SaleRow(id, sale)]
    {
      id := if pk.Some? then pk.value else NextPk(rows);
      if StoredIn(rows, id) {
        rows := Overwritten(rows, id, sale);
      } else {
        rows := rows + [SaleRow(id, sale)];
      }
    }
  }

  /** Why `process_sale` refused. */
  datatype ProcessError = NoStockRow | NotEnoughStockToSell

  /** `Sale.process_sale` inside its transaction, on a sale whose key is
      `pk` (None for a sale not saved yet): `stock` is the product's first
      stock row (null when there is none). It refuses, changing nothing,
      when the row holds fewer units than the sale; otherwise it takes
      exactly the sale's units out of that row and then saves the sale. The
      units are taken out whether or not the sale was stored before, so a
      stored sale processed again takes them out again, while its row is
      only rewritten. On success `r` is the sale's key. */
  method ProcessSale(pk: Option<nat>, sale: Sale, stock: Stock?, sales: SaleTable) returns (r: Result<nat, ProcessError>)
    requires sales.Valid()
    modifies stock, sales
    ensures sales.Valid()
    ensures stock == null ==> r == Failure(NoStockRow)
    ensures stock != null && old(stock.quantity) < sale.quantity ==>
      r == Failure(NotEnoughStockToSell) && stock.quantity == old(stock.quantity)
    ensures stock != null && old(stock.quantity) >= sale.quantity ==>
      r.Success? && stock.quantity == old(stock.quantity) - sale.quantity
    ensures stock != null ==>
      stock.purchasePrice == old(stock.purchasePrice) && stock.commissionPercent == old(stock.commissionPercent)
    ensures r.Success? && pk.Some? ==> r.value == pk.value
    ensures r.Success? && pk.None? ==> !StoredIn(old(sales.rows), r.value)
    ensures r.Success? && StoredIn(old(sales.rows), r.value) ==> sales.rows == Overwritten(old(sales.rows), r.value, sale)
    ensures r.Success? && !StoredIn(old(sales.rows), r.value) ==> sales.rows == old(sales.rows) + [SaleRow(r.value, sale)]
    ensures r.Failure? ==> sales.rows == old(sales.rows)
  {
    if stock == null {
      return Failure(NoStockRow);
    }
    if stock.quantity < sale.quantity {
      return Failure(NotEnoughStockToSell);
    }
    stock.quantity := stock.quantity - sale.quantity;
    var id := sales.Save(pk, sale);
    r := Success(id);
  }

  /** `name[:3]`: at most the first three characters. */
  function Prefix3(name: string): (r: string)
    ensures |r| <= 3 && |r| <= |name| && r == name[..|r|]
    ensures |name| >= 3 ==> |r| == 3
    ensures |name| < 3 ==> r == name
  {
    if |name| <= 3 then name else name[..3]
  }

  /** The SKU `Product.save` generates for an empty one: the category name's
      first three characters upper-cased, "-GEN-", and a four-digit number. */
  function GeneratedSku(categoryName: string, suffix: nat): string
    requires 1000 <= suffix <= 9999
  {
    AsciiUpper(Prefix3(categoryName)) + "-GEN-" + NatToString(suffix)
  }

  /** The generated SKU ends in the number's four digits after "-GEN-",
      begins with the upper-cased prefix, and the number can be read back. */
  lemma GeneratedSkuShape(categoryName: string, suffix: nat)
    requires 1000 <= suffix <= 9999
    ensures var sku := GeneratedSku(categoryName, suffix);
      var p := |Prefix3(categoryName)|;
      && |sku| == p + 9
      && sku[..p] == AsciiUpper(Prefix3(categoryName))
      && sku[p..p + 5] == "-GEN-"
      && IsDigits(sku[p + 5..])
      && DigitsValue(sku[p + 5..]) == suffix
  {
    FourDigits(suffix);
    DigitsValueOfNatToString(suffix);
    var sku := GeneratedSku(categoryName, suffix);
    var p := |Prefix3(categoryName)|;
    assert sku[p + 5..] == NatToString(suffix);
  }

  /** A product whose `sku` `save` fills in. */
  class Product {
    var sku: string
    var tool: string
    var categoryName: string

    constructor (sku: string, tool: string, categoryName: string)
      ensures this.sku == sku && this.tool == tool && this.categoryName == categoryName
    {
      this.sku := sku;
      this.tool := tool;
      this.categoryName := categoryName;
    }

    /** `Product.save`: a non-empty SKU is kept; an empty one is generated.
        `suffix` is the value `random.randint(1000, 9999)` returned. The
        row is then written, and the unique `sku` column refuses it when
        another stored product (`storedSkus`) has that SKU; a generated SKU
        is not checked against the table first. */
    method Save(suffix: nat, storedSkus: set<string>) returns (r: Option<IntegrityError>)
      requires 1000 <= suffix <= 9999
      modifies this`sku
      ensures old(sku) != "" ==> sku == old(sku)
      ensures old(sku) == "" ==> sku == GeneratedSku(categoryName, suffix)
      ensures sku != ""
      ensures r.Some? <==> sku in storedSkus
    {
      if sku == "" {
        sku := GeneratedSku(categoryName, suffix);
      }
      r := if sku in storedSkus then Some(IntegrityError) else None;
    }
  }
}

=== FILE: inventory_serializers.dfy ===
/** The inventory app's serializers: the product tool check and tool
    defaulting, the stock-movement and sale validators, which collect their
    errors in a dictionary keyed by field, the commission read-out and the
    sale creation that runs `process_sale`. */
module InventorySerializers {
  import opened Wrappers
  import opened Text
  import opened InventoryModels

  /** A category's primary key: `TimeStampedModel.id` is a UUID, held here
      as its 128-bit number. */
  type CategoryId = nat

  /** How Django turns text into a category id and back. `read` is the
      lookup's conversion (`UUIDField.to_python`, which raises
      ValidationError, None here, on text that is no UUID) and `write` is
      `str()` of a UUID. */
  datatype IdText = IdText(read: string -> Option<CategoryId>, write: CategoryId -> string)

  /** The text `str()` writes is never empty and reads back as the same id. */
  ghost predicate ReadsBack(ids: IdText) {
    forall u: CategoryId :: ids.write(u) != "" && ids.read(ids.write(u)) == Some(u)
  }

  /** Why `validate_tool` refused the tool. */
  datatype ToolError =
    | CategoryNotFound      // "Category not found."
    | ToolNotInCategory     // "Tool '...' is not in {cat_obj.tools}."
    | MalformedCategoryId   // the lookup's ValidationError: the text is not a UUID
    | ToolBlank             // "This field may not be blank."
    | ToolTooLong           // "Ensure this field has no more than 100 characters."

  /** `ProductSerializer.validate_tool`: `categoryParam` is the raw `category`
      of the request body, `readId` the lookup's conversion of it, and
      `categories` maps each stored category id to its `tools` list. An
      absent or empty category accepts any tool. */
  function ValidateTool(categoryParam: Option<string>, categories: map<CategoryId, seq<string>>,
                        readId: string -> Option<CategoryId>, value: string)
    : (r: Result<string, ToolError>)
    ensures categoryParam.None? || categoryParam == Some("") ==> r == Success(value)
    ensures r.Success? ==> r.value == value
    ensures categoryParam.Some? && categoryParam.value != "" && readId(categoryParam.value).None? ==>
      r == Failure(MalformedCategoryId)
    ensures r == Failure(CategoryNotFound) <==>
      categoryParam.Some? && categoryParam.value != "" && readId(categoryParam.value).Some? &&
      readId(categoryParam.value).value !in categories
    ensures r.Success? && categoryParam.Some? && categoryParam.value != "" ==>
      readId(categoryParam.value).Some? && readId(categoryParam.value).value in categories &&
      value in categories[readId(categoryParam.value).value]
  {
    if categoryParam.None? || categoryParam.value == "" then Success(value)
    else match readId(categoryParam.value)
      case None => Failure(MalformedCategoryId)
      case Some(id) =>
        if id !in categories then Failure(CategoryNotFound)
        else if value !in categories[id] then Failure(ToolNotInCategory)
        else Success(value)
  }

  /** `tool`'s `max_length`. */
  const MaxToolLength: nat := 100

  /** The `tool` field of `ProductSerializer`, a `CharField(max_length=100)`:
      surrounding whitespace is trimmed, a blank or overlong value is refused,
      and the trimmed value goes through `validate_tool`. */
  function ToolField(categoryParam: Option<string>, categories: map<CategoryId, seq<string>>,
                     readId: string -> Option<CategoryId>, raw: string)
    : (r: Result<string, ToolError>)
    ensures r.Success? <==>
      Strip(raw) != "" && |Strip(raw)| <= MaxToolLength && ValidateTool(categoryParam, categories, readId, Strip(raw)).Success?
    ensures r.Success? ==> r.value == Strip(raw)
    ensures Strip(raw) == "" ==> r == Failure(ToolBlank)
    ensures Strip(raw) != "" && |Strip(raw)| > MaxToolLength ==> r == Failure(ToolTooLong)
  {
    var v := Strip(raw);
    if v == "" then Failure(ToolBlank)
    else if |v| > MaxToolLength then Failure(ToolTooLong)
    else ValidateTool(categoryParam, categories, readId, v)
  }

  /** Whitespace around the tool does not change the field's outcome. */
  lemma ToolFieldIgnoresPadding(categoryParam: Option<string>, categories: map<CategoryId, seq<string>>,
                                readId: string -> Option<CategoryId>, pre: string, raw: string, post: string)
    requires AllSpace(pre) && AllSpace(post)
    ensures ToolField(categoryParam, categories, readId, pre + raw + post) == ToolField(categoryParam, categories, readId, raw)
  {
    StripOfPadded(pre, raw, post);
  }

  /** The tool `ProductSerializer.create` stores: the given tool when the
      category lists it, else the category's first tool, else the tool as
      given. `tools` is `getattr(category, "tools", [])`. */
  function DefaultTool(tools: seq<string>, tool: Option<string>): (r: Option<string>)
    ensures tool.Some? && tool.value in tools ==> r == tool
    ensures |tools| > 0 ==> r.Some? && r.value in tools
    ensures |tools| > 0 && (tool.None? || tool.value !in tools) ==> r == Some(tools[0])
    ensures |tools| == 0 ==> r == tool
  {
    if tool.Some? && tool.value in tools then tool
    else if |tools| > 0 then Some(tools[0])
    else tool
  }

  /** Defaulting twice gives the same tool as defaulting once. */
  lemma DefaultToolIdempotent(tools: seq<string>, tool: Option<string>)
    ensures DefaultTool(tools, DefaultTool(tools, tool)) == DefaultTool(tools, tool)
  {
  }

  // The error texts of `StockMovementSerializer.validate`.
  const TransferBothMessage: string := "Transfer requires both from_warehouse and to_warehouse"
  const TransferDifferMessage: string := "Source and destination must differ"
  const IncomingMessage: string := "Incoming must have to_warehouse"
  const OutgoingMessage: string := "Outgoing must have from_warehouse"

  /** `StockMovementSerializer.validate`: builds the errors dictionary rule by
      rule and raises it when it is not empty; otherwise hands the data back
      unchanged. It enforces the same rules as `StockMovement.clean`, under
      the field each rule is about. */
  method ValidateMovement(data: Movement) returns (r: Result<Movement, map<string, string>>)
    ensures r.Success? <==> CleanMovement(data).None?
    ensures r.Success? ==> r.value == data
    ensures r.Failure? ==> |r.error| == 1
    ensures CleanMovement(data) == Some(TransferNeedsBoth) ==>
      r == Failure(map["non_field_errors" := TransferBothMessage])
    ensures CleanMovement(data) == Some(TransferSameWarehouse) ==>
      r == Failure(map["non_field_errors" := TransferDifferMessage])
    ensures CleanMovement(data) == Some(InNeedsDestination) ==>
      r == Failure(map["to_warehouse" := IncomingMessage])
    ensures CleanMovement(data) == Some(OutNeedsSource) ==>
      r == Failure(map["from_warehouse" := OutgoingMessage])
  {
    var mt := data.movementType;
    var fw, tw := data.fromWarehouse, data.toWarehouse;
    ghost var clean := CleanMovement(data);
    var errors: map<string, string> := map[];
    if mt == MovementTransfer {
      if fw.None? || tw.None? {
        errors := errors["non_field_errors" := TransferBothMessage];
        assert clean == Some(TransferNeedsBoth);
      } else if fw == tw {
        errors := errors["non_field_errors" := TransferDifferMessage];
        assert clean == Some(TransferSameWarehouse);
      } else {
        assert clean.None?;
      }
    } else if mt == MovementIn && tw.None? {
      errors := errors["to_warehouse" := IncomingMessage];
      assert clean == Some(InNeedsDestination);
    } else if mt == MovementOut && fw.None? {
      errors := errors["from_warehouse" := OutgoingMessage];
      assert clean == Some(OutNeedsSource);
    } else {
      assert clean.None?;
    }
    if errors != map[] {
      return Failure(errors);
    }
    return Success(data);
  }

  /** The product named by a sale request, as far as validation looks at it:
      the result of its `stock_set.first()`. */
  datatype ProductStock = ProductStock(firstStock: Option<StockRow>)

  /** The validated fields of a sale request. */
  datatype SaleData = SaleData(quantity: Option<int>, sellingPrice: Option<real>, product: Option<ProductStock>)

  // The error texts of `SaleSerializer.validate`.
  const QuantityMessage: string := "Quantity must be positive"
  const PriceMessage: string := "This field is required"
  const NoStockMessage: string := "No stock entry found for this product"
  const NotEnoughMessage: string := "Not enough stock"

  /** How `SaleSerializer.validate` ends. */
  datatype SaleValidation =
    | SaleAccepted(data: SaleData)
    | SaleRejected(errors: map<string, string>)
    | SaleTypeError   // `stock.quantity < None` raises before the errors are raised

  /** The sales the serializer lets through: a positive quantity, a price,
      and, when a product is named, a stock row holding enough units. */
  predicate SaleAcceptable(data: SaleData) {
    && data.quantity.Some? && data.quantity.value > 0 && data.sellingPrice.Some?
    && (data.product.Some? ==>
          data.product.value.firstStock.Some? &&
          data.product.value.firstStock.value.quantity >= data.quantity.value)
  }

  /** `SaleSerializer.validate`: every failing rule adds its error to one
      dictionary, which is raised once at the end. */
  method ValidateSale(data: SaleData) returns (r: SaleValidation)
    ensures r == SaleTypeError <==>
      data.quantity.None? && data.product.Some? && data.product.value.firstStock.Some?
    ensures r.SaleRejected? ==> r.errors != map[]
    ensures r.SaleRejected? ==>
      && ("selling_price_per_unit" in r.errors <==> data.sellingPrice.None?)
      && ("product" in r.errors <==> data.product.Some? && data.product.value.firstStock.None?)
      && ("quantity" in r.errors <==>
            data.quantity.None? || data.quantity.value <= 0 ||
            (data.product.Some? && data.product.value.firstStock.Some? &&
             data.product.value.firstStock.value.quantity < data.quantity.value))
      && r.errors.Keys <= {"quantity", "selling_price_per_unit", "product"}
    ensures r.SaleAccepted? <==> SaleAcceptable(data)
    ensures r.SaleAccepted? ==> r.data == data
  {
    var qty, spu := data.quantity, data.sellingPrice;
    var errors: map<string, string> := map[];
    if qty.None? || qty.value <= 0 {
      errors := errors["quantity" := QuantityMessage];
    }
    if spu.None? {
      errors := errors["selling_price_per_unit" := PriceMessage];
    }
    var product := data.product;
    if product.Some? {
      var stock := product.value.firstStock;
      if stock.None? {
        errors := errors["product" := NoStockMessage];
      } else if qty.None? {
        return SaleTypeError;
      } else if stock.value.quantity < qty.value {
        errors := errors["quantity" := NotEnoughMessage];
      }
    }
    if errors != map[] {
      return SaleRejected(errors);
    }
    assert "quantity" !in errors && "selling_price_per_unit" !in errors && "product" !in errors;
    return SaleAccepted(data);
  }

  /** For a product that has a stock row, the serializer accepts a sale
      exactly when the model's `clean` does; when it has none, the
      serializer reports it under "product" while `clean` raises from
      `get_stock` first. */
  lemma ValidatorsAgree(data: SaleData)
    requires data.product.Some?
    ensures SaleAcceptable(data) <==>
      CleanSale(SaleInput(data.quantity, data.sellingPrice), data.product.value.firstStock) == SaleValid
    ensures data.product.value.firstStock.None? ==>
      CleanSale(SaleInput(data.quantity, data.sellingPrice), None) == SaleRaisedNoStock
  {
  }

  /** `SaleSerializer.get_commission_percent`: the first stock row's
      percentage, or None instead of the error when there is no stock row. */
  function CommissionPercent(first: Option<StockRow>): (r: Option<real>)
    ensures r.Some? <==> first.Some?
    ensures r.Some? ==> r.value == first.value.commissionPercent
  {
    match GetStock(first)
    case Success(stock) => Some(stock.commissionPercent)
    case Failure(_) => None
  }

  /** The read-out is None exactly when the amounts that need a stock row raise. */
  lemma CommissionPercentNoneWhenAmountsRaise(s: Sale, first: Option<StockRow>)
    ensures CommissionPercent(first).None? <==> Commission(s, first).Failure?
    ensures CommissionPercent(first).None? <==> CompanyProfit(s, first).Failure?
  {
  }

  /** `SaleSerializer.create`: builds an unsaved sale and always runs
      `process_sale` on it, so a created sale has taken its quantity out of
      the stock row and is stored under a fresh key as the sale table's
      last row. */
  method CreateSale(sale: Sale, stock: Stock?, sales: SaleTable) returns (r: Result<SaleRow, ProcessError>)
    requires sales.Valid()
    modifies stock, sales
    ensures sales.Valid()
    ensures r.Success? ==> r.value.sale == sale && !StoredIn(old(sales.rows), r.value.pk)
    ensures r.Success? <==> stock != null && old(stock.quantity) >= sale.quantity
    ensures r.Success? ==> stock.quantity == old(stock.quantity) - sale.quantity
    ensures r.Success? ==> sales.rows == old(sales.rows) + [r.value]
    ensures r.Failure? && stock != null ==> stock.quantity == old(stock.quantity)
    ensures r.Failure? ==> sales.rows == old(sales.rows)
  {
    var processed := ProcessSale(None, sale, stock, sales);
    match processed
    case Success(id) => r := Success(SaleRow(id, sale));
    case Failure(e) => r := Failure(e);
  }
}

=== FILE: inventory_views.dfy ===
/** The inventory app's views: the function view that creates a product
    under a category, forcing the category and choosing a listed tool, and
    the product viewset's `tools` action, and the sale viewset's
    `process_sale` action. Every viewset's `perform_create` is
    `Tenancy.StampVendor`. */
module InventoryViews {
  import opened Wrappers
  import opened Text
  import opened InventorySerializers
  import Tenancy
  import InventoryModels

  /** The responses of `create_product_for_category`. */
  datatype ProductResponse =
    | CategoryNotFound404                   // {"detail": "Category not found."}
    | NoTools400                            // {"detail": "Category has no tools defined."}
    | Invalid400                            // `is_valid(raise_exception=True)` raised
    | IntegrityError500                     // the INSERT left the NOT NULL `vendor` column empty
    | NoVendor500                           // `request.user.vendor` raised: the requester owns no vendor
    | Created201(row: Tenancy.Owned<map<string, string>>) // the saved product and its vendor

  /** The copy of the body that `create_product_for_category` validates: the
      path's category id as `str()` writes it, and the client's tool when the category lists it,
      else the category's first tool; every other field as sent. */
  function ProductData(tools: seq<string>, ids: IdText, categoryId: CategoryId, body: map<string, string>)
    : (data: map<string, string>)
    requires tools != []
    ensures data.Keys == body.Keys + {"category", "tool"}
    ensures data["category"] == ids.write(categoryId)
    ensures data["tool"] in tools
    ensures "tool" in body && body["tool"] in tools ==> data["tool"] == body["tool"]
    ensures "tool" !in body || body["tool"] !in tools ==> data["tool"] == tools[0]
    ensures forall k :: k in body && k != "category" && k != "tool" ==> data[k] == body[k]
  {
    var data := body["category" := ids.write(categoryId)];
    if "tool" in data && data["tool"] in tools then data else data["tool" := tools[0]]
  }

  /** A listed tool the `tool` field accepts once trimmed. */
  predicate ToolAccepted(tools: seq<string>, tool: string) {
    Strip(tool) != "" && |Strip(tool)| <= MaxToolLength && Strip(tool) in tools
  }

  /** Tools a category can list that pass the field as they are: not
      blank, not too long, and without surrounding whitespace. */
  predicate CleanTools(tools: seq<string>) {
    forall i :: 0 <= i < |tools| ==> tools[i] != "" && |tools[i]| <= MaxToolLength && Strip(tools[i]) == tools[i]
  }

  /** With the category id written by the view, the serializer's `tool`
      field passes exactly when the trimmed tool is one the category lists. */
  lemma ToolCheckOnPathCategory(categories: map<CategoryId, seq<string>>, ids: IdText, categoryId: CategoryId, tool: string)
    requires ReadsBack(ids)
    requires categoryId in categories
    ensures ToolField(Some(ids.write(categoryId)), categories, ids.read, tool).Success? <==>
      ToolAccepted(categories[categoryId], tool)
  {
    assert ids.write(categoryId) != "" && ids.read(ids.write(categoryId)) == Some(categoryId);
  }

  /** `ProductSerializer(data=data)` is valid: the `tool` field passes and the
      other fields are as `otherFieldsValid` says. */
  predicate ProductValid(categories: map<CategoryId, seq<string>>, ids: IdText, categoryId: CategoryId,
                         body: map<string, string>, otherFieldsValid: bool)
    requires categoryId in categories && categories[categoryId] != []
  {
    var data := ProductData(categories[categoryId], ids, categoryId, body);
    ToolField(Some(data["category"]), categories, ids.read, data["tool"]).Success? && otherFieldsValid
  }

  /** `create_product_for_category(request, category_id)` as written.
      `categories` maps each stored category id to its `tools`; `ids` is how
      Django writes and reads category ids; `body` is `request.data`; `otherFieldsValid` is what `ProductSerializer` decides
      about the fields other than `category` and `tool`. Valid data reaches
      `serializer.save()` without a vendor, and the NOT NULL `vendor` column
      refuses the row: no product is ever created. */
  function CreateProductForCategory(categories: map<CategoryId, seq<string>>, ids: IdText, categoryId: CategoryId,
                                    body: map<string, string>, otherFieldsValid: bool): (r: ProductResponse)
    requires ReadsBack(ids)
    ensures categoryId !in categories <==> r == CategoryNotFound404
    ensures categoryId in categories && categories[categoryId] == [] <==> r == NoTools400
    ensures r == Invalid400 <==>
      categoryId in categories && categories[categoryId] != [] &&
      (!otherFieldsValid || !ToolAccepted(categories[categoryId], ProductData(categories[categoryId], ids, categoryId, body)["tool"]))
    ensures categoryId in categories && categories[categoryId] != [] && CleanTools(categories[categoryId]) ==>
      (r == Invalid400 <==> !otherFieldsValid)
    ensures r != CategoryNotFound404 && r != NoTools400 && r != Invalid400 ==> r == IntegrityError500
  {
    if categoryId !in categories then CategoryNotFound404
    else if categories[categoryId] == [] then NoTools400
    else
      var data := ProductData(categories[categoryId], ids, categoryId, body);
      ToolCheckOnPathCategory(categories, ids, categoryId, data["tool"]);
      if !ProductValid(categories, ids, categoryId, body, otherFieldsValid) then Invalid400
      else IntegrityError500
  }

  /** `create_product_for_category` saving with `vendor=request.user.vendor`,
      as `ProductViewSet.perform_create` does: valid data from a requester
      with a vendor is created under that vendor, with the trimmed tool that
      `ProductSerializer.create` keeps because the category lists it. */
  function CreateProductForCategoryStamped(categories: map<CategoryId, seq<string>>, ids: IdText, categoryId: CategoryId,
                                           body: map<string, string>, otherFieldsValid: bool,
                                           userVendor: Option<Tenancy.VendorId>): (r: ProductResponse)
    requires ReadsBack(ids)
    ensures categoryId !in categories <==> r == CategoryNotFound404
    ensures categoryId in categories && categories[categoryId] == [] <==> r == NoTools400
    ensures r == Invalid400 <==>
      categoryId in categories && categories[categoryId] != [] &&
      (!otherFieldsValid || !ToolAccepted(categories[categoryId], ProductData(categories[categoryId], ids, categoryId, body)["tool"]))
    ensures r == NoVendor500 <==>
      categoryId in categories && categories[categoryId] != [] &&
      ProductValid(categories, ids, categoryId, body, otherFieldsValid) && userVendor.None?
    ensures r.Created201? <==>
      categoryId in categories && categories[categoryId] != [] &&
      ProductValid(categories, ids, categoryId, body, otherFieldsValid) && userVendor.Some?
    ensures r.Created201? ==>
      var data := ProductData(categories[categoryId], ids, categoryId, body);
      && r.row.vendor == userVendor.value
      && r.row.data == data["tool" := Strip(data["tool"])]
      && r.row.data["tool"] in categories[categoryId]
      && r.row.data["category"] == ids.write(categoryId)
    ensures r != IntegrityError500
  {
    if categoryId !in categories then CategoryNotFound404
    else if categories[categoryId] == [] then NoTools400
    else
      var tools := categories[categoryId];
      var data := ProductData(tools, ids, categoryId, body);
      ToolCheckOnPathCategory(categories, ids, categoryId, data["tool"]);
      if !ProductValid(categories, ids, categoryId, body, otherFieldsValid) then Invalid400
      else
        var validated := ToolField(Some(data["category"]), categories, ids.read, data["tool"]).value;
        var saved := data["tool" := DefaultTool(tools, Some(validated)).value];
        match Tenancy.StampVendor(saved, userVendor)
        case Failure(_) => NoVendor500
        case Success(row) => Created201(row)
  }

  /** The discrepancy: wherever the stamped view creates a product, the view
      as written fails on the NOT NULL column instead; everywhere else the
      two answer alike, except that the stamped view reaches the vendor. */
  lemma UnstampedSaveFails(categories: map<CategoryId, seq<string>>, ids: IdText, categoryId: CategoryId,
                           body: map<string, string>, otherFieldsValid: bool, userVendor: Option<Tenancy.VendorId>)
    requires ReadsBack(ids)
    ensures CreateProductForCategoryStamped(categories, ids, categoryId, body, otherFieldsValid, userVendor).Created201? ==>
      CreateProductForCategory(categories, ids, categoryId, body, otherFieldsValid) == IntegrityError500
    ensures var s := CreateProductForCategoryStamped(categories, ids, categoryId, body, otherFieldsValid, userVendor);
      !s.Created201? && s != NoVendor500 ==> CreateProductForCategory(categories, ids, categoryId, body, otherFieldsValid) == s
  {
  }

  /** Every category with clean tools, a valid body and a requester with a
      vendor: the stamped view creates the product, the view as written
      answers 500. */
  lemma CleanCategoryCreates(categories: map<CategoryId, seq<string>>, ids: IdText, categoryId: CategoryId,
                             body: map<string, string>, vendor: Tenancy.VendorId)
    requires ReadsBack(ids)
    requires categoryId in categories && categories[categoryId] != [] && CleanTools(categories[categoryId])
    ensures CreateProductForCategoryStamped(categories, ids, categoryId, body, true, Some(vendor)).Created201?
    ensures CreateProductForCategory(categories, ids, categoryId, body, true) == IntegrityError500
  {
    var tools := categories[categoryId];
    var t := ProductData(tools, ids, categoryId, body)["tool"];
    var i :| 0 <= i < |tools| && tools[i] == t;
    assert ToolAccepted(tools, t);
  }

  /** A stored product as the `tools` action reaches it: its category's id. */
  datatype ProductRow = ProductRow(categoryId: CategoryId)

  /** `ProductViewSet.tools`: the product's category's `tools` list, or None
      (404 from `get_object`) for an unknown product. The category foreign key
      is PROTECTed, so a stored product's category exists. */
  function ProductTools(products: map<nat, ProductRow>, categories: map<CategoryId, seq<string>>, pk: nat)
    : (r: Option<seq<string>>)
    requires forall p :: p in products ==> products[p].categoryId in categories
    ensures r.Some? <==> pk in products
    ensures r.Some? ==> r.value == categories[products[pk].categoryId]
  {
    if pk in products then Some(categories[products[pk].categoryId]) else None
  }

  /** The responses of the sale viewset's `process_sale` action. */
  datatype ProcessSaleResponse =
    | SaleNotFound404                                // `get_object` found no sale with that key
    | ProcessRaised500(e: InventoryModels.ProcessError) // Django's ValidationError, which DRF does not catch
    | Processed200                                   // {"status": "sale processed"}

  /** `SaleViewSet.process_sale`: the stored sale with key `pk` is processed
      again; `stock` is the first stock row of its product. Every sale
      reaching this action was created through `SaleSerializer.create`,
      which processed it already, so a success takes the sale's units out
      of stock a second time. The sale table never changes: the sale is
      saved with the columns it holds. */
  method ProcessSaleAction(pk: nat, stock: InventoryModels.Stock?, sales: InventoryModels.SaleTable)
    returns (resp: ProcessSaleResponse)
    requires sales.Valid()
    modifies stock, sales
    ensures sales.Valid()
    ensures sales.rows == old(sales.rows)
    ensures resp == SaleNotFound404 <==> !InventoryModels.StoredIn(old(sales.rows), pk)
    ensures InventoryModels.StoredIn(old(sales.rows), pk) ==>
      var sold := InventoryModels.SaleByPk(old(sales.rows), pk).value.quantity;
      (resp == Processed200 <==> stock != null && old(stock.quantity) >= sold)
      && (resp == Processed200 ==> stock.quantity == old(stock.quantity) - sold)
    ensures resp != Processed200 && stock != null ==> stock.quantity == old(stock.quantity)
  {
    var found := InventoryModels.SaleByPk(sales.rows, pk);
    if found.None? {
      return SaleNotFound404;
    }
    ghost var before := sales.rows;
    var processed := InventoryModels.ProcessSale(Some(pk), found.value, stock, sales);
    if processed.Success? {
      InventoryModels.ResaveChangesNothing(before, pk);
      resp := Processed200;
    } else {
      resp := ProcessRaised500(processed.error);
    }
  }
}

=== FILE: js.dfy ===
/** The JavaScript values the client passes around (parsed JSON bodies, form
    state, props), the coercions the client code relies on, the browser's
    `localStorage`, and the outcome of an HTTP request as the client sees it.
    Numbers are integers here: every number the client handles is an id, a
    count, a quantity or a timestamp in seconds. */
module Js {
  import opened Wrappers
  import opened Text

  datatype Value =
    | Undefined
    | Null
    | Bool(b: bool)
    | Num(n: int)
    | Str(s: string)
    | File(name: string)
    | Arr(items: seq<Value>)
    | Obj(entries: seq<Entry>)

  /** A property of an object, in the object's own key order. */
  datatype Entry = Entry(key: string, value: Value)

  /** JavaScript truthiness: `undefined`, `null`, `false`, `0` and `""` are falsy. */
  predicate Truthy(v: Value) {
    match v
    case Undefined => false
    case Null => false
    case Bool(b) => b
    case Num(n) => n != 0
    case Str(s) => s != ""
    case _ => true
  }

  /** `v == null` (loose equality): true for `undefined` and `null` only. */
  predicate Nullish(v: Value) {
    v.Undefined? || v.Null?
  }

  /** The keys of an object, in order. */
  function Keys(entries: seq<Entry>): (r: seq<string>)
    ensures |r| == |entries|
    ensures forall i :: 0 <= i < |entries| ==> r[i] == entries[i].key
  {
    seq(|entries|, i requires 0 <= i < |entries| => entries[i].key)
  }

  /** The value of the first entry with `key`, or `undefined`. */
  function Lookup(entries: seq<Entry>, key: string): (r: Value)
    ensures key !in Keys(entries) ==> r == Undefined
    ensures forall i :: (0 <= i < |entries| && entries[i].key == key &&
      (forall j :: 0 <= j < i ==> entries[j].key != key)) ==> r == entries[i].value
  {
    if |entries| == 0 then Undefined
    else if entries[0].key == key then entries[0].value
    else Lookup(entries[1..], key)
  }

  /** `v?.key`: a property of an object; `undefined` on anything else. */
  function Get(v: Value, key: string): (r: Value)
    ensures !v.Obj? ==> r == Undefined
    ensures v.Obj? ==> r == Lookup(v.entries, key)
  {
    if v.Obj? then Lookup(v.entries, key) else Undefined
  }

  /** `obj[key] = value`: an existing key keeps its place, a new key goes last. */
  function Assign(entries: seq<Entry>, key: string, value: Value): (r: seq<Entry>)
    ensures key in Keys(entries) ==> |r| == |entries|
    ensures key !in Keys(entries) ==> r == entries + [Entry(key, value)]
    ensures Lookup(r, key) == value
    ensures forall k :: k != key ==> Lookup(r, k) == Lookup(entries, k)
    ensures forall k :: k in Keys(r) <==> k in Keys(entries) || k == key
  {
    if |entries| == 0 then [Entry(key, value)]
    else if entries[0].key == key then
      AssignAtHead(entries, key, value);
      [Entry(key, value)] + entries[1..]
    else
      var rest := Assign(entries[1..], key, value);
      AssignBelowHead(entries, key, value, rest);
      [entries[0]] + rest
  }

  /** Assigning the first entry's key replaces that entry. */
  lemma AssignAtHead(entries: seq<Entry>, key: string, value: Value)
    requires |entries| > 0 && entries[0].key == key
    ensures var r := [Entry(key, value)] + entries[1..];
      && key in Keys(entries) && |r| == |entries|
      && Lookup(r, key) == value
      && (forall k :: k != key ==> Lookup(r, k) == Lookup(entries, k))
      && (forall k :: k in Keys(r) <==> k in Keys(entries) || k == key)
  {
    KeysCons(Entry(key, value), entries[1..]);
    KeysCons(entries[0], entries[1..]);
    assert entries == [entries[0]] + entries[1..];
  }

  /** Assigning a key the first entry does not have keeps that entry in
      front of the assignment to the rest. */
  lemma AssignBelowHead(entries: seq<Entry>, key: string, value: Value, rest: seq<Entry>)
    requires |entries| > 0 && entries[0].key != key
    requires key in Keys(entries[1..]) ==> |rest| == |entries[1..]|
    requires key !in Keys(entries[1..]) ==> rest == entries[1..] + [Entry(key, value)]
    requires Lookup(rest, key) == value
    requires forall k :: k != key ==> Lookup(rest, k) == Lookup(entries[1..], k)
    requires forall k :: k in Keys(rest) <==> k in Keys(entries[1..]) || k == key
    ensures var r := [entries[0]] + rest;
      && (key in Keys(entries) ==> |r| == |entries|)
      && (key !in Keys(entries) ==> r == entries + [Entry(key, value)])
      && Lookup(r, key) == value
      && (forall k :: k != key ==> Lookup(r, k) == Lookup(entries, k))
      && (forall k :: k in Keys(r) <==> k in Keys(entries) || k == key)
  {
    var head, tail := entries[0], entries[1..];
    assert entries == [head] + tail;
    KeysCons(head, tail);
    KeysCons(head, rest);
    BelowHeadShape(head, tail, key, value, rest);
    BelowHeadLookup(head, tail, key, value, rest);
    BelowHeadKeys(head, tail, key, rest);
  }

  lemma BelowHeadShape(head: Entry, tail: seq<Entry>, key: string, value: Value, rest: seq<Entry>)
    requires head.key != key
    requires key in Keys(tail) ==> |rest| == |tail|
    requires key !in Keys(tail) ==> rest == tail + [Entry(key, value)]
    ensures key in Keys([head] + tail) ==> |[head] + rest| == |[head] + tail|
    ensures key !in Keys([head] + tail) ==> [head] + rest == [head] + tail + [Entry(key, value)]
  {
    KeysCons(head, tail);
    if key !in Keys([head] + tail) {
      assert key !in Keys(tail);
      assert [head] + (tail + [Entry(key, value)]) == [head] + tail + [Entry(key, value)];
    }
  }

  lemma BelowHeadLookup(head: Entry, tail: seq<Entry>, key: string, value: Value, rest: seq<Entry>)
    requires head.key != key
    requires Lookup(rest, key) == value
    requires forall k :: k != key ==> Lookup(rest, k) == Lookup(tail, k)
    ensures Lookup([head] + rest, key) == value
    ensures forall k :: k != key ==> Lookup([head] + rest, k) == Lookup([head] + tail, k)
  {
    assert ([head] + rest)[1..] == rest;
    assert ([head] + tail)[1..] == tail;
  }

  lemma BelowHeadKeys(head: Entry, tail: seq<Entry>, key: string, rest: seq<Entry>)
    requires forall k :: k in Keys(rest) <==> k in Keys(tail) || k == key
    ensures forall k :: k in Keys([head] + rest) <==> k in Keys([head] + tail) || k == key
  {
    KeysCons(head, rest);
    KeysCons(head, tail);
  }

  lemma KeysCons(e: Entry, rest: seq<Entry>)
    ensures Keys([e] + rest) == [e.key] + Keys(rest)
  {
  }

  /** `delete obj[key]`, and the rest of a `{key, ...rest}` pattern: every
      other entry in order. */
  function Remove(entries: seq<Entry>, key: string): (r: seq<Entry>)
    ensures key !in Keys(r)
    ensures forall k :: k != key ==> Lookup(r, k) == Lookup(entries, k)
    ensures forall k :: k in Keys(r) <==> k in Keys(entries) && k != key
  {
    if |entries| == 0 then []
    else
      var rest := Remove(entries[1..], key);
      RemoveStep(entries, key, rest);
      if entries[0].key == key then rest else [entries[0]] + rest
  }

  /** The first entry is dropped when it has the key and kept in front of
      the rest otherwise. */
  lemma RemoveStep(entries: seq<Entry>, key: string, rest: seq<Entry>)
    requires |entries| > 0
    requires key !in Keys(rest)
    requires forall k :: k != key ==> Lookup(rest, k) == Lookup(entries[1..], k)
    requires forall k :: k in Keys(rest) <==> k in Keys(entries[1..]) && k != key
    ensures var r := if entries[0].key == key then rest else [entries[0]] + rest;
      && key !in Keys(r)
      && (forall k :: k != key ==> Lookup(r, k) == Lookup(entries, k))
      && (forall k :: k in Keys(r) <==> k in Keys(entries) && k != key)
  {
    var head, tail := entries[0], entries[1..];
    assert entries == [head] + tail;
    KeysCons(head, tail);
    KeysCons(head, rest);
    assert ([head] + rest)[1..] == rest;
  }

  /** The keys of an object are distinct. */
  predicate DistinctKeys(entries: seq<Entry>) {
    forall i, j :: 0 <= i < j < |entries| ==> entries[i].key != entries[j].key
  }

  /** `{...target, ...source}`: the source's properties assigned one by one
      onto the target's. */
  function Spread(target: seq<Entry>, source: seq<Entry>): (r: seq<Entry>)
    ensures forall k :: k !in Keys(source) ==> Lookup(r, k) == Lookup(target, k)
    decreases |source|
  {
    if |source| == 0 then target
    else
      KeysCons(source[0], source[1..]);
      assert source == [source[0]] + source[1..];
      Spread(Assign(target, source[0].key, source[0].value), source[1..])
  }

  /** Spreading a single property is assigning it. */
  lemma SpreadOne(target: seq<Entry>, e: Entry)
    ensures Spread(target, [e]) == Assign(target, e.key, e.value)
  {
    assert [e][1..] == [];
  }

  /** With distinct keys, every property of the source wins over the target's. */
  lemma {:induction false} SpreadSourceWins(target: seq<Entry>, source: seq<Entry>)
    ensures DistinctKeys(source) ==>
      forall k :: k in Keys(source) ==> Lookup(Spread(target, source), k) == Lookup(source, k)
    decreases |source|
  {
    if DistinctKeys(source) && |source| > 0 {
      var head := source[0];
      var rest := source[1..];
      assert source == [head] + rest;
      KeysCons(head, rest);
      assert DistinctKeys(rest);
      SpreadSourceWins(Assign(target, head.key, head.value), rest);
      assert head.key !in Keys(rest) by {
        forall i | 0 <= i < |rest| ensures rest[i].key != head.key {
          assert rest[i] == source[i + 1];
        }
      }
    }
  }

  /** `v?.length || 0` on a list that may not be loaded yet. */
  function LengthOrZero(v: Value): (r: nat)
    requires v.Arr? || Nullish(v)
    ensures v.Arr? ==> r == |v.items|
    ensures Nullish(v) ==> r == 0
  {
    if v.Arr? then |v.items| else 0
  }

  /** A number in decimal, as `String(n)` writes an integer. */
  function NumToString(n: int): (r: string)
    ensures n >= 0 ==> r == NatToString(n)
  {
    if n < 0 then "-" + NatToString(-n) else NatToString(n)
  }

  /** `String(v)`: how `localStorage.setItem`, `FormData.append` and template
      strings turn a value into text. An array is its elements joined by
      ",", with `null` and `undefined` elements written as "". */
  function StringOf(v: Value): string
    decreases v
  {
    match v
    case Undefined => "undefined"
    case Null => "null"
    case Bool(b) => if b then "true" else "false"
    case Num(n) => NumToString(n)
    case Str(s) => s
    case File(_) => "[object File]"
    case Obj(_) => "[object Object]"
    case Arr(items) =>
      if |items| == 0 then ""
      else Join(seq(|items|, i requires 0 <= i < |items| =>
                      if Nullish(items[i]) then "" else StringOf(items[i])), ',')
  }

  /** The browser's `localStorage`: text under text keys. */
  class LocalStorage {
    var items: map<string, string>

    constructor (items: map<string, string>)
      ensures this.items == items
    {
      this.items := items;
    }

    /** `getItem(key)`: `null` when the key is missing. */
    function GetItem(key: string): (r: Option<string>)
      reads this
      ensures r.Some? <==> key in items
      ensures r.Some? ==> r.value == items[key]
    {
      if key in items then Some(items[key]) else None
    }

    /** `setItem(key, value)` stores `String(value)`. */
    method SetItem(key: string, value: Value)
      modifies this
      ensures items == old(items)[key := StringOf(value)]
    {
      items := items[key := StringOf(value)];
    }

    method RemoveItem(key: string)
      modifies this
      ensures items == old(items) - {key}
    {
      items := items - {key};
    }

    method Clear()
      modifies this
      ensures items == map[]
    {
      items := map[];
    }
  }

  /** A stored text is truthy when it is present and not empty. */
  function StoredToken(storage: map<string, string>, key: string): (r: Option<string>)
    ensures r.Some? <==> key in storage && storage[key] != ""
    ensures r.Some? ==> r.value == storage[key]
  {
    if key in storage && storage[key] != "" then Some(storage[key]) else None
  }

  /** How an HTTP request through axios ends: a 2xx response with its parsed
      body, an error response with its status and body, or no response at
      all (a network error). */
  datatype Reply =
    | Ok(data: Value)
    | HttpError(status: int, body: Value)
    | NoResponse
}

=== FILE: navigation_config.dfy ===
/** `navigationConfig`: the sidebar's entries, each with the roles and
    business types it is shown to; an empty list means everyone. */
module NavigationConfig {
  datatype NavItem = NavItem(text: string, path: string, roles: seq<string>, businessTypes: seq<string>)

  const Dashboard := NavItem("Dashboard", "/dashboard", ["admin", "manager", "waiter", "chef"], [])
  const Orders := NavItem("Orders", "/orders", ["manager", "waiter", "admin"], ["restaurant"])
  const Categories := NavItem("Categories", "/categories", ["manager", "admin"], ["restaurant"])
  const MenuManagement := NavItem("Menu Management", "/menu", ["manager", "admin"], ["restaurant"])
  const ProductManagement := NavItem("Product Management", "/products", ["manager", "admin"], ["shop"])
  const Inventory := NavItem("Inventory", "/inventory", ["manager", "admin"], ["restaurant", "shop"])
  const StaffManagement := NavItem("Staff Management", "/staff", ["admin", "manager"], [])
  const MyProfile := NavItem("My Profile", "/profile", [], [])
  const AdminSettings := NavItem("Admin Settings", "/admin/settings", ["admin"], [])

  const Navigation: seq<NavItem> := [
    Dashboard, Orders, Categories, MenuManagement, ProductManagement,
    Inventory, StaffManagement, MyProfile, AdminSettings
  ]

  /** Nine entries; "My Profile" is the only one open to every role, and it
      is open to every business type too. */
  lemma ProfileIsTheOnlyEntryForAllRoles()
    ensures |Navigation| == 9
    ensures forall i :: 0 <= i < |Navigation| ==> (Navigation[i].roles == [] <==> Navigation[i] == MyProfile)
    ensures MyProfile.businessTypes == []
  {
  }

  /** No entry lists the roles "cashier" or "cleaner". */
  lemma CashierAndCleanerListedNowhere()
    ensures forall i :: 0 <= i < |Navigation| ==>
      "cashier" !in Navigation[i].roles && "cleaner" !in Navigation[i].roles
  {
  }

  /** No entry lists the empty role. */
  lemma NoEmptyRole()
    ensures forall i :: 0 <= i < |Navigation| ==> "" !in Navigation[i].roles
  {
  }
}

=== FILE: profile_api.dfy ===
/** The profile client calls: the signed-in user's profile out of its
    envelope, and the multipart body of a profile update. */
module ProfileApi {
  import opened Js
  import opened ApiCommon

  /** `fetchMyProfile`: the `profile` inside the body, not the body. */
  function FetchMyProfile(data: Value): (r: Value)
    ensures data.Obj? ==> r == Lookup(data.entries, "profile")
    ensures !data.Obj? ==> r == Undefined
  {
    Get(data, "profile")
  }

  /** Each property that is neither `null` nor `undefined`, in key order. */
  function NonNullEntries(data: seq<Entry>): (r: seq<FormEntry>)
    ensures |r| <= |data|
  {
    if |data| == 0 then []
    else if Nullish(data[0].value) then NonNullEntries(data[1..])
    else [FormEntry(data[0].key, PartOf(data[0].value))] + NonNullEntries(data[1..])
  }

  lemma {:induction false} NonNullEntriesAppend(a: seq<Entry>, b: seq<Entry>)
    ensures NonNullEntries(a + b) == NonNullEntries(a) + NonNullEntries(b)
  {
    if |a| == 0 {
      assert a + b == b;
    } else {
      assert (a + b)[0] == a[0] && (a + b)[1..] == a[1..] + b;
      NonNullEntriesAppend(a[1..], b);
    }
  }

  /** `updateMyProfile`'s body. A file under `profile_photo` has its own
      branch, and it appends just what the general branch would: the body is
      every non-null property, once, in key order. */
  method UpdateMyProfileForm(data: seq<Entry>) returns (form: FormDataBuffer)
    ensures fresh(form)
    ensures form.entries == NonNullEntries(data)
  {
    form := new FormDataBuffer();
    var k := 0;
    while k < |data|
      invariant 0 <= k <= |data|
      invariant form.entries == NonNullEntries(data[..k])
    {
      var key := data[k].key;
      var value := data[k].value;
      if key == "profile_photo" && value.File? {
        form.Append(key, value);
      } else if !Nullish(value) {
        form.Append(key, value);
      }
      NonNullEntriesAppend(data[..k], [data[k]]);
      assert data[..k + 1] == data[..k] + [data[k]];
      k := k + 1;
    }
    assert data[..k] == data;
  }
}

=== FILE: profiles_serializers.dfy ===
/** The `profiles` app's serializers: the profile update that assigns each
    supplied profile field and then each supplied field of the nested user,
    and the narrower update whose `country` is read-only. The full name
    shown is `UserModels.FullName`. */
module ProfileSerializers {
  import opened Wrappers
  import opened UserModels
  import opened Tables

  /** The profile columns this update touches, by field name
      (`phone_number`, `about_me`, `gender`, `country`, `city`, ...). */
  class Profile {
    var fields: map<string, string>
    var user: User

    constructor (fields: map<string, string>, user: User)
      ensures this.fields == fields && this.user == user
    {
      this.fields := fields;
      this.user := user;
    }

    /** `for attr, value in validated_data.items(): setattr(instance, attr, value)`:
        every supplied field takes its new value, every other keeps its old one. */
    method AssignFields(validated: map<string, string>)
      modifies this`fields
      ensures fields == old(fields) + validated
    {
      var pending := validated.Keys;
      while pending != {}
        invariant pending <= validated.Keys
        invariant fields == old(fields) + (map k | k in validated && k !in pending :: validated[k])
        decreases pending
      {
        var attr :| attr in pending;
        fields := fields[attr := validated[attr]];
        pending := pending - {attr};
      }
      assert (map k | k in validated && k !in pending :: validated[k]) == validated;
    }
  }

  /** The nested `user` data `ProfileSerializers` accepts: each field
      present or not. */
  datatype UserData = UserData(
    username: Option<string>, firstName: Option<string>, lastName: Option<string>,
    email: Option<string>, role: Option<string>, businessType: Option<string>)

  /** Why the update raised. */
  datatype ProfileUpdateError =
    | RoleNotAssignable   // `role` arrives as text, and assigning text to the foreign key raises
    | UserClash           // IntegrityError: another user has the e-mail or the username

  /** `ProfileSerializers.update`: the profile fields are assigned and the
      profile saved; then the user fields are assigned and the user saved
      (which derives an empty username from the e-mail again). A supplied
      `role` raises after the profile is saved and before the user is. The
      user's save is refused when another stored user (`stored`) has its
      e-mail or its username. The same profile instance is returned. */
  method UpdateProfile(profile: Profile, validated: map<string, string>, userData: UserData, stored: StoredKeys)
    returns (r: Result<Profile, ProfileUpdateError>)
    modifies profile, profile.user
    ensures profile.user == old(profile.user)
    ensures profile.fields == old(profile.fields) + validated
    ensures r == Failure(RoleNotAssignable) <==> userData.role.Some?
    ensures r.Success? ==> r.value == profile
    ensures r == Failure(RoleNotAssignable) ==> unchanged(profile.user)
    ensures userData.role.None? ==> (r == Failure(UserClash) <==> Clashes(stored, profile.user.email, profile.user.username))
    ensures userData.role.None? ==>
      var u := profile.user;
      && u.firstName == userData.firstName.GetOr(old(u.firstName))
      && u.lastName == userData.lastName.GetOr(old(u.lastName))
      && u.email == userData.email.GetOr(old(u.email))
      && u.businessType == (if userData.businessType.Some? then userData.businessType else old(u.businessType))
      && u.role == old(u.role) && u.password == old(u.password)
      && u.isStaff == old(u.isStaff) && u.isSuperuser == old(u.isSuperuser) && u.isActive == old(u.isActive)
      && (var given := if userData.username.Some? then userData.username else old(u.username);
          (given.Some? && given.value != "" ==> u.username == given) &&
          (given.None? || given.value == "" ==> u.username == UsernameFromEmail(u.email)))
  {
    profile.AssignFields(validated);
    var user := profile.user;
    if userData.role.Some? {
      return Failure(RoleNotAssignable);
    }
    if userData.username.Some? {
      user.username := userData.username;
    }
    user.firstName := userData.firstName.GetOr(user.firstName);
    user.lastName := userData.lastName.GetOr(user.lastName);
    user.email := userData.email.GetOr(user.email);
    if userData.businessType.Some? {
      user.businessType := userData.businessType;
    }
    var saved := user.Save(stored);
    if saved.Some? {
      return Failure(UserClash);
    }
    return Success(profile);
  }

  /** The fields `UpdateProfileSerializer` can write; `country` is read-only. */
  const EditableFields: set<string> := {"phone_number", "profile_photo", "about_me", "gender", "city"}

  /** `UpdateProfileSerializer.update`: exactly the supplied fields change,
      so the country never does. */
  method UpdateProfileFields(profile: Profile, validated: map<string, string>) returns (r: Profile)
    requires validated.Keys <= EditableFields
    modifies profile
    ensures r == profile
    ensures profile.fields == old(profile.fields) + validated
    ensures "country" in old(profile.fields) ==> "country" in profile.fields && profile.fields["country"] == old(profile.fields)["country"]
    ensures "country" !in old(profile.fields) ==> "country" !in profile.fields
  {
    profile.AssignFields(validated);
    return profile;
  }
}

=== FILE: protected_routes.dfy ===
/** `ProtectedRoute`: the guard in front of every signed-in page. */
module ProtectedRoutes {
  import opened Wrappers
  import opened Js

  /** Where the guard sends the visitor. */
  datatype Route = LoginRedirect | UnauthorizedRedirect | Outlet

  /** `allowedRoles.includes(user?.role)`: `includes` compares by identity of
      value, so only a string role spelled exactly as listed matches. */
  predicate RoleListed(user: Value, allowedRoles: seq<string>) {
    Get(user, "role").Str? && Get(user, "role").s in allowedRoles
  }

  /** The guard. `allowedRoles` is None when the route names no roles. */
  function Guard(isAuthenticated: bool, user: Value, allowedRoles: Option<seq<string>>): (r: Route)
    ensures !isAuthenticated <==> r == LoginRedirect
    ensures isAuthenticated && allowedRoles.None? ==> r == Outlet
    ensures allowedRoles.Some? ==>
      (r == Outlet <==> isAuthenticated && RoleListed(user, allowedRoles.value))
    ensures r == UnauthorizedRedirect <==>
      isAuthenticated && allowedRoles.Some? && !RoleListed(user, allowedRoles.value)
  {
    if !isAuthenticated then LoginRedirect
    else if allowedRoles.Some? && !RoleListed(user, allowedRoles.value) then UnauthorizedRedirect
    else Outlet
  }

  /** An empty role list is still a list: it admits nobody signed in. */
  lemma EmptyRolesAdmitNobody(user: Value)
    ensures Guard(true, user, Some([])) == UnauthorizedRedirect
  {
  }

  /** A signed-in user with a text role is admitted exactly when that very
      text is listed, so the comparison is case-sensitive: "Manager" is not
      "manager". */
  lemma RoleMatchIsExact(role: string, allowed: seq<string>)
    ensures Guard(true, Obj([Entry("role", Str(role))]), Some(allowed)) == Outlet <==> role in allowed
    ensures Guard(true, Obj([Entry("role", Str("Manager"))]), Some(["manager"])) == UnauthorizedRedirect
  {
    assert "Manager" != "manager" by { assert "Manager"[0] != "manager"[0]; }
  }
}

=== FILE: register_page.dfy ===
/** The sign-up page: the business types it offers, the validation rules of
    its six fields (react-hook-form reports, per field, the message of the
    first rule that fails), and the renaming of `password` to `password1`
    before the form is sent to the registration endpoint. */
module RegisterPage {
  import opened Wrappers
  import opened Js
  import UserModels
  import UserSerializers

  /** An option of the business type select: its key and its label. */
  datatype BusinessOption = BusinessOption(key: string, text: string)

  const BusinessTypeOptions: seq<BusinessOption> := [
    BusinessOption("restaurant", "Restaurant"),
    BusinessOption("shop", "Shop"),
    BusinessOption("hospital", "Hospital"),
    BusinessOption("warehouse", "Warehouse"),
    BusinessOption("factory", "Factory"),
    BusinessOption("transport", "Transport")
  ]

  /** The select offers exactly the business types the user model accepts,
      in the same order. */
  lemma OptionsAreTheModelsBusinessTypes()
    ensures |BusinessTypeOptions| == |UserModels.BusinessTypes|
    ensures forall i :: 0 <= i < |BusinessTypeOptions| ==> BusinessTypeOptions[i].key == UserModels.BusinessTypes[i]
  {
  }

  /** A character `\s` matches in a JavaScript regular expression: the
      white space and line terminator characters of ECMAScript. */
  predicate IsJsWhitespace(c: char) {
    || c == ' ' || ('\U{9}' <= c <= '\U{D}') || c == '\U{A0}' || c == '\U{1680}'
    || ('\U{2000}' <= c <= '\U{200A}') || c == '\U{2028}' || c == '\U{2029}' || c == '\U{202F}'
    || c == '\U{205F}' || c == '\U{3000}' || c == '\U{FEFF}'
  }

  /** `\S+` matches all of `s`. */
  predicate NonBlankRun(s: string) {
    |s| > 0 && forall i :: 0 <= i < |s| ==> !IsJsWhitespace(s[i])
  }

  /** `/^\S+@\S+$/i`: a run of non-blank characters, an "@", and another
      run. The `i` flag changes nothing: the pattern has no letters. */
  predicate EmailPattern(s: string) {
    exists i :: 0 <= i < |s| && s[i] == '@' && NonBlankRun(s[..i]) && NonBlankRun(s[i + 1..])
  }

  /** The pattern accepts exactly the texts with no blank character and an
      "@" somewhere other than at either end; further "@"s are allowed. */
  lemma EmailPatternIff(s: string)
    ensures EmailPattern(s) <==>
      (forall k :: 0 <= k < |s| ==> !IsJsWhitespace(s[k])) && exists i :: 0 < i < |s| - 1 && s[i] == '@'
  {
    if EmailPattern(s) {
      var i :| 0 <= i < |s| && s[i] == '@' && NonBlankRun(s[..i]) && NonBlankRun(s[i + 1..]);
      forall k | 0 <= k < |s| ensures !IsJsWhitespace(s[k]) {
        if k < i {
          assert s[k] == s[..i][k];
        } else if k > i {
          assert s[k] == s[i + 1..][k - i - 1];
        }
      }
    }
    if (forall k :: 0 <= k < |s| ==> !IsJsWhitespace(s[k])) && exists i :: 0 < i < |s| - 1 && s[i] == '@' {
      var i :| 0 < i < |s| - 1 && s[i] == '@';
      assert NonBlankRun(s[..i]) && NonBlankRun(s[i + 1..]);
    }
  }

  /** Two "@"s pass; a blank or a missing user part do not. */
  lemma EmailPatternExamples()
    ensures EmailPattern("a@b@c")
    ensures !EmailPattern("a @b")
    ensures !EmailPattern("@b")
  {
    EmailPatternIff("a@b@c");
    assert "a@b@c"[1] == '@';
    EmailPatternIff("a @b");
    assert "a @b"[1] == ' ';
    EmailPatternIff("@b");
  }

  /** The form's values; each field starts as "". */
  datatype RegisterForm = RegisterForm(
    firstName: string, lastName: string, email: string,
    businessType: string, password: string, password2: string)

  const FirstNameRequired := "First name is required"
  const LastNameRequired := "Last name is required"
  const EmailRequired := "Email is required"
  const InvalidEmail := "Invalid email address"
  const BusinessTypeRequired := "Business type is required"
  const PasswordRequired := "Password is required"
  const PasswordTooShort := "Password must be at least 8 characters"
  const ConfirmRequired := "Please confirm your password"
  const PasswordsDiffer := "Passwords do not match"

  /** The `minLength` rule of the password. */
  const MinPasswordLength := 8

  /** A `required` rule alone: the message when the value is "". */
  function RequiredError(value: string, message: string): (r: Option<string>)
    ensures r.Some? <==> value == ""
    ensures r.Some? ==> r.value == message
  {
    if value == "" then Some(message) else None
  }

  /** `email`: required, then the pattern (checked only on a non-empty value). */
  function EmailError(email: string): (r: Option<string>)
    ensures r == None <==> EmailPattern(email)
    ensures email == "" ==> r == Some(EmailRequired)
    ensures email != "" && !EmailPattern(email) ==> r == Some(InvalidEmail)
  {
    if email == "" then Some(EmailRequired)
    else if !EmailPattern(email) then Some(InvalidEmail)
    else None
  }

  /** `password`: required, then at least eight characters. */
  function PasswordError(password: string): (r: Option<string>)
    ensures r == None <==> |password| >= MinPasswordLength
    ensures password == "" ==> r == Some(PasswordRequired)
    ensures 0 < |password| < MinPasswordLength ==> r == Some(PasswordTooShort)
  {
    if password == "" then Some(PasswordRequired)
    else if |password| < MinPasswordLength then Some(PasswordTooShort)
    else None
  }

  /** `password2`: required, then equal to the current `password`. */
  function Password2Error(password2: string, password: string): (r: Option<string>)
    ensures r == None <==> password2 != "" && password2 == password
    ensures password2 == "" ==> r == Some(ConfirmRequired)
    ensures password2 != "" && password2 != password ==> r == Some(PasswordsDiffer)
  {
    if password2 == "" then Some(ConfirmRequired)
    else if password2 != password then Some(PasswordsDiffer)
    else None
  }

  /** Adds a field's message when it has one. */
  function WithError(errors: map<string, string>, field: string, e: Option<string>): map<string, string> {
    if e.Some? then errors[field := e.value] else errors
  }

  /** `formState.errors`: each failing field with its message. */
  function Errors(f: RegisterForm): map<string, string> {
    var m0 := WithError(map[], "first_name", RequiredError(f.firstName, FirstNameRequired));
    var m1 := WithError(m0, "last_name", RequiredError(f.lastName, LastNameRequired));
    var m2 := WithError(m1, "email", EmailError(f.email));
    var m3 := WithError(m2, "business_type", RequiredError(f.businessType, BusinessTypeRequired));
    var m4 := WithError(m3, "password", PasswordError(f.password));
    WithError(m4, "password2", Password2Error(f.password2, f.password))
  }

  /** What the rules together demand of a form that may be submitted. */
  predicate Acceptable(f: RegisterForm) {
    && f.firstName != "" && f.lastName != "" && f.businessType != ""
    && EmailPattern(f.email)
    && |f.password| >= MinPasswordLength
    && f.password2 == f.password
  }

  /** `handleSubmit` calls `onSubmit` exactly when no field has an error. */
  lemma NoErrorsIff(f: RegisterForm)
    ensures Errors(f) == map[] <==> Acceptable(f)
  {
    if !Acceptable(f) {
      if f.firstName == "" { assert "first_name" in Errors(f); }
      else if f.lastName == "" { assert "last_name" in Errors(f); }
      else if !EmailPattern(f.email) { assert "email" in Errors(f); }
      else if f.businessType == "" { assert "business_type" in Errors(f); }
      else if |f.password| < MinPasswordLength { assert "password" in Errors(f); }
      else { assert "password2" in Errors(f); }
    }
  }

  /** Each rule's message is reported for its field, and a required rule is
      checked before the others: an empty password is "required", never
      "too short". */
  lemma RequiredReportedFirst(f: RegisterForm)
    requires f.password == ""
    ensures "password" in Errors(f) && Errors(f)["password"] == PasswordRequired
  {
    assert "password2" != "password" by { assert |"password2"| != |"password"|; }
  }

  /** The form as the object `onSubmit` receives. */
  function FormObject(f: RegisterForm): seq<Entry> {
    [ Entry("first_name", Str(f.firstName)), Entry("last_name", Str(f.lastName)),
      Entry("email", Str(f.email)), Entry("business_type", Str(f.businessType)),
      Entry("password", Str(f.password)), Entry("password2", Str(f.password2)) ]
  }

  /** `onSubmit`'s payload: `{...data, password1: data.password}` with the
      `password` key deleted. */
  function RenamePassword(data: seq<Entry>): (r: seq<Entry>)
    ensures "password" !in Keys(r)
    ensures Lookup(r, "password1") == Lookup(data, "password")
    ensures forall k :: k != "password" && k != "password1" ==> Lookup(r, k) == Lookup(data, k)
    ensures forall k :: k in Keys(r) <==> (k in Keys(data) && k != "password") || k == "password1"
  {
    var from, to := "password", "password1";
    assert from != to by { assert |from| != |to|; }
    var copy := Entry(to, Lookup(data, from));
    SpreadOne(data, copy);
    Remove(Spread(data, [copy]), from)
  }

  /** The entered password is the object's `password`. */
  lemma PasswordField(f: RegisterForm)
    ensures Lookup(FormObject(f), "password") == Str(f.password)
  {
    var data := FormObject(f);
    assert "password" != "first_name" by { assert "password"[0] != "first_name"[0]; }
    assert "password" != "last_name" by { assert "password"[0] != "last_name"[0]; }
    assert "password" != "email" by { assert "password"[0] != "email"[0]; }
    assert "password" != "business_type" by { assert "password"[0] != "business_type"[0]; }
    assert data[4..] == [data[4], data[5]];
  }

  /** The confirmation is the object's `password2`. */
  lemma Password2Field(f: RegisterForm)
    ensures Lookup(FormObject(f), "password2") == Str(f.password2)
  {
    var data := FormObject(f);
    assert "password2" != "first_name" by { assert "password2"[0] != "first_name"[0]; }
    assert "password2" != "last_name" by { assert "password2"[0] != "last_name"[0]; }
    assert "password2" != "email" by { assert "password2"[0] != "email"[0]; }
    assert "password2" != "business_type" by { assert "password2"[0] != "business_type"[0]; }
    assert "password2" != "password" by { assert |"password2"| != |"password"|; }
    assert data[5..] == [data[5]];
  }

  /** A form that passes every rule is sent with the entered password as
      `password1` next to `password2`, and the registration serializer's
      check that the two match succeeds on it. */
  lemma AcceptedFormPassesBackend(f: RegisterForm)
    requires Errors(f) == map[]
    ensures var payload := RenamePassword(FormObject(f));
      && Lookup(payload, "password1") == Str(f.password)
      && Lookup(payload, "password2") == Str(f.password2)
      && UserSerializers.ValidatePasswords(f.password, f.password2).Success?
  {
    NoErrorsIff(f);
    PasswordField(f);
    Password2Field(f);
    assert "password2" != "password" by { assert |"password2"| != |"password"|; }
    assert "password2" != "password1" by { assert "password2"[8] != "password1"[8]; }
  }
}

=== FILE: restaurant_api.dfy ===
/** The restaurant app's client calls: multipart create and update bodies
    built with `buildFormData`, and updates that carry the id in the path. */
module RestaurantApi {
  import opened Js
  import opened ApiCommon

  const CategoriesPath := "/restaurant/categories/"
  const MenusPath := "/restaurant/menus/"

  /** `({id, ...rest})`: the id goes into the path and the rest into the body. */
  method UpdateRequest(collection: string, data: seq<Entry>) returns (path: string, form: FormDataBuffer)
    ensures path == collection + StringOf(Lookup(data, "id")) + "/"
    ensures fresh(form) && form.entries == FormEntries(Remove(data, "id"))
    ensures forall j :: 0 <= j < |form.entries| ==> form.entries[j].key != "id"
  {
    path := collection + StringOf(Lookup(data, "id")) + "/";
    form := BuildFormData(Remove(data, "id"));
    IdNeverInBody(data);
  }

  /** No part of an update's body is keyed "id". */
  lemma IdNeverInBody(data: seq<Entry>)
    ensures forall j :: 0 <= j < |FormEntries(Remove(data, "id"))| ==> FormEntries(Remove(data, "id"))[j].key != "id"
  {
    var rest := Remove(data, "id");
    FormKeysFromData(rest);
    forall i | 0 <= i < |rest| ensures rest[i].key != "id" {
      assert rest[i].key == Keys(rest)[i];
    }
  }
}

=== FILE: restaurant_manager_dashboard.dfy ===
/** The restaurant manager's order KPIs: how many orders there are, and how
    many of them are delivered and pending. */
module RestaurantManagerDashboard {
  import opened Tables
  import opened Js

  const Delivered := "delivered"
  const Pending := "pending"

  /** `order.status === status`: strict equality, so only that exact text. */
  function HasStatus(status: string): Value -> bool {
    o => Get(o, "status") == Str(status)
  }

  datatype OrderKpis = OrderKpis(totalOrders: nat, deliveredOrders: nat, pendingOrders: nat)

  /** `orders?.length || 0` and `orders?.filter(...).length || 0` over the
      loaded order list, or over no list yet. */
  function Kpis(orders: Value): (k: OrderKpis)
    requires orders.Arr? || Nullish(orders)
    ensures Nullish(orders) ==> k == OrderKpis(0, 0, 0)
    ensures orders.Arr? ==> k.totalOrders == |orders.items|
    ensures k.deliveredOrders + k.pendingOrders <= k.totalOrders
  {
    if orders.Arr? then
      assert Delivered != Pending by { assert Delivered[0] != Pending[0]; }
      CountDisjoint(orders.items, HasStatus(Delivered), HasStatus(Pending));
      OrderKpis(|orders.items|, Count(orders.items, HasStatus(Delivered)), Count(orders.items, HasStatus(Pending)))
    else OrderKpis(0, 0, 0)
  }

  /** One more order adds one to the total, and one to the delivered or the
      pending count when its status is exactly that. */
  lemma OrderAdded(items: seq<Value>, order: Value)
    ensures var before := Kpis(Arr(items));
      Kpis(Arr(items + [order])) == OrderKpis(
        before.totalOrders + 1,
        before.deliveredOrders + (if Get(order, "status") == Str(Delivered) then 1 else 0),
        before.pendingOrders + (if Get(order, "status") == Str(Pending) then 1 else 0))
  {
    CountAppend(items, [order], HasStatus(Delivered));
    CountAppend(items, [order], HasStatus(Pending));
    assert [order][1..] == [];
  }

  /** An order whose status is any other text, such as "Delivered" in
      other letter case, counts as neither delivered nor pending. */
  lemma StatusMatchIsExact(items: seq<Value>, status: string)
    requires status != Delivered && status != Pending
    ensures var before := Kpis(Arr(items));
      var after := Kpis(Arr(items + [Obj([Entry("status", Str(status))])]));
      after.deliveredOrders == before.deliveredOrders && after.pendingOrders == before.pendingOrders
  {
    OrderAdded(items, Obj([Entry("status", Str(status))]));
  }
}

=== FILE: restaurant_models.dfy ===
/** The restaurant app's models: the status, menu-choice and staff-role
    choice tables with their stored keys and defaults, `OrderItem.clean`,
    and the two uniqueness constraints (one item per menu in an order, one
    menu per name for a vendor). */
module RestaurantModels {
  import opened Wrappers
  import opened Tables
  import opened Tenancy

  /** `Order.OrderStatus`. */
  datatype OrderStatus = Pending | Accepted | Rejected | Delivered | Cancelled

  function StatusKey(s: OrderStatus): string {
    match s
    case Pending => "pending"
    case Accepted => "accepted"
    case Rejected => "rejected"
    case Delivered => "delivered"
    case Cancelled => "cancelled"
  }

  /** The choice a stored `status` text names, if it names one. */
  function ParseStatus(key: string): (r: Option<OrderStatus>)
    ensures r.Some? ==> StatusKey(r.value) == key
  {
    if key == "pending" then Some(Pending)
    else if key == "accepted" then Some(Accepted)
    else if key == "rejected" then Some(Rejected)
    else if key == "delivered" then Some(Delivered)
    else if key == "cancelled" then Some(Cancelled)
    else None
  }

  /** Every status's key reads back as that status, so the five keys differ. */
  lemma StatusKeyRoundTrip(s: OrderStatus)
    ensures ParseStatus(StatusKey(s)) == Some(s)
  {
  }

  /** The `status` of an order created without one. */
  const DefaultStatus: OrderStatus := Pending

  /** `Menu.MenuChoiceType`. */
  datatype MenuChoiceType = Dropdown | Checkbox | Input

  function ChoiceTypeKey(c: MenuChoiceType): string {
    match c
    case Dropdown => "dropdown"
    case Checkbox => "checkbox"
    case Input => "input"
  }

  function ParseChoiceType(key: string): (r: Option<MenuChoiceType>)
    ensures r.Some? ==> ChoiceTypeKey(r.value) == key
  {
    if key == "dropdown" then Some(Dropdown)
    else if key == "checkbox" then Some(Checkbox)
    else if key == "input" then Some(Input)
    else None
  }

  lemma ChoiceTypeKeyRoundTrip(c: MenuChoiceType)
    ensures ParseChoiceType(ChoiceTypeKey(c)) == Some(c)
  {
  }

  /** The `choice_type` of a menu created without one. */
  const DefaultChoiceType: MenuChoiceType := Dropdown

  /** `RoleType`: the staff roles of a restaurant. */
  datatype RoleType = Manager | Cashier | Chef | Waiter | Cleaner

  function RoleTypeKey(r: RoleType): string {
    match r
    case Manager => "manager"
    case Cashier => "cashier"
    case Chef => "chef"
    case Waiter => "waiter"
    case Cleaner => "cleaner"
  }

  function ParseRoleType(key: string): (r: Option<RoleType>)
    ensures r.Some? ==> RoleTypeKey(r.value) == key
  {
    if key == "manager" then Some(Manager)
    else if key == "cashier" then Some(Cashier)
    else if key == "chef" then Some(Chef)
    else if key == "waiter" then Some(Waiter)
    else if key == "cleaner" then Some(Cleaner)
    else None
  }

  lemma RoleTypeKeyRoundTrip(r: RoleType)
    ensures ParseRoleType(RoleTypeKey(r)) == Some(r)
  {
  }

  /** The stored keys of `RoleType` are exactly these five texts. */
  lemma RoleTypeKeysExactly(key: string)
    ensures ParseRoleType(key).Some? <==> key in {"manager", "cashier", "chef", "waiter", "cleaner"}
  {
  }

  type OrderId = nat
  type MenuId = nat

  /** The errors `OrderItem.clean` raises (and, with the same texts,
      `OrderItemSerializer.validate`). */
  datatype ItemError =
    | QuantityBelowOne   // "Quantity must be at least 1."
    | PriceNotPositive   // "Price must be positive."

  /** `OrderItem.clean`: the quantity is checked first, so an item wrong in
      both respects reports the quantity. */
  function CleanOrderItem(quantity: int, price: real): (r: Option<ItemError>)
    ensures r.None? <==> quantity >= 1 && price > 0.0
    ensures r == Some(QuantityBelowOne) <==> quantity < 1
    ensures r == Some(PriceNotPositive) ==> quantity >= 1
  {
    if quantity < 1 then Some(QuantityBelowOne)
    else if price <= 0.0 then Some(PriceNotPositive)
    else None
  }

  /** A row of the `OrderItem` table, keyed for uniqueness by (order, menu). */
  datatype OrderItemRow = OrderItemRow(order: OrderId, menu: MenuId, quantity: nat, price: real)

  /** Inserting an order item: refused when the order already has an item for that menu. */
  function InsertOrderItem(rows: seq<OrderItemRow>, item: OrderItemRow): (r: Result<seq<OrderItemRow>, IntegrityError>)
    ensures r.Success? <==> forall i :: 0 <= i < |rows| ==> (rows[i].order, rows[i].menu) != (item.order, item.menu)
    ensures r.Success? ==> r.value == rows + [item]
    ensures UniqueBy(rows, (x: OrderItemRow) => (x.order, x.menu)) && r.Success? ==>
      UniqueBy(r.value, (x: OrderItemRow) => (x.order, x.menu))
  {
    InsertUnique(rows, item, (x: OrderItemRow) => (x.order, x.menu))
  }

  /** A row of the `Menu` table, keyed for uniqueness by (vendor, name). */
  datatype MenuRow = MenuRow(vendor: VendorId, name: string, category: nat, choiceType: MenuChoiceType)

  /** Inserting a menu: refused when the vendor already has a menu of that name. */
  function InsertMenu(rows: seq<MenuRow>, menu: MenuRow): (r: Result<seq<MenuRow>, IntegrityError>)
    ensures r.Success? <==> forall i :: 0 <= i < |rows| ==> (rows[i].vendor, rows[i].name) != (menu.vendor, menu.name)
    ensures r.Success? ==> r.value == rows + [menu]
    ensures UniqueBy(rows, (x: MenuRow) => (x.vendor, x.name)) && r.Success? ==>
      UniqueBy(r.value, (x: MenuRow) => (x.vendor, x.name))
  {
    InsertUnique(rows, menu, (x: MenuRow) => (x.vendor, x.name))
  }
}

=== FILE: restaurant_serializers.dfy ===
/** The restaurant app's serializers: order-item validation, the
    duplicate-menu check on an order's items, order creation and update
    (which write the order's items one by one and add up their total), the
    order creation that leaves the total unset, and the staff serializer
    that turns a role key into a stored role. */
module RestaurantSerializers {
  import opened Wrappers
  import opened Tables
  import opened Tenancy
  import opened RestaurantModels

  /** One validated entry of an order's `items`. */
  datatype ItemData = ItemData(menu: MenuId, quantity: nat, price: real)

  /** One entry of an order's `items` as the request gives it. `quantity`
      is None when the entry leaves it out, which the serializer allows
      because the model gives it a default. */
  datatype ItemInput = ItemInput(menu: MenuId, quantity: Option<int>, price: real)

  /** The range `PositiveIntegerField` gives the `quantity` field:
      `min_value=0`, and as `max_value` the backend's largest positive
      integer. 2147483647 is that bound on PostgreSQL, SQLite and Oracle,
      which this model assumes; on MySQL it is 4294967295. */
  const MaxQuantity: int := 2147483647

  predicate QuantityInRange(q: int) {
    0 <= q <= MaxQuantity
  }

  /** Why `OrderItemSerializer` refused an entry. */
  datatype ItemInputError =
    | QuantityOutOfRange      // 400 from the field: "Ensure this value is greater than or equal to 0." (or the maximum)
    | MissingQuantity         // `validate` reads `data["quantity"]`, which is absent: KeyError, 500
    | InvalidItem(e: ItemError)  // 400 from `validate`

  /** `OrderItemSerializer`: the `quantity` field's range check first, then
      `validate`, which reads the quantity before anything else and then
      makes the same two checks, in the same order and with the same texts,
      as `OrderItem.clean`; the entry comes back as given when all pass. */
  function ValidateItem(item: ItemInput): (r: Result<ItemData, ItemInputError>)
    ensures r.Success? <==>
      item.quantity.Some? && QuantityInRange(item.quantity.value) && CleanOrderItem(item.quantity.value, item.price).None?
    ensures r.Success? ==> r.value == ItemData(item.menu, item.quantity.value, item.price)
    ensures r == Failure(QuantityOutOfRange) <==> item.quantity.Some? && !QuantityInRange(item.quantity.value)
    ensures r == Failure(MissingQuantity) <==> item.quantity.None?
    ensures r.Failure? && r.error.InvalidItem? ==>
      item.quantity.Some? && QuantityInRange(item.quantity.value) &&
      Some(r.error.e) == CleanOrderItem(item.quantity.value, item.price)
  {
    match item.quantity
    case None => Failure(MissingQuantity)
    case Some(q) =>
      if !QuantityInRange(q) then Failure(QuantityOutOfRange)
      else match CleanOrderItem(q, item.price)
        case Some(e) => Failure(InvalidItem(e))
        case None => Success(ItemData(item.menu, q, item.price))
  }

  /** A negative quantity is refused by the field, before `validate` can
      report it below one; a quantity of 0 passes the field and `validate`
      refuses it. */
  lemma NegativeQuantityIsAFieldError(menu: MenuId, q: int, price: real)
    ensures q < 0 ==> ValidateItem(ItemInput(menu, Some(q), price)) == Failure(QuantityOutOfRange)
    ensures ValidateItem(ItemInput(menu, Some(0), price)) == Failure(InvalidItem(QuantityBelowOne))
  {
  }

  /** No menu occurs twice among the items. */
  predicate DistinctMenus(items: seq<ItemData>) {
    forall i, j :: 0 <= i < j < |items| ==> items[i].menu != items[j].menu
  }

  /** "Duplicate menu items detected in order." */
  datatype DuplicateMenu = DuplicateMenu

  /** `OrderSerializer.validate_items`: walks the items with the set of menus
      seen so far and refuses at the first repeat. */
  method ValidateItems(value: seq<ItemData>) returns (r: Result<seq<ItemData>, DuplicateMenu>)
    ensures r.Success? <==> DistinctMenus(value)
    ensures r.Success? ==> r.value == value
  {
    var seenMenus: set<MenuId> := {};
    var k := 0;
    while k < |value|
      invariant 0 <= k <= |value|
      invariant seenMenus == set i | 0 <= i < k :: value[i].menu
      invariant DistinctMenus(value[..k])
    {
      var menuId := value[k].menu;
      if menuId in seenMenus {
        return Failure(DuplicateMenu);
      }
      seenMenus := seenMenus + {menuId};
      k := k + 1;
      assert forall i :: 0 <= i < k - 1 ==> value[..k][i] == value[..k - 1][i];
    }
    assert value[..k] == value;
    return Success(value);
  }

  /** The sum of quantity times price over the items. */
  function ItemsTotal(items: seq<ItemData>): real
    decreases |items|
  {
    if |items| == 0 then 0.0
    else ItemsTotal(items[..|items| - 1]) + items[|items| - 1].quantity as real * items[|items| - 1].price
  }

  /** The total of two lists of items put together is the sum of their totals. */
  lemma {:induction false} ItemsTotalAppend(a: seq<ItemData>, b: seq<ItemData>)
    ensures ItemsTotal(a + b) == ItemsTotal(a) + ItemsTotal(b)
    decreases |b|
  {
    if |b| > 0 {
      var ab := a + b;
      assert ab[..|ab| - 1] == a + b[..|b| - 1];
      assert ab[|ab| - 1] == b[|b| - 1];
      ItemsTotalAppend(a, b[..|b| - 1]);
    } else {
      assert a + b == a;
    }
  }

  /** Items that passed validation add up to a positive total unless there are none. */
  lemma {:induction false} ItemsTotalPositive(items: seq<ItemData>)
    requires forall i :: 0 <= i < |items| ==> CleanOrderItem(items[i].quantity, items[i].price).None?
    ensures |items| == 0 ==> ItemsTotal(items) == 0.0
    ensures |items| > 0 ==> ItemsTotal(items) > 0.0
    decreases |items|
  {
    if |items| > 0 {
      var last := items[|items| - 1];
      assert CleanOrderItem(last.quantity, last.price).None?;
      assert last.quantity as real >= 1.0 && last.price > 0.0;
      assert last.quantity as real * last.price > 0.0;
      ItemsTotalPositive(items[..|items| - 1]);
    }
  }

  /** The menus the items name. */
  function MenusOf(items: seq<ItemData>): set<MenuId> {
    set i | 0 <= i < |items| :: items[i].menu
  }

  /** A menu is among the items' menus exactly when some item names it. */
  lemma MenusOfMembers(items: seq<ItemData>, m: MenuId)
    ensures m in MenusOf(items) <==> exists i :: 0 <= i < |items| && items[i].menu == m
  {
  }

  /** One more item keeps the menus distinct exactly when its menu is new. */
  lemma DistinctMenusSnoc(items: seq<ItemData>, item: ItemData)
    ensures DistinctMenus(items + [item]) <==> DistinctMenus(items) && item.menu !in MenusOf(items)
  {
    MenusOfMembers(items, item.menu);
    var s := items + [item];
    if DistinctMenus(s) {
      assert forall i, j :: 0 <= i < j < |items| ==> items[i] == s[i] && items[j] == s[j];
      assert forall i :: 0 <= i < |items| ==> items[i] == s[i] && s[|items|] == item;
    }
  }

  /** An order as `OrderSerializer` leaves it. `items` are the `OrderItem`
      rows that point at it, in creation order. `totalPrice` is the
      `total_price` attribute the serializer sets on the instance (None
      while it has not set one). */
  class Order {
    var customer: string
    var vendor: VendorId
    var status: string
    var notes: Option<string>
    var items: seq<ItemData>
    var totalPrice: Option<real>

    /** `unique_together = ("order", "menu")`: the order's items name
        distinct menus. */
    predicate Valid()
      reads this
    {
      DistinctMenus(items)
    }

    /** `Order.objects.create(**validated_data)`: no items yet, no total
        set, and the status defaults to pending. */
    constructor (customer: string, vendor: VendorId, status: Option<string>, notes: Option<string>)
      ensures Valid()
      ensures this.customer == customer && this.vendor == vendor && this.notes == notes
      ensures this.status == status.GetOr(StatusKey(DefaultStatus))
      ensures items == [] && totalPrice == None
    {
      this.customer := customer;
      this.vendor := vendor;
      this.status := status.GetOr(StatusKey(DefaultStatus));
      this.notes := notes;
      items := [];
      totalPrice := None;
    }

    /** The loop shared by the serializers' `create` and `update`: one
        `OrderItem.objects.create` per entry, adding quantity times price to
        the running total. The database refuses an item whose menu the
        order already has: the loop stops there with an IntegrityError, and
        the items created before it stay. */
    method AddItems(itemsData: seq<ItemData>) returns (r: Result<real, IntegrityError>)
      requires Valid()
      modifies this`items
      ensures Valid()
      ensures r.Success? <==> DistinctMenus(old(items) + itemsData)
      ensures r.Success? ==> items == old(items) + itemsData && r.value == ItemsTotal(itemsData)
      ensures r.Failure? ==>
        var k := |items| - |old(items)|;
        0 <= k < |itemsData| && items == old(items) + itemsData[..k] && itemsData[k].menu in MenusOf(items)
    {
      var total := 0.0;
      var k := 0;
      while k < |itemsData|
        invariant 0 <= k <= |itemsData|
        invariant items == old(items) + itemsData[..k]
        invariant DistinctMenus(items)
        invariant total == ItemsTotal(itemsData[..k])
      {
        var itemData := itemsData[k];
        DistinctMenusSnoc(items, itemData);
        if itemData.menu in MenusOf(items) {
          assert itemsData[..k + 1] == itemsData[..k] + [itemData];
          assert old(items) + itemsData[..k + 1] == items + [itemData];
          NoDistinctExtension(old(items) + itemsData[..k + 1], itemsData[k + 1..]);
          assert old(items) + itemsData[..k + 1] + itemsData[k + 1..] == old(items) + itemsData;
          return Failure(IntegrityError);
        }
        items := items + [itemData];
        assert itemsData[..k + 1][..k] == itemsData[..k];
        assert itemsData[..k + 1] == itemsData[..k] + [itemData];
        total := total + itemData.quantity as real * itemData.price;
        k := k + 1;
      }
      assert itemsData[..k] == itemsData;
      return Success(total);
    }

    /** `OrderSerializer.update`: a field left out of the request keeps its
        value. Without `items` the items and the total are untouched; with
        them the old items are deleted and the total is recomputed from the
        new list alone. `validate_items` has made the new items' menus
        distinct. */
    method Update(customer: Option<string>, vendor: Option<VendorId>, status: Option<string>,
                  notes: Option<Option<string>>, itemsData: Option<seq<ItemData>>)
      requires Valid()
      requires itemsData.Some? ==> DistinctMenus(itemsData.value)
      modifies this
      ensures Valid()
      ensures this.customer == customer.GetOr(old(this.customer))
      ensures this.vendor == vendor.GetOr(old(this.vendor))
      ensures this.status == status.GetOr(old(this.status))
      ensures this.notes == notes.GetOr(old(this.notes))
      ensures itemsData.None? ==> items == old(items) && totalPrice == old(totalPrice)
      ensures itemsData.Some? ==> items == itemsData.value && totalPrice == Some(ItemsTotal(itemsData.value))
    {
      this.customer := customer.GetOr(this.customer);
      this.vendor := vendor.GetOr(this.vendor);
      this.status := status.GetOr(this.status);
      this.notes := notes.GetOr(this.notes);
      if itemsData.Some? {
        items := [];
        assert [] + itemsData.value == itemsData.value;
        var total := AddItems(itemsData.value);
        totalPrice := Some(total.value);
      }
    }
  }

  /** The `OrderItem` rows of `order` whose entries are `items`. */
  function RowsOf(order: OrderId, items: seq<ItemData>): (r: seq<OrderItemRow>)
    ensures |r| == |items|
    ensures forall i :: 0 <= i < |r| ==> r[i] == OrderItemRow(order, items[i].menu, items[i].quantity, items[i].price)
  {
    seq(|items|, i requires 0 <= i < |items| => OrderItemRow(order, items[i].menu, items[i].quantity, items[i].price))
  }

  /** The loop's menu check is the table's `unique_together` constraint:
      with the rows of other orders in the table as well, inserting an item
      of `order` succeeds exactly when the order has no item for its menu. */
  lemma MenuCheckIsTheConstraint(others: seq<OrderItemRow>, order: OrderId, items: seq<ItemData>, item: ItemData)
    requires forall i :: 0 <= i < |others| ==> others[i].order != order
    ensures InsertOrderItem(others + RowsOf(order, items), RowsOf(order, [item])[0]).Success? <==>
      item.menu !in MenusOf(items)
  {
    var rows := others + RowsOf(order, items);
    var row := RowsOf(order, [item])[0];
    MenusOfMembers(items, item.menu);
    if item.menu in MenusOf(items) {
      var j :| 0 <= j < |items| && items[j].menu == item.menu;
      assert rows[|others| + j] == RowsOf(order, items)[j];
    } else {
      forall i | 0 <= i < |rows|
        ensures (rows[i].order, rows[i].menu) != (row.order, row.menu)
      {
        if i >= |others| {
          assert rows[i] == RowsOf(order, items)[i - |others|];
        }
      }
    }
  }

  /** A list whose menus repeat stays so whatever follows it. */
  lemma NoDistinctExtension(a: seq<ItemData>, b: seq<ItemData>)
    requires !DistinctMenus(a)
    ensures !DistinctMenus(a + b)
  {
    var i, j :| 0 <= i < j < |a| && a[i].menu == a[j].menu;
    assert (a + b)[i] == a[i] && (a + b)[j] == a[j];
  }

  /** `OrderSerializer.create`: the order, one item per entry, and the
      total. `validate_items` has made the entries' menus distinct. */
  method CreateOrder(customer: string, vendor: VendorId, status: Option<string>, notes: Option<string>,
                     itemsData: seq<ItemData>)
    returns (order: Order)
    requires DistinctMenus(itemsData)
    ensures fresh(order) && order.Valid()
    ensures order.customer == customer && order.vendor == vendor && order.notes == notes
    ensures order.status == status.GetOr(StatusKey(DefaultStatus))
    ensures order.items == itemsData
    ensures order.totalPrice == Some(ItemsTotal(itemsData))
  {
    order := new Order(customer, vendor, status, notes);
    ghost var before := order.items;
    assert before + itemsData == itemsData;
    var total := order.AddItems(itemsData);
    assert total.Success? && order.items == before + itemsData == itemsData;
    order.totalPrice := Some(total.value);
  }

  /** `OrderCreateSerializer.create`: the same order and items, but no
      total is set, and nothing checks the items' menus beforehand. The
      order row is created in any case; when a menu repeats, the
      IntegrityError ends the loop and the items before the repeat stay
      stored with it. */
  method CreateOrderWithoutTotal(customer: string, vendor: VendorId, status: Option<string>,
                                 notes: Option<string>, itemsData: seq<ItemData>)
    returns (order: Order, r: Result<(), IntegrityError>)
    ensures fresh(order) && order.Valid()
    ensures order.customer == customer && order.vendor == vendor && order.notes == notes
    ensures order.status == status.GetOr(StatusKey(DefaultStatus))
    ensures order.totalPrice == None
    ensures r.Success? <==> DistinctMenus(itemsData)
    ensures r.Success? ==> order.items == itemsData
    ensures r.Failure? ==>
      var k := |order.items|;
      k < |itemsData| && order.items == itemsData[..k] && itemsData[k].menu in MenusOf(order.items)
  {
    order := new Order(customer, vendor, status, notes);
    ghost var before := order.items;
    assert before + itemsData == itemsData;
    var added := order.AddItems(itemsData);
    if added.Success? {
      r := Success(());
    } else {
      ghost var k := |order.items| - |before|;
      assert before == [] && k == |order.items|;
      assert order.items == before + itemsData[..k] == itemsData[..k];
      r := Failure(IntegrityError);
    }
  }

  type RoleId = nat

  /** `RestaurantRole.objects.get(key=...)` found nothing. */
  datatype RoleLookupError = RoleDoesNotExist

  /** `RestaurantRole.objects.get(key=roleKey)`: `roles` maps each stored
      role's key (a unique column) to its id. */
  function LookupRole(roles: map<string, RoleId>, roleKey: string): (r: Result<RoleId, RoleLookupError>)
    ensures r.Success? <==> roleKey in roles
    ensures r.Success? ==> r.value == roles[roleKey]
  {
    if roleKey in roles then Success(roles[roleKey]) else Failure(RoleDoesNotExist)
  }

  /** A stored staff member. */
  class StaffMember {
    var vendor: VendorId
    var role: RoleId

    constructor (vendor: VendorId, role: RoleId)
      ensures this.vendor == vendor && this.role == role
    {
      this.vendor := vendor;
      this.role := role;
    }
  }

  /** `StaffManagementSerializer.create`: the role key from the request is
      replaced by the stored role with that key; an unknown key raises and
      nothing is created. */
  method CreateStaff(vendor: VendorId, roleKey: string, roles: map<string, RoleId>)
    returns (r: Result<StaffMember, RoleLookupError>)
    ensures r.Success? <==> roleKey in roles
    ensures r.Success? ==> fresh(r.value) && r.value.role == roles[roleKey] && r.value.vendor == vendor
  {
    var role := LookupRole(roles, roleKey);
    if role.Failure? {
      return Failure(role.error);
    }
    var staff := new StaffMember(vendor, role.value);
    return Success(staff);
  }

  /** `StaffManagementSerializer.update`: the role is looked up only when a
      role key is supplied; an unknown key raises before anything is
      assigned. Other supplied fields are assigned as given. */
  method UpdateStaff(staff: StaffMember, vendor: Option<VendorId>, roleKey: Option<string>,
                     roles: map<string, RoleId>)
    returns (r: Result<(), RoleLookupError>)
    modifies staff
    ensures r.Failure? <==> roleKey.Some? && roleKey.value !in roles
    ensures r.Failure? ==> staff.role == old(staff.role) && staff.vendor == old(staff.vendor)
    ensures r.Success? ==> staff.vendor == vendor.GetOr(old(staff.vendor))
    ensures r.Success? && roleKey.None? ==> staff.role == old(staff.role)
    ensures r.Success? && roleKey.Some? ==> staff.role == roles[roleKey.value]
  {
    if roleKey.Some? {
      var role := LookupRole(roles, roleKey.value);
      if role.Failure? {
        return Failure(role.error);
      }
      staff.role := role.value;
    }
    staff.vendor := vendor.GetOr(staff.vendor);
    return Success(());
  }
}

=== FILE: shop_manager_dashboard.dfy ===
/** The shop manager's dashboard: the combined loading and error state of
    its four queries, and the product, warehouse and low-stock KPIs. */
module ShopManagerDashboard {
  import opened Wrappers
  import opened Tables
  import opened Js

  /** A query's state as `useQueries` reports it. */
  datatype Query = Query(isLoading: bool, isError: bool, error: Value, data: Value)

  function Loading(): Query -> bool {
    (q: Query) => q.isLoading
  }

  function Failed(): Query -> bool {
    (q: Query) => q.isError
  }

  /** `results.some((q) => q.isLoading)`. */
  function AnyLoading(results: seq<Query>): (r: bool)
    ensures r <==> exists i :: 0 <= i < |results| && results[i].isLoading
  {
    Find(results, Loading()).Some?
  }

  /** `results.some((q) => q.isError)`. */
  function AnyError(results: seq<Query>): (r: bool)
    ensures r <==> exists i :: 0 <= i < |results| && results[i].isError
  {
    Find(results, Failed()).Some?
  }

  /** `results.find((q) => q.isError)?.error`: the error of the first
      failed query, `undefined` when none failed. */
  function FirstError(results: seq<Query>): (r: Value)
    ensures !AnyError(results) ==> r == Undefined
    ensures AnyError(results) ==>
      exists k :: (0 <= k < |results| && results[k].isError && r == results[k].error &&
                   forall i :: 0 <= i < k ==> !results[i].isError)
  {
    var found := Find(results, Failed());
    if found.Some? then
      FindIsFirst(results, Failed());
      found.value.error
    else Undefined
  }

  /** The limit below which a stock row is low. */
  const LowStockLimit := 10

  /** `item.quantity < 10`, with JavaScript's conversion of the quantity to a
      number: `null` and booleans become 0 or 1, `undefined` and objects
      become NaN, which is below nothing. */
  predicate IsLowStock(item: Value) {
    match Get(item, "quantity")
    case Num(n) => n < LowStockLimit
    case Null => true
    case Bool(_) => true
    case _ => false
  }

  function LowStock(): Value -> bool {
    (item: Value) => IsLowStock(item)
  }

  datatype ShopKpis = ShopKpis(totalProducts: nat, totalWarehouses: nat, lowStockItems: nat)

  /** The three KPIs from the product, stock and warehouse lists, each
      loaded or not yet. */
  function Kpis(products: Value, stockList: Value, warehouses: Value): (k: ShopKpis)
    requires products.Arr? || Nullish(products)
    requires stockList.Arr? || Nullish(stockList)
    requires warehouses.Arr? || Nullish(warehouses)
    ensures k.totalProducts == LengthOrZero(products)
    ensures k.totalWarehouses == LengthOrZero(warehouses)
    ensures k.lowStockItems <= LengthOrZero(stockList)
    ensures Nullish(stockList) ==> k.lowStockItems == 0
  {
    ShopKpis(LengthOrZero(products), LengthOrZero(warehouses),
             if stockList.Arr? then Count(stockList.items, LowStock()) else 0)
  }

  /** A stock row with a numeric quantity adds to the low-stock count
      exactly when the quantity is below 10: one of exactly 10 does not. */
  lemma StockRowAdded(rows: seq<Value>, item: Value, quantity: int)
    requires Get(item, "quantity") == Num(quantity)
    ensures Kpis(Null, Arr(rows + [item]), Null).lowStockItems ==
            Kpis(Null, Arr(rows), Null).lowStockItems + (if quantity < 10 then 1 else 0)
  {
    CountAppend(rows, [item], LowStock());
    assert [item][1..] == [];
  }

  /** A row holding ten or more units, ten itself included, is not low stock. */
  lemma TenIsNotLow(rows: seq<Value>, quantity: int)
    requires quantity >= 10
    ensures Kpis(Null, Arr(rows + [Obj([Entry("quantity", Num(quantity))])]), Null).lowStockItems ==
            Kpis(Null, Arr(rows), Null).lowStockItems
  {
    StockRowAdded(rows, Obj([Entry("quantity", Num(quantity))]), quantity);
  }
}

=== FILE: sidebar.dfy ===
/** `Sidebar`: the entries of `navigationConfig` the signed-in user may see,
    and the sign-out button. */
module Sidebar {
  import opened Text
  import opened Tables
  import opened Js
  import opened AuthSlice
  import opened NavigationConfig

  /** `user.role ? user.role.toLowerCase() : ""`. */
  function UserRole(user: Value): (r: string)
    ensures Truthy(Get(user, "role")) && Get(user, "role").Str? ==> r == AsciiLower(Get(user, "role").s)
    ensures !Truthy(Get(user, "role")) ==> r == ""
  {
    var role := Get(user, "role");
    if Truthy(role) && role.Str? then AsciiLower(role.s) else ""
  }

  /** `user.business_type || ""`: a truthy value as it is, else "". */
  function UserBusiness(user: Value): (r: Value)
    ensures Truthy(Get(user, "business_type")) ==> r == Get(user, "business_type")
    ensures !Truthy(Get(user, "business_type")) ==> r == Str("")
  {
    var business := Get(user, "business_type");
    if Truthy(business) then business else Str("")
  }

  /** The filter's predicate for one entry. */
  predicate Visible(user: Value, item: NavItem) {
    && Truthy(user)
    && (|item.roles| == 0 || UserRole(user) in item.roles)
    && (|item.businessTypes| == 0 || (UserBusiness(user).Str? && UserBusiness(user).s in item.businessTypes))
  }

  function VisibleTo(user: Value): NavItem -> bool {
    item => Visible(user, item)
  }

  /** `accessibleRoutes`: the entries the user may see, in the table's order. */
  function AccessibleRoutes(user: Value): (r: seq<NavItem>)
    ensures SubsequenceOf(r, Navigation)
    ensures forall i :: 0 <= i < |Navigation| ==> (Navigation[i] in r <==> Visible(user, Navigation[i]))
    ensures !Truthy(user) ==> r == []
  {
    FilterIsSubsequence(Navigation, VisibleTo(user));
    if !Truthy(user) then
      assert forall i :: 0 <= i < |Navigation| ==> !VisibleTo(user)(Navigation[i]);
      FilterNone(Navigation, VisibleTo(user));
      Filter(Navigation, VisibleTo(user))
    else
      Filter(Navigation, VisibleTo(user))
  }

  lemma {:induction false} FilterNone<R>(rows: seq<R>, p: R -> bool)
    requires forall i :: 0 <= i < |rows| ==> !p(rows[i])
    ensures Filter(rows, p) == []
  {
    if |rows| > 0 {
      FilterNone(rows[1..], p);
    }
  }

  /** An entry open to all roles and all business types is seen by every
      signed-in user. */
  lemma OpenEntryAlwaysVisible(user: Value)
    requires Truthy(user)
    ensures MyProfile in AccessibleRoutes(user)
  {
    assert Navigation[7] == MyProfile;
  }

  /** A role listed in no entry with roles sees only the entries open to all roles. */
  lemma {:induction false} UnlistedRoleHidden(user: Value, i: nat)
    requires i < |Navigation| && Navigation[i].roles != []
    requires UserRole(user) == "cashier" || UserRole(user) == "cleaner"
    ensures !Visible(user, Navigation[i])
  {
    CashierAndCleanerListedNowhere();
  }

  /** The rows a filter keeps when it keeps exactly one of them. */
  lemma {:induction false} FilterSingle<R>(front: seq<R>, x: R, back: seq<R>, p: R -> bool)
    requires forall i :: 0 <= i < |front| ==> !p(front[i])
    requires forall i :: 0 <= i < |back| ==> !p(back[i])
    requires p(x)
    ensures Filter(front + [x] + back, p) == [x]
  {
    FilterAppend(front + [x], back, p);
    FilterAppend(front, [x], p);
    FilterNone(front, p);
    FilterNone(back, p);
    FilterAll([x], p);
  }

  /** Text without an upper-case ASCII letter. */
  predicate NoUpper(s: string) {
    s == [] || (!('A' <= s[0] <= 'Z') && NoUpper(s[1..]))
  }

  /** Lower-casing leaves text without upper-case letters as it is. */
  lemma {:induction false} LowerOfNoUpper(s: string)
    requires NoUpper(s)
    ensures AsciiLower(s) == s
  {
    if s != [] {
      LowerOfNoUpper(s[1..]);
      assert AsciiLower(s) == [AsciiLowerChar(s[0])] + AsciiLower(s[1..]);
    }
  }

  /** The role names "cashier" and "cleaner" are already lower case. */
  lemma StaffRoleLowered(user: Value)
    requires Get(user, "role") == Str("cashier") || Get(user, "role") == Str("cleaner")
    ensures UserRole(user) == "cashier" || UserRole(user) == "cleaner"
  {
    LowerOfNoUpper(Get(user, "role").s);
  }

  /** A signed-in user whose role, as the sidebar reads it, is in no entry's
      role list sees exactly the entry open to every role. */
  lemma {:induction false} OnlyProfileFor(user: Value)
    requires Truthy(user)
    requires forall i :: 0 <= i < |Navigation| ==> UserRole(user) !in Navigation[i].roles
    ensures AccessibleRoutes(user) == [MyProfile]
  {
    var p := VisibleTo(user);
    ProfileIsTheOnlyEntryForAllRoles();
    var front := Navigation[..7];
    forall i | 0 <= i < |front| ensures !p(front[i]) {
      assert front[i] == Navigation[i];
    }
    assert !p(Navigation[8]);
    assert Navigation == front + [MyProfile] + [AdminSettings];
    FilterSingle(front, MyProfile, [AdminSettings], p);
  }

  /** A cashier or a cleaner, whatever the business, sees only "My Profile". */
  lemma CashierSeesOnlyProfile(user: Value)
    requires Truthy(user)
    requires Get(user, "role") == Str("cashier") || Get(user, "role") == Str("cleaner")
    ensures AccessibleRoutes(user) == [MyProfile]
  {
    StaffRoleLowered(user);
    CashierAndCleanerListedNowhere();
    OnlyProfileFor(user);
  }

  /** A user whose `role` is missing, or otherwise falsy, matches no role
      list, so of all entries only "My Profile" is shown. */
  lemma RolelessSeesOnlyProfile(user: Value)
    requires Truthy(user) && !Truthy(Get(user, "role"))
    ensures AccessibleRoutes(user) == [MyProfile]
  {
    NoEmptyRole();
    OnlyProfileFor(user);
  }

  /** `handleLogout`: sign out, then go to the sign-in page. */
  method HandleLogout(auth: AuthState, storage: LocalStorage) returns (navigatedTo: string)
    modifies auth, storage
    ensures auth.IsInitial()
    ensures storage.items == old(storage.items) - {AccessTokenKey, RefreshTokenKey}
    ensures navigatedTo == "/login"
  {
    auth.Logout(storage);
    navigatedTo := "/login";
  }
}

=== FILE: staff_form_modal.dfy ===
/** `StaffFormModal`: which users may be added as staff, which user an edit
    shows, the form's initial values, and the payload it submits. */
module StaffFormModal {
  import opened Wrappers
  import opened Tables
  import opened Js

  /** The user ids already on the staff list: every entry's `user`. */
  function StaffUserIds(staff: seq<Value>): (r: set<Value>)
    ensures forall v :: v in r <==> exists i :: 0 <= i < |staff| && Get(staff[i], "user") == v
  {
    set i | 0 <= i < |staff| :: Get(staff[i], "user")
  }

  function NotOnStaff(ids: set<Value>): Value -> bool {
    u => Get(u, "id") !in ids
  }

  /** `availableUsers`. The user list and the staff list are arrays once
      loaded (`filter` and `map` are called on them). */
  function AvailableUsers(allUsers: Value, staffList: Value, isEditMode: bool): (r: Value)
    requires !Truthy(allUsers) || allUsers.Arr?
    requires !Truthy(staffList) || staffList.Arr?
    ensures !Truthy(allUsers) ==> r == Arr([])
    ensures Truthy(allUsers) && (isEditMode || !Truthy(staffList)) ==> r == allUsers
    ensures Truthy(allUsers) && !isEditMode && Truthy(staffList) ==>
      && r.Arr?
      && SubsequenceOf(r.items, allUsers.items)
      && (forall i :: 0 <= i < |allUsers.items| ==>
            (allUsers.items[i] in r.items <==>
             forall j :: 0 <= j < |staffList.items| ==> Get(staffList.items[j], "user") != Get(allUsers.items[i], "id")))
  {
    if !Truthy(allUsers) then Arr([])
    else if isEditMode || !Truthy(staffList) then allUsers
    else
      var ids := StaffUserIds(staffList.items);
      FilterIsSubsequence(allUsers.items, NotOnStaff(ids));
      Arr(Filter(allUsers.items, NotOnStaff(ids)))
  }

  /** `editModeUserDetails`: `null` unless editing with users loaded; then
      the first user whose id is the staff member's `user`, or `undefined`
      when there is none. */
  function EditModeUserDetails(isEditMode: bool, allUsers: Value, staffMember: Value): (r: Value)
    requires !Truthy(allUsers) || allUsers.Arr?
    ensures !isEditMode || !Truthy(allUsers) || !Truthy(staffMember) ==> r == Null
    ensures isEditMode && Truthy(allUsers) && Truthy(staffMember) ==>
      && ((forall i :: 0 <= i < |allUsers.items| ==> Get(allUsers.items[i], "id") != Get(staffMember, "user")) ==>
            r == Undefined)
      && ((exists i :: 0 <= i < |allUsers.items| && Get(allUsers.items[i], "id") == Get(staffMember, "user")) ==>
            exists k :: 0 <= k < |allUsers.items| && r == allUsers.items[k] &&
              Get(r, "id") == Get(staffMember, "user") &&
              forall i :: 0 <= i < k ==> Get(allUsers.items[i], "id") != Get(staffMember, "user"))
  {
    if !isEditMode || !Truthy(allUsers) || !Truthy(staffMember) then Null
    else
      var found := Find(allUsers.items, HasId(Get(staffMember, "user")));
      if found.Some? then
        FindIsFirst(allUsers.items, HasId(Get(staffMember, "user")));
        found.value
      else Undefined
  }

  function HasId(id: Value): Value -> bool {
    u => Get(u, "id") == id
  }

  /** The values the form is reset to: the member's user and role key when
      editing (`role?.key || role`), empty otherwise. */
  function ResetValues(isEditMode: bool, staffMember: Value): (r: seq<Entry>)
    ensures isEditMode && Truthy(staffMember) ==>
      && Lookup(r, "user") == Get(staffMember, "user")
      && (Truthy(Get(Get(staffMember, "role"), "key")) ==> Lookup(r, "role") == Get(Get(staffMember, "role"), "key"))
      && (!Truthy(Get(Get(staffMember, "role"), "key")) ==> Lookup(r, "role") == Get(staffMember, "role"))
    ensures !(isEditMode && Truthy(staffMember)) ==> Lookup(r, "user") == Str("") && Lookup(r, "role") == Str("")
  {
    assert "user" != "role" by { assert "user"[0] != "role"[0]; }
    if isEditMode && Truthy(staffMember) then
      var role := Get(staffMember, "role");
      var key := Get(role, "key");
      [Entry("user", Get(staffMember, "user")), Entry("role", if Truthy(key) then key else role)]
    else
      [Entry("user", Str("")), Entry("role", Str(""))]
  }

  /** `onSubmit`: an edit sends `{id: staffMember.id, ...data}`, a create the
      data alone. */
  function SubmitPayload(isEditMode: bool, staffMember: Value, data: seq<Entry>): (r: seq<Entry>)
    ensures !isEditMode ==> r == data
    ensures isEditMode && "id" !in Keys(data) ==> Lookup(r, "id") == Get(staffMember, "id")
    ensures isEditMode && DistinctKeys(data) ==> forall k :: k in Keys(data) ==> Lookup(r, k) == Lookup(data, k)
  {
    if isEditMode then
      SpreadSourceWins([Entry("id", Get(staffMember, "id"))], data);
      Spread([Entry("id", Get(staffMember, "id"))], data)
    else data
  }
}

=== FILE: subdomain_middleware.dfy ===
/** `SubdomainMiddleware.process_request`: the host without its port is
    split into dot-separated labels, and with more than two labels the
    first is the request's subdomain. */
module SubdomainMiddleware {
  import opened Wrappers
  import opened Text

  /** The subdomain a host header names. */
  function Subdomain(host: string): (r: Option<string>)
    ensures var labels := Split(FirstPiece(host, ':'), '.');
      (r.Some? <==> |labels| > 2) && (r.Some? ==> r.value == labels[0])
    ensures r.Some? ==> '.' !in r.value && ':' !in r.value
  {
    var hostname := FirstPiece(host, ':');
    var labels := Split(hostname, '.');
    if |labels| > 2 then
      SubdomainHasNoColon(hostname);
      Some(labels[0])
    else None
  }

  /** The first label of a host name without ":" has no ":" either. */
  lemma {:induction false} SubdomainHasNoColon(hostname: string)
    requires ':' !in hostname
    ensures ':' !in Split(hostname, '.')[0]
  {
    JoinSplit(hostname, '.');
    var labels := Split(hostname, '.');
    if |labels| > 1 {
      JoinPrefix(labels, '.');
    }
  }

  /** The first piece of a join is a prefix of it. */
  lemma {:induction false} JoinPrefix(ps: seq<string>, c: char)
    requires |ps| >= 1
    ensures |ps[0]| <= |Join(ps, c)| && Join(ps, c)[..|ps[0]|] == ps[0]
  {
    if |ps| > 1 {
      assert Join(ps, c) == ps[0] + [c] + Join(ps[1..], c);
    }
  }

  /** A host `sub.name.tld:port` gives the subdomain `sub`. */
  lemma ThreeLabels(sub: string, name: string, tld: string, port: string)
    requires '.' !in sub && '.' !in name && '.' !in tld
    requires ':' !in sub && ':' !in name && ':' !in tld
    ensures Subdomain(sub + "." + name + "." + tld + ":" + port) == Some(sub)
  {
    var hostname := sub + "." + name + "." + tld;
    assert sub + "." + name + "." + tld + ":" + port == hostname + [':'] + port;
    SplitAppend(hostname, port, ':');
    FirstPieceIsSplitHead(hostname + [':'] + port, ':');
    assert ':' !in hostname;
    assert hostname == sub + ['.'] + (name + ['.'] + tld);
    SplitAppend(sub, name + ['.'] + tld, '.');
    SplitAppend(name, tld, '.');
    SplitNoSeparator(tld, '.');
  }

  /** The request as the middleware leaves it. */
  class Request {
    const host: string
    var subdomain: Option<string>

    constructor (host: string)
      ensures this.host == host && subdomain == None
    {
      this.host := host;
      subdomain := None;
    }

    /** `process_request`: sets `request.subdomain` from the host. */
    method ProcessRequest()
      modifies this`subdomain
      ensures subdomain == Subdomain(host)
    {
      var hostname := FirstPiece(host, ':');
      var domainParts := Split(hostname, '.');
      if |domainParts| > 2 {
        SubdomainHasNoColon(hostname);
        subdomain := Some(domainParts[0]);
      } else {
        subdomain := None;
      }
    }
  }
}

=== FILE: tables.dfy ===
/** Database tables and JavaScript arrays as sequences: the ORM's `filter`
    and `Array.prototype.filter` (order-preserving selection), counting,
    `find` (first match), and the insert that a `unique_together`
    constraint guards. */
module Tables {
  import opened Wrappers

  /** `rows.filter(p)`: the rows satisfying `p`, in their original order. */
  function Filter<R>(rows: seq<R>, p: R -> bool): (r: seq<R>)
    ensures |r| <= |rows|
    ensures forall i :: 0 <= i < |r| ==> r[i] in rows && p(r[i])
    ensures forall i :: 0 <= i < |rows| && p(rows[i]) ==> rows[i] in r
    decreases |rows|
  {
    if |rows| == 0 then []
    else if p(rows[0]) then [rows[0]] + Filter(rows[1..], p)
    else Filter(rows[1..], p)
  }

  /** `a` can be obtained from `b` by deleting elements: same relative order. */
  predicate SubsequenceOf<R(==)>(a: seq<R>, b: seq<R>)
    decreases |b|
  {
    if |a| == 0 then true
    else if |b| == 0 then false
    else if a[0] == b[0] then SubsequenceOf(a[1..], b[1..])
    else SubsequenceOf(a, b[1..])
  }

  lemma {:induction false} FilterIsSubsequence<R>(rows: seq<R>, p: R -> bool)
    ensures SubsequenceOf(Filter(rows, p), rows)
    decreases |rows|
  {
    if |rows| > 0 {
      FilterIsSubsequence(rows[1..], p);
      if !p(rows[0]) {
        SubsequenceSkip(Filter(rows[1..], p), rows[0], rows[1..]);
      }
    }
  }

  lemma {:induction false} SubsequenceSkip<R>(a: seq<R>, x: R, b: seq<R>)
    requires SubsequenceOf(a, b)
    ensures SubsequenceOf(a, [x] + b)
    decreases |b|, 1
  {
    var xb := [x] + b;
    assert xb[1..] == b;
    if |a| > 0 && a[0] == x {
      assert |b| > 0;
      if a[0] == b[0] {
        SubsequenceSkip(a[1..], b[0], b[1..]);
        assert [b[0]] + b[1..] == b;
      } else {
        SubsequenceDrop(a, b);
      }
    }
  }

  /** Dropping the head of a subsequence keeps it a subsequence. */
  lemma {:induction false} SubsequenceDrop<R>(a: seq<R>, b: seq<R>)
    requires |a| > 0 && SubsequenceOf(a, b)
    ensures SubsequenceOf(a[1..], b)
    decreases |b|, 0
  {
    assert |b| > 0;
    if a[0] == b[0] {
      SubsequenceSkip(a[1..], b[0], b[1..]);
      assert [b[0]] + b[1..] == b;
    } else {
      SubsequenceDrop(a, b[1..]);
      SubsequenceSkip(a[1..], b[0], b[1..]);
      assert [b[0]] + b[1..] == b;
    }
  }

  /** Filtering keeps exactly the rows that satisfy `p`, position by position. */
  lemma {:induction false} FilterAll<R>(rows: seq<R>, p: R -> bool)
    requires forall i :: 0 <= i < |rows| ==> p(rows[i])
    ensures Filter(rows, p) == rows
    decreases |rows|
  {
    if |rows| > 0 {
      FilterAll(rows[1..], p);
      assert [rows[0]] + rows[1..] == rows;
    }
  }

  lemma {:induction false} FilterAppend<R>(a: seq<R>, b: seq<R>, p: R -> bool)
    ensures Filter(a + b, p) == Filter(a, p) + Filter(b, p)
    decreases |a|
  {
    if |a| > 0 {
      assert (a + b)[1..] == a[1..] + b;
      FilterAppend(a[1..], b, p);
    } else {
      assert a + b == b;
    }
  }

  /** Two predicates that agree on every row select the same rows. */
  lemma {:induction false} FilterSame<R>(rows: seq<R>, p: R -> bool, q: R -> bool)
    requires forall i :: 0 <= i < |rows| ==> p(rows[i]) == q(rows[i])
    ensures Filter(rows, p) == Filter(rows, q)
    decreases |rows|
  {
    if |rows| > 0 {
      FilterSame(rows[1..], p, q);
    }
  }

  /** Filtering twice keeps the rows that satisfy both predicates, in order:
      the rows a predicate `both` selects when it holds exactly where both do. */
  lemma {:induction false} FilterTwice<R>(rows: seq<R>, p: R -> bool, q: R -> bool, both: R -> bool)
    requires forall i :: 0 <= i < |rows| ==> both(rows[i]) == (p(rows[i]) && q(rows[i]))
    ensures Filter(Filter(rows, p), q) == Filter(rows, both)
    decreases |rows|
  {
    if |rows| > 0 {
      FilterTwice(rows[1..], p, q, both);
      if p(rows[0]) {
        var f := Filter(rows, p);
        assert f[0] == rows[0] && f[1..] == Filter(rows[1..], p);
      }
    }
  }

  /** `rows.filter(p).length`. */
  function Count<R>(rows: seq<R>, p: R -> bool): (n: nat)
    ensures n <= |rows|
  {
    |Filter(rows, p)|
  }

  /** Counting over two stretches of rows adds up. */
  lemma CountAppend<R>(a: seq<R>, b: seq<R>, p: R -> bool)
    ensures Count(a + b, p) == Count(a, p) + Count(b, p)
  {
    FilterAppend(a, b, p);
  }

  /** Two predicates that never hold together select at most all rows between them. */
  lemma {:induction false} CountDisjoint<R>(rows: seq<R>, p: R -> bool, q: R -> bool)
    requires forall x :: !(p(x) && q(x))
    ensures Count(rows, p) + Count(rows, q) <= |rows|
    decreases |rows|
  {
    if |rows| > 0 {
      CountDisjoint(rows[1..], p, q);
    }
  }

  /** `rows.find(p)`: the first row satisfying `p`, if any. */
  function Find<R>(rows: seq<R>, p: R -> bool): (r: Option<R>)
    ensures r.Some? ==> r.value in rows && p(r.value)
    ensures r.None? <==> forall i :: 0 <= i < |rows| ==> !p(rows[i])
    decreases |rows|
  {
    if |rows| == 0 then None
    else if p(rows[0]) then Some(rows[0])
    else Find(rows[1..], p)
  }

  /** The row `Find` returns comes before every other row satisfying `p`. */
  lemma {:induction false} FindIsFirst<R>(rows: seq<R>, p: R -> bool)
    requires Find(rows, p).Some?
    ensures exists k :: 0 <= k < |rows| && rows[k] == Find(rows, p).value &&
                        forall i :: 0 <= i < k ==> !p(rows[i])
    decreases |rows|
  {
    if !p(rows[0]) {
      FindIsFirst(rows[1..], p);
      var k :| 0 <= k < |rows[1..]| && rows[1..][k] == Find(rows, p).value &&
                forall i :: 0 <= i < k ==> !p(rows[1..][i]);
      assert rows[k + 1] == Find(rows, p).value;
      forall i | 0 <= i < k + 1 ensures !p(rows[i]) {
        if i > 0 { assert rows[i] == rows[1..][i - 1]; }
      }
    } else {
      assert rows[0] == Find(rows, p).value;
    }
  }

  /** No two rows share a key: what a `unique_together` constraint maintains. */
  predicate UniqueBy<R, K(==)>(rows: seq<R>, key: R -> K) {
    forall i, j :: 0 <= i < j < |rows| ==> key(rows[i]) != key(rows[j])
  }

  datatype IntegrityError = IntegrityError

  /** An INSERT into a table with a uniqueness constraint on `key`: refused
      with an IntegrityError when a stored row already has the new row's key. */
  function InsertUnique<R, K(==)>(rows: seq<R>, row: R, key: R -> K): (r: Result<seq<R>, IntegrityError>)
    ensures r.Success? <==> forall i :: 0 <= i < |rows| ==> key(rows[i]) != key(row)
    ensures r.Success? ==> r.value == rows + [row]
    ensures r.Failure? ==> exists i :: 0 <= i < |rows| && key(rows[i]) == key(row)
    ensures UniqueBy(rows, key) && r.Success? ==> UniqueBy(r.value, key)
  {
    if exists i :: 0 <= i < |rows| && key(rows[i]) == key(row) then Failure(IntegrityError)
    else Success(rows + [row])
  }
}

=== FILE: tenancy.dfy ===
/** Vendor tenancy: every row that a vendor owns carries the vendor's id, and
    the viewsets stamp it from the requesting user (`request.user.vendor`)
    and scope their querysets by it. A user without a vendor makes the
    one-to-one accessor raise. */
module Tenancy {
  import opened Wrappers
  import opened Tables

  type VendorId = nat

  /** A row as stored: the validated data together with its owning vendor. */
  datatype Owned<T> = Owned(data: T, vendor: VendorId)

  /** Accessing `request.user.vendor` on a user who owns no vendor. */
  datatype NoVendor = VendorDoesNotExist

  /** `serializer.save(vendor=request.user.vendor)`: the saved row carries the
      requester's vendor whatever the request body said; a requester with no
      vendor raises before anything is saved. */
  function StampVendor<T>(data: T, userVendor: Option<VendorId>): (r: Result<Owned<T>, NoVendor>)
    ensures r.Success? <==> userVendor.Some?
    ensures r.Success? ==> r.value.vendor == userVendor.value && r.value.data == data
  {
    match userVendor
    case None => Failure(VendorDoesNotExist)
    case Some(v) => Success(Owned(data, v))
  }

  /** The WHERE of `Model.objects.filter(vendor=request.user.vendor)`:
      exactly the requester's rows, taken from the table without reordering.
      The order a listing is returned in is the model's `Meta.ordering`,
      which is applied after this and not modelled. */
  function ScopedRows<T>(rows: seq<Owned<T>>, userVendor: Option<VendorId>): (r: Result<seq<Owned<T>>, NoVendor>)
    ensures r.Success? <==> userVendor.Some?
    ensures r.Success? ==> forall i :: 0 <= i < |r.value| ==> r.value[i].vendor == userVendor.value
    ensures r.Success? ==> forall i :: 0 <= i < |rows| && rows[i].vendor == userVendor.value ==> rows[i] in r.value
    ensures r.Success? ==> SubsequenceOf(r.value, rows)
  {
    match userVendor
    case None => Failure(VendorDoesNotExist)
    case Some(v) =>
      FilterIsSubsequence(rows, (o: Owned<T>) => o.vendor == v);
      Success(Filter(rows, (o: Owned<T>) => o.vendor == v))
  }

  /** A row created through a viewset is visible in the same requester's
      scoped listing once it is stored. */
  lemma {:induction false} StampedRowIsListed<T>(rows: seq<Owned<T>>, data: T, userVendor: Option<VendorId>)
    requires userVendor.Some?
    ensures StampVendor(data, userVendor).Success?
    ensures StampVendor(data, userVendor).value in ScopedRows(rows + [StampVendor(data, userVendor).value], userVendor).value
  {
    var row := StampVendor(data, userVendor).value;
    var all := rows + [row];
    assert all[|rows|] == row;
  }
}

=== FILE: text.dfy ===
/** String helpers shared by the backend and the client: splitting on one
    separator character (Python's `str.split(sep)` and JavaScript's
    `String.prototype.split(sep)` agree for a one-character separator),
    joining, ASCII case mapping, and decimal rendering and parsing of
    integers (Python's `str(n)`/`int(s)`, JavaScript's `String(n)`). */
module Text {
  import opened Wrappers

  /** `s.split(c)`: the maximal pieces between occurrences of `c`, always at
      least one piece, none containing `c`. */
  function Split(s: string, c: char): (r: seq<string>)
    ensures |r| >= 1
    ensures forall i :: 0 <= i < |r| ==> c !in r[i]
    ensures |r| == 1 <==> c !in s
    decreases |s|
  {
    if |s| == 0 then [""]
    else
      var rest := Split(s[1..], c);
      if s[0] == c then [""] + rest
      else [[s[0]] + rest[0]] + rest[1..]
  }

  /** `c.join(pieces)` / `pieces.join(c)` for a non-empty list of pieces. */
  function Join(pieces: seq<string>, c: char): string
    requires |pieces| >= 1
    decreases |pieces|
  {
    if |pieces| == 1 then pieces[0] else pieces[0] + [c] + Join(pieces[1..], c)
  }

  lemma {:induction false} JoinPrepend(x: string, ps: seq<string>, c: char)
    requires |ps| >= 1
    ensures Join([x + ps[0]] + ps[1..], c) == x + Join(ps, c)
  {
    var qs := [x + ps[0]] + ps[1..];
    if |ps| > 1 {
      assert qs[1..] == ps[1..];
    }
  }

  /** Joining one more piece on the end appends a separator and the piece. */
  lemma {:induction false} JoinSnoc(ps: seq<string>, x: string, c: char)
    requires |ps| >= 1
    ensures Join(ps + [x], c) == Join(ps, c) + [c] + x
    decreases |ps|
  {
    var qs := ps + [x];
    if |ps| > 1 {
      assert qs[1..] == ps[1..] + [x];
      JoinSnoc(ps[1..], x, c);
    } else {
      assert qs[1..] == [x];
    }
  }

  /** Joining the pieces of a split gives back the original string. */
  lemma {:induction false} JoinSplit(s: string, c: char)
    ensures Join(Split(s, c), c) == s
    decreases |s|
  {
    if |s| > 0 {
      var rest := Split(s[1..], c);
      JoinSplit(s[1..], c);
      if s[0] == c {
        assert ([""] + rest)[1..] == rest;
        assert Join([""] + rest, c) == "" + [c] + Join(rest, c);
      } else {
        JoinPrepend([s[0]], rest, c);
        assert [s[0]] + rest[0] == [s[0]] + rest[0];
      }
      assert s == [s[0]] + s[1..];
    }
  }

  lemma {:induction false} SplitNoSeparator(p: string, c: char)
    requires c !in p
    ensures Split(p, c) == [p]
  {
    // Split's own contract: one piece exactly when c does not occur
    assert |Split(p, c)| == 1;
    JoinSplit(p, c);
  }

  lemma {:induction false} SplitAppend(p: string, rest: string, c: char)
    requires c !in p
    ensures Split(p + [c] + rest, c) == [p] + Split(rest, c)
    decreases |p|
  {
    var s := p + [c] + rest;
    if |p| == 0 {
      assert s[0] == c && s[1..] == rest;
    } else {
      assert s[0] == p[0] && s[1..] == p[1..] + [c] + rest;
      SplitAppend(p[1..], rest, c);
      assert [p[0]] + p[1..] == p;
    }
  }

  /** Splitting at a separator placed between two strings splits each part
      on its own. */
  lemma {:induction false} SplitConcat(p: string, rest: string, c: char)
    ensures Split(p + [c] + rest, c) == Split(p, c) + Split(rest, c)
    decreases |p|
  {
    var s := p + [c] + rest;
    if |p| == 0 {
      assert s[0] == c && s[1..] == rest;
    } else {
      assert s[0] == p[0] && s[1..] == p[1..] + [c] + rest;
      SplitConcat(p[1..], rest, c);
    }
  }

  /** Splitting a join of separator-free pieces gives back the pieces. */
  lemma {:induction false} SplitJoin(ps: seq<string>, c: char)
    requires |ps| >= 1
    requires forall i :: 0 <= i < |ps| ==> c !in ps[i]
    ensures Split(Join(ps, c), c) == ps
    decreases |ps|
  {
    if |ps| == 1 {
      SplitNoSeparator(ps[0], c);
    } else {
      SplitJoin(ps[1..], c);
      SplitAppend(ps[0], Join(ps[1..], c), c);
      assert [ps[0]] + ps[1..] == ps;
    }
  }

  /** The last piece of a split: `s.split(c)[-1]`. */
  function LastPiece(s: string, c: char): (r: string)
    ensures c !in r
    ensures c !in s ==> r == s
  {
    var ps := Split(s, c);
    if c !in s then SplitNoSeparator(s, c); ps[0] else ps[|ps| - 1]
  }

  /** The first piece of a split: `s.split(c)[0]`. */
  function FirstPiece(s: string, c: char): (r: string)
    ensures c !in r
    ensures c !in s ==> r == s
  {
    if c !in s then SplitNoSeparator(s, c); s else Split(s, c)[0]
  }

  /** The first piece is the head of the split. */
  lemma FirstPieceIsSplitHead(s: string, c: char)
    ensures FirstPiece(s, c) == Split(s, c)[0]
  {
    if c !in s {
      SplitNoSeparator(s, c);
    }
  }

  /** The first piece is the part of `s` before the first separator. */
  lemma {:induction false} FirstPieceIsPrefix(s: string, c: char)
    ensures |FirstPiece(s, c)| <= |s| && FirstPiece(s, c) == s[..|FirstPiece(s, c)|]
    ensures |FirstPiece(s, c)| < |s| ==> s[|FirstPiece(s, c)|] == c
    decreases |s|
  {
    FirstPieceIsSplitHead(s, c);
    if |s| > 0 {
      FirstPieceIsSplitHead(s[1..], c);
      if s[0] != c {
        FirstPieceIsPrefix(s[1..], c);
        var r := FirstPiece(s[1..], c);
        assert FirstPiece(s, c) == [s[0]] + r;
        assert s[..|r| + 1] == [s[0]] + s[1..][..|r|];
      } else {
        assert FirstPiece(s, c) == "";
      }
    }
  }

  function AsciiLowerChar(ch: char): char {
    if 'A' <= ch <= 'Z' then (ch as int + 32) as char else ch
  }

  function AsciiUpperChar(ch: char): char {
    if 'a' <= ch <= 'z' then (ch as int - 32) as char else ch
  }

  /** `s.toLowerCase()` restricted to ASCII letters. */
  function AsciiLower(s: string): (r: string)
    ensures |r| == |s|
    ensures forall i :: 0 <= i < |s| ==> r[i] == AsciiLowerChar(s[i])
  {
    seq(|s|, i requires 0 <= i < |s| => AsciiLowerChar(s[i]))
  }

  /** `s.upper()` restricted to ASCII letters. */
  function AsciiUpper(s: string): (r: string)
    ensures |r| == |s|
    ensures forall i :: 0 <= i < |s| ==> r[i] == AsciiUpperChar(s[i])
  {
    seq(|s|, i requires 0 <= i < |s| => AsciiUpperChar(s[i]))
  }

  lemma {:induction false} AsciiLowerIdempotent(s: string)
    ensures AsciiLower(AsciiLower(s)) == AsciiLower(s)
  {
    var l := AsciiLower(s);
    forall i | 0 <= i < |s|
      ensures AsciiLowerChar(l[i]) == l[i]
    {
      assert l[i] == AsciiLowerChar(s[i]);
    }
  }

  predicate IsAsciiLetter(ch: char) {
    'a' <= ch <= 'z' || 'A' <= ch <= 'Z'
  }

  /** `s.title()` restricted to ASCII: a letter is upper-cased when the
      character before it is not a letter, and lower-cased otherwise. */
  function AsciiTitle(s: string): (r: string)
    ensures |r| == |s|
    ensures forall i :: 0 <= i < |s| ==>
      r[i] == if i > 0 && IsAsciiLetter(s[i - 1]) then AsciiLowerChar(s[i]) else AsciiUpperChar(s[i])
  {
    seq(|s|, i requires 0 <= i < |s| =>
      if i > 0 && IsAsciiLetter(s[i - 1]) then AsciiLowerChar(s[i]) else AsciiUpperChar(s[i]))
  }

  /** Title-casing keeps every character's letter-ness, so doing it twice
      changes nothing more. */
  lemma {:induction false} AsciiTitleIdempotent(s: string)
    ensures AsciiTitle(AsciiTitle(s)) == AsciiTitle(s)
  {
    var t := AsciiTitle(s);
    forall i | 0 <= i < |s|
      ensures IsAsciiLetter(t[i]) == IsAsciiLetter(s[i])
      ensures AsciiLowerChar(AsciiLowerChar(s[i])) == AsciiLowerChar(s[i])
      ensures AsciiUpperChar(AsciiUpperChar(s[i])) == AsciiUpperChar(s[i])
    {
    }
    forall i | 0 <= i < |s|
      ensures AsciiTitle(t)[i] == t[i]
    {
      if i > 0 && IsAsciiLetter(s[i - 1]) {
        assert IsAsciiLetter(t[i - 1]);
      } else if i > 0 {
        assert !IsAsciiLetter(t[i - 1]);
      }
    }
  }

  predicate IsDigit(ch: char) {
    '0' <= ch <= '9'
  }

  predicate IsDigits(s: string) {
    forall i :: 0 <= i < |s| ==> IsDigit(s[i])
  }

  function DigitChar(d: nat): (ch: char)
    requires d < 10
    ensures IsDigit(ch) && ch as int - '0' as int == d
  {
    ('0' as int + d) as char
  }

  /** `str(n)` for a non-negative integer: its decimal digits, no leading zero. */
  function NatToString(n: nat): (r: string)
    ensures |r| >= 1 && IsDigits(r)
    ensures n >= 10 ==> r[0] != '0'
    ensures n >= 10 ==> |r| == |NatToString(n / 10)| + 1
  {
    if n < 10 then [DigitChar(n)] else NatToString(n / 10) + [DigitChar(n % 10)]
  }

  /** The value of a string of decimal digits. */
  function DigitsValue(s: string): nat
    requires IsDigits(s)
  {
    if |s| == 0 then 0
    else DigitsValue(s[..|s| - 1]) * 10 + (s[|s| - 1] as int - '0' as int)
  }

  lemma {:induction false} DigitsValueOfNatToString(n: nat)
    ensures DigitsValue(NatToString(n)) == n
  {
    if n >= 10 {
      var r := NatToString(n);
      assert r[..|r| - 1] == NatToString(n / 10);
      DigitsValueOfNatToString(n / 10);
    }
  }

  /** A number from 1000 through 9999 is rendered with exactly four digits. */
  lemma FourDigits(n: nat)
    requires 1000 <= n <= 9999
    ensures |NatToString(n)| == 4
  {
    assert |NatToString(n / 1000)| == 1;
    assert |NatToString(n / 100)| == 2;
    assert |NatToString(n / 10)| == 3;
  }

  /** Python's `str.isspace()` for one character: the ASCII blanks and
      separators \t \n \v \f \r, the information separators 0x1C-0x1F,
      the space, and the Unicode spaces and line and paragraph separators. */
  predicate IsPySpace(ch: char) {
    ch == ' ' || '\t' <= ch <= '\r' || '\U{1C}' <= ch <= '\U{1F}' || ch == '\U{85}' || ch == '\U{A0}'
    || ch == '\U{1680}' || '\U{2000}' <= ch <= '\U{200A}' || ch == '\U{2028}' || ch == '\U{2029}'
    || ch == '\U{202F}' || ch == '\U{205F}' || ch == '\U{3000}'
  }

  /** No digit, sign or underscore is whitespace. */
  lemma NumeralIsNotSpace(ch: char)
    requires IsDigit(ch) || ch == '-' || ch == '+' || ch == '_'
    ensures !IsPySpace(ch)
  {
  }

  predicate AllSpace(s: string) {
    forall i :: 0 <= i < |s| ==> IsPySpace(s[i])
  }

  /** How many whitespace characters `s` starts with. */
  function LeadingSpace(s: string): (n: nat)
    ensures n <= |s|
    ensures forall i :: 0 <= i < n ==> IsPySpace(s[i])
    ensures n < |s| ==> !IsPySpace(s[n])
    decreases |s|
  {
    if |s| > 0 && IsPySpace(s[0]) then
      var m := LeadingSpace(s[1..]);
      assert forall i :: 1 <= i < 1 + m ==> s[i] == s[1..][i - 1];
      1 + m
    else 0
  }

  /** How many whitespace characters `s` ends with. */
  function TrailingSpace(s: string): (n: nat)
    ensures n <= |s|
    ensures forall i :: |s| - n <= i < |s| ==> IsPySpace(s[i])
    ensures n < |s| ==> !IsPySpace(s[|s| - 1 - n])
    decreases |s|
  {
    if |s| > 0 && IsPySpace(s[|s| - 1]) then
      var m := TrailingSpace(s[..|s| - 1]);
      assert forall i :: |s| - 1 - m <= i < |s| - 1 ==> s[i] == s[..|s| - 1][i];
      1 + m
    else 0
  }

  /** The leading-whitespace count is the one index where the whitespace
      run ends. */
  lemma LeadingSpaceIs(s: string, n: nat)
    requires n <= |s| && (forall i :: 0 <= i < n ==> IsPySpace(s[i])) && (n < |s| ==> !IsPySpace(s[n]))
    ensures LeadingSpace(s) == n
  {
    var m := LeadingSpace(s);
    if m < |s| {
      assert !IsPySpace(s[m]);
    }
    if n < |s| {
      assert !IsPySpace(s[n]);
    }
  }

  /** The trailing-whitespace count is the one index, from the end, where
      the whitespace run ends. */
  lemma TrailingSpaceIs(s: string, n: nat)
    requires n <= |s| && (forall i :: |s| - n <= i < |s| ==> IsPySpace(s[i]))
    requires n < |s| ==> !IsPySpace(s[|s| - 1 - n])
    ensures TrailingSpace(s) == n
  {
    var m := TrailingSpace(s);
    if m < |s| {
      assert !IsPySpace(s[|s| - 1 - m]);
    }
    if n < |s| {
      assert !IsPySpace(s[|s| - 1 - n]);
    }
  }

  /** Where the stripped text of `s` ends: before the trailing whitespace,
      or at the leading whitespace's end when `s` is all whitespace. */
  function StripEnd(s: string): (e: nat)
    ensures LeadingSpace(s) <= e <= |s|
    ensures e == LeadingSpace(s) <==> LeadingSpace(s) == |s|
    ensures LeadingSpace(s) < |s| ==> e == |s| - TrailingSpace(s)
  {
    var a := LeadingSpace(s);
    if a == |s| then a
    else
      assert !IsPySpace(s[a]);
      |s| - TrailingSpace(s)
  }

  /** `s.strip()`: `s` without its leading and trailing whitespace; it is
      empty exactly when `s` is all whitespace, and text that neither starts
      nor ends with whitespace is left as it is. */
  function Strip(s: string): (r: string)
    ensures |r| <= |s|
    ensures r == [] || (!IsPySpace(r[0]) && !IsPySpace(r[|r| - 1]))
    ensures r == [] <==> AllSpace(s)
    ensures |s| == 0 || (!IsPySpace(s[0]) && !IsPySpace(s[|s| - 1])) ==> r == s
  {
    var a, e := LeadingSpace(s), StripEnd(s);
    assert a < e ==> s[a..e][e - a - 1] == s[|s| - 1 - TrailingSpace(s)];
    s[a..e]
  }

  /** A character that is not whitespace survives the strip. */
  lemma StripKeepsNonSpace(s: string, i: nat)
    requires i < |s| && !IsPySpace(s[i])
    ensures s[i] in Strip(s)
  {
    var a, b := LeadingSpace(s), TrailingSpace(s);
    assert a <= i < |s| - b;
    assert Strip(s)[i - a] == s[i];
  }

  /** Whitespace put around a text is stripped off with the text's own. */
  lemma StripOfPadded(pre: string, s: string, post: string)
    requires AllSpace(pre) && AllSpace(post)
    ensures Strip(pre + s + post) == Strip(s)
  {
    if LeadingSpace(s) == |s| {
      BlankPadded(pre, s, post);
    } else {
      var u := pre + s + post;
      var a, b := LeadingSpace(s), TrailingSpace(s);
      LeadingOfPadded(pre, s, post);
      TrailingOfPadded(pre, s, post);
      var lo, hi := |pre| + a, |pre| + (|s| - b);
      assert LeadingSpace(u) == lo;
      assert TrailingSpace(u) == |u| - hi;
      assert StripEnd(u) == hi;
      assert StripEnd(s) == |s| - b;
      SameSlice(pre, s, post, a, |s| - b);
    }
  }

  lemma BlankPadded(pre: string, s: string, post: string)
    requires AllSpace(pre) && AllSpace(post) && LeadingSpace(s) == |s|
    ensures Strip(pre + s + post) == [] == Strip(s)
  {
    assert AllSpace(s);
    AllSpaceConcat(pre, s);
    AllSpaceConcat(pre + s, post);
  }

  lemma AllSpaceConcat(x: string, y: string)
    requires AllSpace(x) && AllSpace(y)
    ensures AllSpace(x + y)
  {
    forall i | 0 <= i < |x + y|
      ensures IsPySpace((x + y)[i])
    {
      if i < |x| {
        assert (x + y)[i] == x[i];
      } else {
        assert (x + y)[i] == y[i - |x|];
      }
    }
  }

  /** A padded text whose stripped part is the middle text's stripped part
      strips alike. */
  lemma SameSlice(pre: string, s: string, post: string, a: nat, e: nat)
    requires LeadingSpace(s) == a && StripEnd(s) == e
    requires LeadingSpace(pre + s + post) == |pre| + a && StripEnd(pre + s + post) == |pre| + e
    ensures Strip(pre + s + post) == Strip(s)
  {
    var u := pre + s + post;
    assert Strip(u) == u[|pre| + a..|pre| + e];
    assert Strip(s) == s[a..e];
    SliceOfMiddle(pre, s, post, a, e);
  }

  lemma LeadingOfPadded(pre: string, s: string, post: string)
    requires AllSpace(pre) && LeadingSpace(s) < |s|
    ensures LeadingSpace(pre + s + post) == |pre| + LeadingSpace(s)
  {
    var u := pre + s + post;
    var a := LeadingSpace(s);
    forall i | 0 <= i < |pre| + a
      ensures IsPySpace(u[i])
    {
      if i < |pre| {
        assert u[i] == pre[i];
      } else {
        assert u[i] == s[i - |pre|];
      }
    }
    assert u[|pre| + a] == s[a];
    LeadingSpaceIs(u, |pre| + a);
  }

  lemma TrailingOfPadded(pre: string, s: string, post: string)
    requires AllSpace(post) && LeadingSpace(s) < |s|
    ensures TrailingSpace(pre + s + post) == TrailingSpace(s) + |post|
  {
    var u := pre + s + post;
    var b := TrailingSpace(s);
    assert b < |s| by {
      assert !IsPySpace(s[LeadingSpace(s)]);
    }
    forall i | |u| - (b + |post|) <= i < |u|
      ensures IsPySpace(u[i])
    {
      if i < |pre| + |s| {
        assert u[i] == s[i - |pre|];
      } else {
        assert u[i] == post[i - |pre| - |s|];
      }
    }
    assert u[|u| - 1 - (b + |post|)] == s[|s| - 1 - b];
    TrailingSpaceIs(u, b + |post|);
  }

  lemma SliceOfMiddle(pre: string, s: string, post: string, lo: nat, hi: nat)
    requires lo <= hi <= |s|
    ensures (pre + s + post)[|pre| + lo..|pre| + hi] == s[lo..hi]
  {
    var u := pre + s + post;
    forall i | lo <= i < hi
      ensures u[|pre| + i] == s[i]
    {
    }
  }

  /** Python's digit run in an integer literal: at least one ASCII digit,
      every underscore standing between two digits. */
  predicate IsDigitRun(s: string) {
    |s| >= 1 && IsDigit(s[0]) && DigitsAndUnderscores(s) &&
    (forall i :: 0 <= i < |s| - 1 && s[i] == '_' ==> IsDigit(s[i + 1])) &&
    s[|s| - 1] != '_'
  }

  predicate DigitsAndUnderscores(s: string) {
    forall i :: 0 <= i < |s| ==> IsDigit(s[i]) || s[i] == '_'
  }

  /** The digits of a digit run, its underscores dropped. */
  function DropUnderscores(s: string): (r: string)
    requires DigitsAndUnderscores(s)
    ensures IsDigits(r) && |r| <= |s|
    ensures IsDigits(s) ==> r == s
    ensures |s| >= 1 && IsDigit(s[0]) ==> |r| >= 1
    decreases |s|
  {
    if |s| == 0 then ""
    else if s[0] == '_' then DropUnderscores(s[1..])
    else [s[0]] + DropUnderscores(s[1..])
  }

  /** The value of a digit run, or None when the text is not one. */
  function DigitRunValue(s: string): (r: Option<nat>)
    ensures r.Some? <==> IsDigitRun(s)
    ensures IsDigits(s) && |s| >= 1 ==> r == Some(DigitsValue(s))
  {
    if IsDigitRun(s) then
      Some(DigitsValue(DropUnderscores(s)))
    else None
  }

  /** Python's `int(s)` on text: surrounding whitespace is stripped, then an
      optional sign and a digit run (underscores only between digits);
      anything else raises ValueError (None here). Only ASCII digits are
      read. */
  function ParseInt(s: string): (r: Option<int>)
    ensures r.Some? <==> var t := Strip(s);
      IsDigitRun(t) || (|t| >= 1 && (t[0] == '-' || t[0] == '+') && IsDigitRun(t[1..]))
    ensures r.Some? ==> |s| >= 1
    ensures IsDigits(s) && |s| >= 1 ==> r == Some(DigitsValue(s))
  {
    if |s| >= 1 && IsDigits(s) then
      assert IsDigitRun(s);
      NumeralIsNotSpace(s[0]);
      NumeralIsNotSpace(s[|s| - 1]);
      SignedValue(Strip(s))
    else SignedValue(Strip(s))
  }

  /** Whitespace around a number does not change what `int` reads. */
  lemma ParseIntIgnoresPadding(pre: string, s: string, post: string)
    requires AllSpace(pre) && AllSpace(post)
    ensures ParseInt(pre + s + post) == ParseInt(s)
  {
    StripOfPadded(pre, s, post);
  }

  /** An optional sign and a digit run, with nothing around them. */
  function SignedValue(t: string): (r: Option<int>)
    ensures r.Some? <==> IsDigitRun(t) || (|t| >= 1 && (t[0] == '-' || t[0] == '+') && IsDigitRun(t[1..]))
    ensures IsDigitRun(t) ==> r == Some(DigitRunValue(t).value as int)
    ensures |t| >= 1 && t[0] == '-' && IsDigitRun(t[1..]) ==> r == Some(0 - DigitRunValue(t[1..]).value as int)
    ensures |t| >= 1 && t[0] == '+' && IsDigitRun(t[1..]) ==> r == Some(DigitRunValue(t[1..]).value as int)
  {
    if |t| >= 1 && (t[0] == '-' || t[0] == '+') then
      var v := DigitRunValue(t[1..]);
      if v.None? then None
      else if t[0] == '-' then Some(0 - v.value as int)
      else Some(v.value as int)
    else
      var v := DigitRunValue(t);
      if v.None? then None else Some(v.value as int)
  }

  /** Text that starts and ends with a digit, sign or underscore is read as
      it is. */
  lemma ParseUnpadded(s: string)
    requires |s| > 0
    requires IsDigit(s[0]) || s[0] == '-' || s[0] == '+' || s[0] == '_'
    requires IsDigit(s[|s| - 1]) || s[|s| - 1] == '_'
    ensures ParseInt(s) == SignedValue(s)
  {
    NumeralIsNotSpace(s[0]);
    NumeralIsNotSpace(s[|s| - 1]);
  }

  /** Text that is only whitespace (the empty text included) is not a
      number. */
  lemma ParseIntRefusesBlank(s: string)
    requires AllSpace(s)
    ensures ParseInt(s) == None
  {
  }

  /** `int` reads a leading minus sign. */
  lemma ParseIntNegative(x: string)
    requires IsDigits(x) && |x| >= 1
    ensures ParseInt("-" + x).Some? && ParseInt("-" + x).value == -(DigitsValue(x) as int)
  {
    var t := "-" + x;
    assert t[|t| - 1] == x[|x| - 1];
    ParseUnpadded(t);
    SignedNegative(x);
  }

  lemma SignedNegative(x: string)
    requires IsDigits(x) && |x| >= 1
    ensures SignedValue("-" + x).Some? && SignedValue("-" + x).value == -(DigitsValue(x) as int)
  {
    var t := "-" + x;
    assert t[0] == '-' && t[1..] == x;
    assert IsDigitRun(x);
    assert DigitRunValue(x).value == DigitsValue(x);
  }

  lemma DigitsTail(x: string)
    requires IsDigits(x) && |x| >= 1
    ensures IsDigits(x[1..]) && IsDigit(x[0])
  {
    assert forall i :: 0 <= i < |x| - 1 ==> x[1..][i] == x[i + 1];
  }

  /** Dropping the underscores of digits followed by more text keeps the
      digits. */
  lemma {:induction false} DropUnderscoresOfDigits(x: string, z: string)
    requires IsDigits(x) && DigitsAndUnderscores(z)
    ensures DigitsAndUnderscores(x + z)
    ensures DropUnderscores(x + z) == x + DropUnderscores(z)
    decreases |x|
  {
    if |x| == 0 {
      assert x + z == z;
    } else {
      DigitsTail(x);
      DropUnderscoresOfDigits(x[1..], z);
      DropUnderscoresStep(x, z);
    }
  }

  lemma DropUnderscoresStep(x: string, z: string)
    requires |x| >= 1 && IsDigits(x) && DigitsAndUnderscores(x[1..] + z)
    ensures DigitsAndUnderscores(x + z)
    ensures DropUnderscores(x + z) == [x[0]] + DropUnderscores(x[1..] + z)
  {
    var w := x + z;
    assert w[0] == x[0];
    assert w[1..] == x[1..] + z;
    assert forall i :: 1 <= i < |w| ==> w[i] == w[1..][i - 1];
  }

  /** An underscore between two groups of digits does not change the
      number. */
  lemma ParseIntUnderscoreBetweenDigits(x: string, y: string)
    requires IsDigits(x) && |x| >= 1 && IsDigits(y) && |y| >= 1
    ensures ParseInt(x + "_" + y) == ParseInt(x + y)
  {
    var t := x + "_" + y;
    assert t[0] == x[0] && t[|t| - 1] == y[|y| - 1];
    ParseUnpadded(t);
    UnderscoredRun(x, y);
    DigitsConcat(x, y);
    assert ParseInt(t).value == DigitsValue(x + y);
  }

  lemma DigitsConcat(x: string, y: string)
    requires IsDigits(x) && IsDigits(y)
    ensures IsDigits(x + y)
  {
    var u := x + y;
    forall i | 0 <= i < |u|
      ensures IsDigit(u[i])
    {
      if i < |x| {
        assert u[i] == x[i];
      } else {
        assert u[i] == y[i - |x|];
      }
    }
  }

  /** Digits, one underscore and digits form a digit run whose digits are
      the two groups. */
  lemma UnderscoredRun(x: string, y: string)
    requires IsDigits(x) && |x| >= 1 && IsDigits(y) && |y| >= 1
    ensures IsDigitRun(x + "_" + y)
    ensures DropUnderscores(x + "_" + y) == x + y
  {
    var r := "_" + y;
    LeadingUnderscore(y);
    DropUnderscoresOfDigits(x, r);
    assert x + "_" + y == x + r;
    OneUnderscoreIsFollowed(x, y);
  }

  lemma LeadingUnderscore(y: string)
    requires IsDigits(y)
    ensures DigitsAndUnderscores("_" + y) && DropUnderscores("_" + y) == y
  {
    assert ("_" + y)[1..] == y;
  }

  lemma OneUnderscoreIsFollowed(x: string, y: string)
    requires IsDigits(x) && |y| >= 1 && IsDigits(y)
    ensures var t := x + "_" + y; forall i :: 0 <= i < |t| - 1 && t[i] == '_' ==> IsDigit(t[i + 1])
  {
    var t := x + "_" + y;
    assert forall j :: 0 <= j < |x| ==> t[j] == x[j];
    assert forall j :: |x| < j < |t| ==> t[j] == y[j - |x| - 1];
  }

  /** Two underscores in a row make the text not a number. */
  lemma ParseIntRefusesDoubledUnderscore(x: string, y: string)
    requires IsDigits(x) && |x| >= 1 && IsDigits(y) && |y| >= 1
    ensures ParseInt(x + "__" + y) == None
  {
    var t := x + "__" + y;
    assert t[0] == x[0] && t[|t| - 1] == y[|y| - 1];
    ParseUnpadded(t);
    assert t[|x|] == '_' && t[|x| + 1] == '_';
  }

  /** A number may neither start nor end with an underscore. */
  lemma ParseIntRefusesOuterUnderscore(x: string)
    requires IsDigits(x) && |x| >= 1
    ensures ParseInt("_" + x) == None
    ensures ParseInt(x + "_") == None
  {
    var t, u := "_" + x, x + "_";
    assert t[|t| - 1] == x[|x| - 1];
    ParseUnpadded(t);
    assert u[0] == x[0];
    ParseUnpadded(u);
  }

  /** No whitespace may stand between the sign and the digits. */
  lemma ParseIntRefusesSpaceAfterSign(x: string)
    requires IsDigits(x) && |x| >= 1
    ensures ParseInt("- " + x) == None
  {
    var t := "- " + x;
    assert t[|t| - 1] == x[|x| - 1];
    ParseUnpadded(t);
    assert t[1..][0] == ' ';
  }

  /** Rendering a number and parsing it back gives the number. */
  lemma ParseIntOfNatToString(n: nat)
    ensures ParseInt(NatToString(n)) == Some(n)
  {
    DigitsValueOfNatToString(n);
  }
}

=== FILE: users_managers.dfy ===
/** `CustomUserManager`: creating users and superusers. The e-mail address
    is normalised (the domain after the last "@" lower-cased) and then
    checked by Django's validator, which this model takes as a parameter,
    as it takes the password hasher and the default roles. */
module UserManagers {
  import opened Wrappers
  import opened Text
  import opened UserModels
  import opened Tables

  /** `BaseUserManager.normalize_email`: without "@" the address is left
      alone; otherwise surrounding whitespace is stripped and the part after
      the last "@" is lower-cased. */
  function NormalizeEmail(email: string): (r: string)
    ensures '@' !in email ==> r == email
    ensures '@' in email ==> '@' in r && |r| == |Strip(email)|
    ensures '@' in email ==>
      forall i :: 0 <= i < |r| ==> r[i] == Strip(email)[i] || r[i] == AsciiLowerChar(Strip(email)[i])
  {
    if '@' !in email then email
    else
      AtSurvivesStrip(email);
      LowerDomain(Strip(email))
  }

  /** `name, domain = t.rsplit("@", 1)` and `name + "@" + domain.lower()`. */
  function LowerDomain(t: string): (r: string)
    requires '@' in t
    ensures '@' in r && |r| == |t|
    ensures forall i :: 0 <= i < |t| ==> r[i] == t[i] || r[i] == AsciiLowerChar(t[i])
  {
    var ps := Split(t, '@');
    var init := ps[..|ps| - 1];
    var domain := ps[|ps| - 1];
    JoinSnoc(init, domain, '@');
    assert init + [domain] == ps;
    JoinSplit(t, '@');
    Join(init, '@') + "@" + AsciiLower(domain)
  }

  /** Normalising twice gives what normalising once gives. */
  lemma NormalizeEmailIdempotent(email: string)
    ensures NormalizeEmail(NormalizeEmail(email)) == NormalizeEmail(email)
  {
    if '@' in email {
      NormalizedIsStripped(email);
      LowerDomainIdempotent(Strip(email));
    }
  }

  /** Lower-casing the domain twice is lower-casing it once. */
  lemma LowerDomainIdempotent(t: string)
    requires '@' in t
    ensures LowerDomain(LowerDomain(t)) == LowerDomain(t)
  {
    var ps := Split(t, '@');
    var init := ps[..|ps| - 1];
    var domain := AsciiLower(ps[|ps| - 1]);
    var r := LowerDomain(t);
    assert r == Join(init, '@') + "@" + domain;
    assert '@' !in domain by {
      forall i | 0 <= i < |domain| ensures domain[i] != '@' {
        assert ps[|ps| - 1][i] != '@';
      }
    }
    JoinSnoc(init, domain, '@');
    assert r == Join(init + [domain], '@');
    SplitJoin(init + [domain], '@');
    var qs := Split(r, '@');
    assert qs == init + [domain];
    assert qs[..|qs| - 1] == init;
    AsciiLowerIdempotent(ps[|ps| - 1]);
  }

  /** Stripping keeps an address's "@". */
  lemma AtSurvivesStrip(email: string)
    requires '@' in email
    ensures '@' in Strip(email)
  {
    var k :| 0 <= k < |email| && email[k] == '@';
    StripKeepsNonSpace(email, k);
  }

  /** A normalised address has no surrounding whitespace left to strip. */
  lemma NormalizedIsStripped(email: string)
    requires '@' in email
    ensures Strip(NormalizeEmail(email)) == NormalizeEmail(email)
  {
    var t := Strip(email);
    var r := NormalizeEmail(email);
    assert |t| > 0;
    LowerKeepsNonSpace(t[0]);
    LowerKeepsNonSpace(t[|t| - 1]);
    assert !IsPySpace(r[0]) && !IsPySpace(r[|r| - 1]);
  }

  /** Lower-casing never turns a character into whitespace. */
  lemma LowerKeepsNonSpace(ch: char)
    requires !IsPySpace(ch)
    ensures !IsPySpace(AsciiLowerChar(ch))
  {
  }

  /** Why `create_user` or `create_superuser` raises: a `ValueError` of its
      own checks, or the database's `IntegrityError`. */
  datatype CreateUserError =
    | NoFirstName       // "Users must have a first name."
    | NoLastName        // "Users must have a last name."
    | InvalidEmail      // "Users must have a valid email address."
    | NoEmail           // "Users must have an email address."
    | NotStaff          // "Superuser must have is_staff=True."
    | NotSuperuser      // "Superuser must have is_superuser=True."
    | NoPassword        // "Superuser must have a password."
    | SuperuserNoEmail  // "Superuser must have an email address."
    | Duplicate         // IntegrityError: another user has the e-mail or the username

  /** The checks of `create_user`, in order: first name, last name, then the
      e-mail: missing, or invalid once normalised. */
  function CreateUserCheck(firstName: string, lastName: string, email: string, isValidEmail: string -> bool)
    : (r: Option<CreateUserError>)
    ensures r.None? <==> firstName != "" && lastName != "" && email != "" && isValidEmail(NormalizeEmail(email))
    ensures r == Some(NoFirstName) <==> firstName == ""
    ensures r == Some(NoLastName) <==> firstName != "" && lastName == ""
    ensures r == Some(NoEmail) <==> firstName != "" && lastName != "" && email == ""
    ensures r == Some(InvalidEmail) <==>
      firstName != "" && lastName != "" && email != "" && !isValidEmail(NormalizeEmail(email))
  {
    if firstName == "" then Some(NoFirstName)
    else if lastName == "" then Some(NoLastName)
    else if email == "" then Some(NoEmail)
    else if !isValidEmail(NormalizeEmail(email)) then Some(InvalidEmail)
    else None
  }

  /** The `**extra_fields` this model follows: a flag or role absent (or a
      role given as None) is None. */
  datatype ExtraFields = ExtraFields(
    isStaff: Option<bool>, isSuperuser: Option<bool>, isActive: Option<bool>,
    role: Option<RoleId>, username: Option<string>, businessType: Option<string>)

  /** The three `setdefault` calls of `create_user`: a flag the caller gave
      is kept, a missing one gets its default. */
  function UserDefaults(extra: ExtraFields): (r: ExtraFields)
    ensures r.isStaff == Some(extra.isStaff.GetOr(false))
    ensures r.isSuperuser == Some(extra.isSuperuser.GetOr(false))
    ensures r.isActive == Some(extra.isActive.GetOr(true))
    ensures r.role == extra.role && r.username == extra.username && r.businessType == extra.businessType
  {
    extra.(isStaff := Some(extra.isStaff.GetOr(false)),
           isSuperuser := Some(extra.isSuperuser.GetOr(false)),
           isActive := Some(extra.isActive.GetOr(true)))
  }

  /** Applying the defaults again changes nothing. */
  lemma UserDefaultsIdempotent(extra: ExtraFields)
    ensures UserDefaults(UserDefaults(extra)) == UserDefaults(extra)
  {
  }

  /** `create_user`. `stored` holds the other users' e-mails and usernames.
      The checks fail first; a user passing them is refused by the database
      when its normalised e-mail or its username is taken. On success the
      user is new, carries the normalised e-mail, the flags after
      `setdefault`, the given role or the default one, a hashed password
      when one was given (unusable otherwise), and the username `save`
      settles on. */
  method CreateUser(firstName: string, lastName: string, email: string, password: Option<string>,
                    extra: ExtraFields, defaultRole: RoleId, stored: StoredKeys,
                    isValidEmail: string -> bool, hash: string -> string)
    returns (r: Result<User, CreateUserError>)
    ensures r.Failure? <==>
      CreateUserCheck(firstName, lastName, email, isValidEmail).Some? ||
      Clashes(stored, NormalizeEmail(email), SavedUsername(extra.username, NormalizeEmail(email)))
    ensures r.Failure? && CreateUserCheck(firstName, lastName, email, isValidEmail).Some? ==>
      Some(r.error) == CreateUserCheck(firstName, lastName, email, isValidEmail)
    ensures r.Failure? && CreateUserCheck(firstName, lastName, email, isValidEmail).None? ==> r.error == Duplicate
    ensures r.Success? ==> fresh(r.value)
    ensures r.Success? ==>
      var u := r.value;
      && u.firstName == firstName && u.lastName == lastName
      && u.email == NormalizeEmail(email)
      && u.isStaff == extra.isStaff.GetOr(false)
      && u.isSuperuser == extra.isSuperuser.GetOr(false)
      && u.isActive == extra.isActive.GetOr(true)
      && u.role == Some(extra.role.GetOr(defaultRole))
      && u.businessType == extra.businessType
      && (password.Some? && password.value != "" ==> u.password == Hashed(hash(password.value)))
      && (password.None? || password.value == "" ==> u.password == Unusable)
      && (extra.username.Some? && extra.username.value != "" ==> u.username == extra.username)
      && (extra.username.None? || extra.username.value == "" ==> u.username == UsernameFromEmail(NormalizeEmail(email)))
  {
    if firstName == "" {
      return Failure(NoFirstName);
    }
    if lastName == "" {
      return Failure(NoLastName);
    }
    var normalized := email;
    if email != "" {
      normalized := NormalizeEmail(email);
      if !isValidEmail(normalized) {
        return Failure(InvalidEmail);
      }
    } else {
      return Failure(NoEmail);
    }
    assert CreateUserCheck(firstName, lastName, email, isValidEmail).None?;
    var user, saved := NewUser(firstName, lastName, normalized, password, extra, defaultRole, stored, hash);
    if saved.Some? {
      return Failure(Duplicate);
    }
    return Success(user);
  }

  /** `self.model(...)`, `set_password` and `save` on a checked request:
      the flags after `setdefault`, the given role or the default one, a
      hashed password when one was given (unusable otherwise), and the
      username `save` settles on; the save is refused exactly when the
      e-mail or that username is taken. */
  method NewUser(firstName: string, lastName: string, email: string, password: Option<string>,
                 extra: ExtraFields, defaultRole: RoleId, stored: StoredKeys, hash: string -> string)
    returns (u: User, saved: Option<IntegrityError>)
    ensures fresh(u)
    ensures saved.Some? <==> Clashes(stored, email, SavedUsername(extra.username, email))
    ensures && u.firstName == firstName && u.lastName == lastName && u.email == email
      && u.isStaff == extra.isStaff.GetOr(false)
      && u.isSuperuser == extra.isSuperuser.GetOr(false)
      && u.isActive == extra.isActive.GetOr(true)
      && u.role == Some(extra.role.GetOr(defaultRole))
      && u.businessType == extra.businessType
      && (password.Some? && password.value != "" ==> u.password == Hashed(hash(password.value)))
      && (password.None? || password.value == "" ==> u.password == Unusable)
      && (extra.username.Some? && extra.username.value != "" ==> u.username == extra.username)
      && (extra.username.None? || extra.username.value == "" ==> u.username == UsernameFromEmail(email))
  {
    var fields := UserDefaults(extra);
    if fields.role.None? {
      fields := fields.(role := Some(defaultRole));
    }
    u := new User(firstName, lastName, email, fields.username, fields.businessType, fields.role,
                  fields.isStaff.value, fields.isSuperuser.value, fields.isActive.value);
    if password.Some? && password.value != "" {
      u.password := Hashed(hash(password.value));
    } else {
      u.password := Unusable;
    }
    saved := u.Save(stored);
  }

  /** The checks `create_superuser` adds before `create_user`'s own: after
      defaulting both flags to True, each must be True; then a password and
      an e-mail must be given. */
  function SuperuserCheck(email: string, password: Option<string>, extra: ExtraFields): (r: Option<CreateUserError>)
    ensures r.None? <==>
      extra.isStaff != Some(false) && extra.isSuperuser != Some(false) &&
      password.Some? && password.value != "" && email != ""
    ensures r == Some(NotStaff) <==> extra.isStaff == Some(false)
    ensures r == Some(NotSuperuser) <==> extra.isStaff != Some(false) && extra.isSuperuser == Some(false)
    ensures r == Some(NoPassword) <==>
      extra.isStaff != Some(false) && extra.isSuperuser != Some(false) && (password.None? || password.value == "")
  {
    if !extra.isStaff.GetOr(true) then Some(NotStaff)
    else if !extra.isSuperuser.GetOr(true) then Some(NotSuperuser)
    else if password.None? || password.value == "" then Some(NoPassword)
    else if email == "" then Some(SuperuserNoEmail)
    else None
  }

  /** `create_superuser`: both flags default to True and must stay True, a
      password and an e-mail are required, and a superuser with no role gets
      the default admin role before `create_user` runs its own checks and
      the database its unique columns. */
  method CreateSuperuser(firstName: string, lastName: string, email: string, password: Option<string>,
                         extra: ExtraFields, defaultRole: RoleId, defaultAdminRole: RoleId, stored: StoredKeys,
                         isValidEmail: string -> bool, hash: string -> string)
    returns (r: Result<User, CreateUserError>)
    ensures r.Success? <==>
      SuperuserCheck(email, password, extra).None? && CreateUserCheck(firstName, lastName, email, isValidEmail).None? &&
      !Clashes(stored, NormalizeEmail(email), SavedUsername(extra.username, NormalizeEmail(email)))
    ensures r.Failure? && SuperuserCheck(email, password, extra).Some? ==> Some(r.error) == SuperuserCheck(email, password, extra)
    ensures r.Success? ==> fresh(r.value)
    ensures r.Success? ==>
      && r.value.isStaff && r.value.isSuperuser && r.value.isActive == extra.isActive.GetOr(true)
      && r.value.role == Some(extra.role.GetOr(defaultAdminRole))
      && r.value.password == Hashed(hash(password.value))
      && r.value.email == NormalizeEmail(email)
  {
    var fields := extra.(isStaff := Some(extra.isStaff.GetOr(true)),
                         isSuperuser := Some(extra.isSuperuser.GetOr(true)),
                         isActive := Some(extra.isActive.GetOr(true)));
    if !fields.isStaff.value {
      return Failure(NotStaff);
    }
    if !fields.isSuperuser.value {
      return Failure(NotSuperuser);
    }
    if password.None? || password.value == "" {
      return Failure(NoPassword);
    }
    if email == "" {
      return Failure(SuperuserNoEmail);
    }
    if fields.role.None? {
      fields := fields.(role := Some(defaultAdminRole));
    }
    r := CreateUser(firstName, lastName, email, password, fields, defaultRole, stored, isValidEmail, hash);
  }
}

=== FILE: users_models.dfy ===
/** The `users` app's `User` model: the six business types, the full and
    short names, and `save`, which fills an empty username from the e-mail
    address when it splits into exactly two parts at "@". */
module UserModels {
  import opened Wrappers
  import opened Text
  import opened Tables

  /** `User.BUSINESS_TYPES`: the stored keys. */
  const BusinessTypes: seq<string> := ["restaurant", "shop", "hospital", "warehouse", "factory", "transport"]

  /** A `business_type` column value: null or one of the six keys. */
  predicate ValidBusinessType(b: Option<string>) {
    b.None? || b.value in BusinessTypes
  }

  type RoleId = nat

  /** The stored password: not set yet (the empty column), a digest made by
      the hasher, or unusable. */
  datatype Password = NotSet | Hashed(digest: string) | Unusable

  /** `get_full_name`: both names title-cased, joined by one space. */
  function FullName(firstName: string, lastName: string): (r: string)
    ensures |r| == |firstName| + 1 + |lastName|
  {
    AsciiTitle(firstName) + " " + AsciiTitle(lastName)
  }

  /** The full name is never empty (so `__str__` never falls back to the
      e-mail), and it splits back into the two title-cased names at the
      space after the first one. */
  lemma FullNameParts(firstName: string, lastName: string)
    ensures FullName(firstName, lastName) != ""
    ensures FullName(firstName, lastName)[..|firstName|] == AsciiTitle(firstName)
    ensures FullName(firstName, lastName)[|firstName|] == ' '
    ensures FullName(firstName, lastName)[|firstName| + 1..] == AsciiTitle(lastName)
  {
    var f := FullName(firstName, lastName);
    assert f[..|firstName|] == AsciiTitle(firstName);
    assert f[|firstName| + 1..] == AsciiTitle(lastName);
  }

  /** Title-casing the names of a full name again gives the same full name. */
  lemma FullNameStable(firstName: string, lastName: string)
    ensures FullName(AsciiTitle(firstName), AsciiTitle(lastName)) == FullName(firstName, lastName)
  {
    AsciiTitleIdempotent(firstName);
    AsciiTitleIdempotent(lastName);
  }

  /** `__str__`: the full name, or the e-mail when the full name is empty. */
  function UserString(firstName: string, lastName: string, email: string): (r: string)
    ensures r == FullName(firstName, lastName)
  {
    var full := FullName(firstName, lastName);
    if full != "" then full else email
  }

  /** `email.split("@")` unpacked into two names: the part before "@" when
      there is exactly one "@", None (the `except` branch) otherwise. */
  function UsernameFromEmail(email: string): (r: Option<string>)
    ensures r.Some? <==> |Split(email, '@')| == 2
    ensures r.Some? ==> '@' !in r.value && r.value == FirstPiece(email, '@')
  {
    var parts := Split(email, '@');
    if |parts| == 2 then
      FirstPieceIsSplitHead(email, '@');
      Some(parts[0])
    else None
  }

  /** The username `save` settles on for a row with this username and e-mail. */
  function SavedUsername(username: Option<string>, email: string): Option<string> {
    if username.Some? && username.value != "" then username else UsernameFromEmail(email)
  }

  /** An address `local@domain` with one "@" gives the username `local`. */
  lemma UsernameOfAddress(local: string, domain: string)
    requires '@' !in local && '@' !in domain
    ensures UsernameFromEmail(local + "@" + domain) == Some(local)
  {
    SplitAppend(local, domain, '@');
    SplitNoSeparator(domain, '@');
    assert local + "@" + domain == local + ['@'] + domain;
  }

  /** An address with no "@", or with "@" after the single separator, gives no username. */
  lemma UsernameOfOddAddress(local: string, rest: string)
    requires '@' !in local && '@' in rest
    ensures UsernameFromEmail(local + "@" + rest).None?
    ensures UsernameFromEmail(local).None?
  {
    SplitAppend(local, rest, '@');
    assert local + "@" + rest == local + ['@'] + rest;
    assert |Split(rest, '@')| >= 2;
    SplitNoSeparator(local, '@');
  }

  /** What the other stored users hold in the two unique columns. */
  datatype StoredKeys = StoredKeys(emails: set<string>, usernames: set<string>)

  /** A row with this e-mail and username breaks `unique=True` on `email` or
      on `username`; a NULL username never clashes. */
  predicate Clashes(stored: StoredKeys, email: string, username: Option<string>) {
    email in stored.emails || (username.Some? && username.value in stored.usernames)
  }

  /** A stored user, as far as this model follows it. */
  class User {
    var firstName: string
    var lastName: string
    var email: string
    var username: Option<string>
    var businessType: Option<string>
    var role: Option<RoleId>
    var isStaff: bool
    var isSuperuser: bool
    var isActive: bool
    var password: Password

    /** The model constructor: the given columns, and no password yet. */
    constructor (firstName: string, lastName: string, email: string, username: Option<string>,
                 businessType: Option<string>, role: Option<RoleId>,
                 isStaff: bool, isSuperuser: bool, isActive: bool)
      ensures this.firstName == firstName && this.lastName == lastName && this.email == email
      ensures this.username == username && this.businessType == businessType && this.role == role
      ensures this.isStaff == isStaff && this.isSuperuser == isSuperuser && this.isActive == isActive
      ensures password == NotSet
    {
      this.firstName := firstName;
      this.lastName := lastName;
      this.email := email;
      this.username := username;
      this.businessType := businessType;
      this.role := role;
      this.isStaff := isStaff;
      this.isSuperuser := isSuperuser;
      this.isActive := isActive;
      password := NotSet;
    }

    /** `get_short_name`. */
    function ShortName(): (r: string)
      reads this
      ensures r == firstName
    {
      firstName
    }

    /** `User.save`: a non-empty username is kept; an empty or missing one
        is taken from the e-mail, or becomes None when that fails. Then the
        row is written, and the database refuses it when another stored user
        (`stored`) has its e-mail or its username; the username stays as
        derived either way. */
    method Save(stored: StoredKeys) returns (r: Option<IntegrityError>)
      modifies this`username
      ensures old(username).Some? && old(username).value != "" ==> username == old(username)
      ensures old(username).None? || old(username).value == "" ==> username == UsernameFromEmail(email)
      ensures r.Some? <==> Clashes(stored, email, username)
    {
      if username.None? || username.value == "" {
        username := UsernameFromEmail(email);
      }
      r := if Clashes(stored, email, username) then Some(IntegrityError) else None;
    }
  }
}

=== FILE: users_serializers.dfy ===
/** The `users` app's serializers: registration (matching passwords, the
    username taken from the e-mail when none is given, the default role, a
    hashed password), the `admin` flag added to a superuser's
    representation, and the profile-photo URL that falls back to None. */
module UserSerializers {
  import opened Wrappers
  import opened Text
  import opened UserModels
  import opened Tables

  /** `CustomRegisterSerializer.validate`: the two passwords must be equal;
      the error is reported under "password". */
  function ValidatePasswords(password1: string, password2: string): (r: Result<(), map<string, string>>)
    ensures r.Success? <==> password1 == password2
    ensures r.Failure? ==> r.error == map["password" := "Passwords must match."]
  {
    if password1 != password2 then Failure(map["password" := "Passwords must match."]) else Success(())
  }

  /** The username registration asks for: the given one when it is
      non-empty, else the e-mail text before its first "@". */
  function RegisteredUsername(username: Option<string>, email: string): (r: string)
    ensures username.Some? && username.value != "" ==> r == username.value
    ensures username.None? || username.value == "" ==> r == FirstPiece(email, '@') && '@' !in r
    ensures username.None? || username.value == "" ==> |r| <= |email| && r == email[..|r|]
  {
    if username.Some? && username.value != "" then username.value
    else
      FirstPieceIsPrefix(email, '@');
      FirstPiece(email, '@')
  }

  /** For an address with exactly one "@", registration and `User.save`
      derive the same username from it. */
  lemma RegisteredUsernameAgreesWithSave(email: string)
    requires UsernameFromEmail(email).Some?
    ensures RegisteredUsername(None, email) == UsernameFromEmail(email).value
  {
  }

  /** `CustomRegisterSerializer.create`: `password2` is dropped, the user is
      created active, not staff, with the default role and the business type
      as given (or None), and `password1` only reaches the user through the
      hasher. `User.objects.create` and the final `save` both go through
      `User.save`, which re-derives an empty username. The serializer
      declares `username` and `email` itself, so no uniqueness validator
      runs: the insert is refused when another stored user (`stored`) has
      the e-mail or the username. */
  method Register(username: Option<string>, firstName: string, lastName: string, email: string,
                  businessType: Option<string>, password1: string, defaultRole: RoleId, stored: StoredKeys,
                  hash: string -> string)
    returns (r: Result<User, IntegrityError>)
    ensures r.Failure? <==> Clashes(stored, email, SavedUsername(Some(RegisteredUsername(username, email)), email))
    ensures r.Success? ==> fresh(r.value)
    ensures r.Success? ==>
      var user := r.value;
      && user.firstName == firstName && user.lastName == lastName && user.email == email
      && user.businessType == businessType && user.role == Some(defaultRole)
      && user.isActive && !user.isStaff && !user.isSuperuser
      && user.password == Hashed(hash(password1))
      && (RegisteredUsername(username, email) != "" ==> user.username == Some(RegisteredUsername(username, email)))
      && (RegisteredUsername(username, email) == "" ==> user.username == UsernameFromEmail(email))
  {
    var name := RegisteredUsername(username, email);
    var user := new User(firstName, lastName, email, Some(name), businessType, Some(defaultRole), false, false, true);
    var inserted := user.Save(stored);
    if inserted.Some? {
      return Failure(inserted.value);
    }
    user.password := Hashed(hash(password1));
    // The second `save` updates the row just inserted, with the same keys.
    var updated := user.Save(stored);
    return Success(user);
  }

  /** A value of a serialised representation. */
  datatype Field = Text(text: string) | Flag(flag: bool) | Null

  /** `UserSerializer.to_representation`: the fields as serialised, plus
      `admin` = True for a superuser. The serialised fields never include
      `admin`. */
  function ToRepresentation(fields: map<string, Field>, isSuperuser: bool): (r: map<string, Field>)
    requires "admin" !in fields
    ensures "admin" in r <==> isSuperuser
    ensures isSuperuser ==> r["admin"] == Flag(true)
    ensures r.Keys - {"admin"} == fields.Keys
    ensures forall k :: k in fields ==> r[k] == fields[k]
  {
    if isSuperuser then fields["admin" := Flag(true)] else fields
  }

  /** What `obj.profile.profile_photo` turns out to be. */
  datatype PhotoLookup =
    | NoProfile             // the related profile is missing: the accessor raises
    | EmptyPhoto            // no file: falsy
    | PhotoWithoutUrl       // no `url` attribute
    | PhotoUrlRaises        // reading `url` raises (no storage, say)
    | PhotoAt(url: string)

  /** `UserSerializer.get_profile_photo`: the URL when there is one, None on
      any failure. */
  function GetProfilePhoto(photo: PhotoLookup): (r: Option<string>)
    ensures r.Some? <==> photo.PhotoAt?
    ensures r.Some? ==> r.value == photo.url
  {
    match photo
    case PhotoAt(url) => Some(url)
    case _ => None
  }
}

=== FILE: vendor_utils.dfy ===
/** `user_directory_path`, the upload path of vendor images: the file is
    renamed after its owner's id (or "file" when no owner is found) and
    keeps only its extension. */
module VendorUtils {
  import opened Wrappers
  import opened Text

  /** What the upload's instance offers on the way to an owner: its `user`,
      its vendor's user, its product's vendor's user, each the owner's id
      when that attribute exists and is set. */
  datatype UploadInstance = UploadInstance(user: Option<string>, vendorUser: Option<string>, productVendorUser: Option<string>)

  /** The owner, looked for in that order. */
  function Owner(instance: UploadInstance): (r: Option<string>)
    ensures instance.user.Some? ==> r == instance.user
    ensures instance.user.None? && instance.vendorUser.Some? ==> r == instance.vendorUser
    ensures instance.user.None? && instance.vendorUser.None? ==> r == instance.productVendorUser
  {
    if instance.user.Some? then instance.user
    else if instance.vendorUser.Some? then instance.vendorUser
    else instance.productVendorUser
  }

  /** `filename.split('.')[-1]`: the text after the last ".", or the whole
      name when there is none. */
  function Extension(filename: string): (r: string)
    ensures '.' !in r
    ensures '.' !in filename ==> r == filename
  {
    LastPiece(filename, '.')
  }

  /** `user_directory_path(instance, filename)`. */
  function UserDirectoryPath(instance: UploadInstance, filename: string): (r: string)
    ensures Owner(instance).Some? ==>
      r == "user_" + Owner(instance).value + "/" + Owner(instance).value + "." + Extension(filename)
    ensures Owner(instance).None? ==> r == "user_file/file." + Extension(filename)
  {
    var ext := Extension(filename);
    match Owner(instance)
    case Some(id) => "user_" + id + "/" + id + "." + ext
    case None => "user_file/file." + ext
  }

  /** Only the extension of the uploaded name matters: two names with the
      same extension are stored at the same path. */
  lemma PathIgnoresBaseName(instance: UploadInstance, base1: string, base2: string, ext: string)
    requires '.' !in ext
    ensures UserDirectoryPath(instance, base1 + "." + ext) == UserDirectoryPath(instance, base2 + "." + ext)
  {
    ExtensionOf(base1, ext);
    ExtensionOf(base2, ext);
  }

  /** The extension of `base.ext` is `ext`, whatever `base` holds. */
  lemma ExtensionOf(base: string, ext: string)
    requires '.' !in ext
    ensures Extension(base + "." + ext) == ext
  {
    assert base + "." + ext == base + ['.'] + ext;
    SplitConcat(base, ext, '.');
    SplitNoSeparator(ext, '.');
  }

  /** The stored path keeps the upload's extension when the owner's id has
      no "." in it (user ids are UUIDs). */
  lemma PathKeepsExtension(instance: UploadInstance, filename: string)
    requires Owner(instance).Some? ==> '.' !in Owner(instance).value
    ensures Extension(UserDirectoryPath(instance, filename)) == Extension(filename)
  {
    var ext := Extension(filename);
    match Owner(instance)
    case Some(id) =>
      assert UserDirectoryPath(instance, filename) == ("user_" + id + "/" + id) + "." + ext;
      ExtensionOf("user_" + id + "/" + id, ext);
    case None =>
      assert UserDirectoryPath(instance, filename) == "user_file/file" + "." + ext;
      ExtensionOf("user_file/file", ext);
  }
}

=== FILE: vendor_views.dfy ===
/** `VendorRegister.create`: a logged-in user registers one vendor profile;
    a second attempt is refused with 400 and creates nothing. */
module VendorViews {
  import opened Wrappers

  type UserId = nat

  /** A row of the `Vendor` table as this view writes it. */
  datatype VendorRow = VendorRow(
    id: nat, user: UserId, image: Option<string>, name: Option<string>,
    email: Option<string>, description: Option<string>, mobile: Option<string>)

  /** The response of the view. */
  datatype RegisterResponse =
    | AlreadyExists400   // {"error": "Vendor profile already exists for this user."}
    | Created201(vendorId: nat)

  /** The fields read with `request.data.get(...)`: None when missing. */
  datatype VendorBody = VendorBody(
    image: Option<string>, name: Option<string>, email: Option<string>,
    description: Option<string>, mobile: Option<string>)

  /** `Vendor.objects.filter(user=user).exists()`. */
  predicate HasVendor(vendors: seq<VendorRow>, user: UserId) {
    exists i :: 0 <= i < |vendors| && vendors[i].user == user
  }

  /** The `Vendor` table and the next id it hands out. */
  class VendorStore {
    var vendors: seq<VendorRow>
    var nextId: nat

    /** Every user owns at most one vendor, and ids are below `nextId`. */
    ghost predicate Valid()
      reads this
    {
      (forall i, j :: 0 <= i < j < |vendors| ==> vendors[i].user != vendors[j].user)
      && (forall i :: 0 <= i < |vendors| ==> vendors[i].id < nextId)
    }

    constructor ()
      ensures Valid() && vendors == [] && nextId == 0
    {
      vendors := [];
      nextId := 0;
    }

    /** `VendorRegister.create` for the logged-in `requester`: the vendor's
        user is always the requester, whatever the body holds; the five
        fields are copied from the body. */
    method Register(requester: UserId, body: VendorBody) returns (r: RegisterResponse)
      requires Valid()
      modifies this
      ensures Valid()
      ensures r == AlreadyExists400 <==> HasVendor(old(vendors), requester)
      ensures r == AlreadyExists400 ==> vendors == old(vendors) && nextId == old(nextId)
      ensures r.Created201? ==>
        r.vendorId == old(nextId) &&
        vendors == old(vendors) + [VendorRow(old(nextId), requester, body.image, body.name, body.email,
                                             body.description, body.mobile)]
    {
      var k := 0;
      while k < |vendors|
        invariant 0 <= k <= |vendors|
        invariant forall i :: 0 <= i < k ==> vendors[i].user != requester
      {
        if vendors[k].user == requester {
          return AlreadyExists400;
        }
        k := k + 1;
      }
      var vendor := VendorRow(nextId, requester, body.image, body.name, body.email, body.description, body.mobile);
      vendors := vendors + [vendor];
      nextId := nextId + 1;
      return Created201(vendor.id);
    }
  }

  /** After a registration, the requester owns a vendor, so a second one is refused. */
  method RegisterTwice(store: VendorStore, requester: UserId, first: VendorBody, second: VendorBody)
    returns (r1: RegisterResponse, r2: RegisterResponse)
    requires store.Valid()
    modifies store
    ensures store.Valid()
    ensures r2 == AlreadyExists400
  {
    r1 := store.Register(requester, first);
    assert HasVendor(store.vendors, requester) by {
      if r1.Created201? {
        assert store.vendors[|store.vendors| - 1].user == requester;
      }
    }
    r2 := store.Register(requester, second);
  }
}

=== FILE: wrappers.dfy ===
/** Option and Result: the shape every modelled operation uses for a value
    that may be missing (Python None, JavaScript null/undefined) and for an
    operation that may raise instead of returning. */
module Wrappers {

  datatype Option<+T> = None | Some(value: T) {
    function GetOr(default: T): T {
      match this
      case Some(v) => v
      case None => default
    }
  }

  datatype Result<+T, +E> = Success(value: T) | Failure(error: E)
}
